=== FILE: README.md ===
# ji18n in Dafny

A model of the logic at the heart of ji18n, a Java library for annotated message contracts.

On the runtime side it covers:

- `MessageFactory`: locale-string parsing, candidate-name expansion, and the `create` cache with bundle fabrication.
- `MessageHandler`: formatting and dispatch for a message proxy.
- `ThreadLocale` and `LocaleManager`: the locale context, with a global mode and per-thread slots.

On the build side it covers the Maven plugin's generator, `I18nMojo`:

- bundle identity (`ResourceBundleDefinition`);
- `writeMessage` with its three verifiers (unescaped newline, quoted placeholder, duplicate key);
- `processClass` over a plain description of a contract;
- the promotion of default-locale bundles after the scan.

One Dafny module per concern, one file each:

| module | file | models |
|---|---|---|
| `Results` | results.dfy | `Option`, `Result` and the Java runtime exceptions the core throws |
| `Strings` | strings.dfy | `indexOf`, `indexOf("\r\n")`, `trim` with Java's conventions |
| `Locales` | locales.dfy | `Locale` as a (language, country, variant) triple; `toString`, `split("_")`, `parseLocaleString`, `expand` |
| `Annotations` | annotations.dfy | `@ResourceBundle`, `@Message`, `BundleType`, and a contract as plain data |
| `MessageHandler` | handler.dfy | `formatArgs`, `format`, `getBundle`, `getLocale`, `invoke` as a dispatch over call kinds |
| `ThreadLocale` | threadlocale.dfy | the mode bit, the global slot and the per-thread slots |
| `LocaleManager` | localemanager.dfy | the two-step setters over the shared `ThreadLocale` |
| `MessageFactory` | factory.dfy | `create` (all overloads), `fabricateBundle`, the cache and its counters |
| `Verifiers` | verifiers.dfy | `checkNewlines` and `checkSingleQuotes` as loops, with loop-free characterisations |
| `BundleDefinition` | bundledef.dfy | `ResourceBundleDefinition`: constructor, setters, `toString`/`equals` |
| `I18nMojo` | mojo.dfy | `writeMessage`, `checkForDuplicate`, `processClass`, the scan, promotion and `copyResourceBundle`, `execute` |
| `MojoLines` | mojo_lines.dfy | the lines `processClass` and the scan write to each bundle file, stated against an independent list of messages |

External parts are passed in as parameters:

- `ResourceBundle.getBundle` is a function argument that returns a bundle or `None` (missing).
- `MessageFormat.format` is an uninterpreted `Formatter` argument; it returns the text, or `None` for the `IllegalArgumentException` it throws on a malformed pattern.
- `Locale.getDefault()` is a `processDefault` argument.
- Calling threads are explicit `ThreadId` values.
- The file system is a map from path to lines, with `File.separator` taken as "/".
- The classes found by the plugin's scan are a sequence of contract descriptions.

## Model

| member | source | states |
|---|---|---|
| Strings.IndexOf | plugins/maven-i18n-plugin/src/main/java/org/swiftshire/maven/I18nMojo.java:586-606 | `indexOf(c, from)`: -1 or a position at or after `from` holding `c`, with no `c` between `from` and it; -1 means no `c` at or after `from` |
| Strings.IndexOfCrLf | plugins/maven-i18n-plugin/src/main/java/org/swiftshire/maven/I18nMojo.java:648 | `indexOf("\r\n", from)`: the first CR-LF at or after `from`, or -1 when there is none |
| Strings.Trim | plugins/maven-i18n-plugin/src/main/java/org/swiftshire/maven/I18nMojo.java:492 | `trim` gives the slice of the text left after cutting a run of white characters from each end, and that slice has no white character at either end |
| Strings.TrimEmptyIffBlank | plugins/maven-i18n-plugin/src/main/java/org/swiftshire/maven/I18nMojo.java:492 | `text.trim().length() == 0` exactly when every character is at most the space |
| Locales.Fields | core/src/main/java/org/swiftshire/i18n/MessageFactory.java:232 | the underscore fields of a string: none holds '_', and joined with '_' they give the string back |
| Locales.Split | core/src/main/java/org/swiftshire/i18n/MessageFactory.java:232 | a string without '_' is one field; otherwise its underscore fields with every trailing empty field dropped, so the last field kept is non-empty |
| Locales.FieldsOfJoin | core/src/main/java/org/swiftshire/i18n/MessageFactory.java:232 | splitting at '_' inverts joining underscore-free parts |
| Locales.DropTrailingEmpty | core/src/main/java/org/swiftshire/i18n/MessageFactory.java:232 | `split` drops trailing empty fields: the result is a prefix of the input, ends non-empty, and only empty fields were dropped |
| Locales.ParseLocale | core/src/main/java/org/swiftshire/i18n/MessageFactory.java:230-239 | `parseLocaleString` yields the first three fields of the string, "" for each that is missing |
| Locales.ParseLocaleOfJoin | core/src/main/java/org/swiftshire/i18n/MessageFactory.java:230-239 | parsing underscore-joined parts returns the first three parts, "" past the end |
| Locales.ParseLocaleRoundTrip | core/src/main/java/org/swiftshire/i18n/MessageFactory.java:230-239 | `parse(l + "_" + c + "_" + v) == (l, c, v)` when no field holds '_' |
| Locales.ParseLocaleIgnoresExtraFields | core/src/main/java/org/swiftshire/i18n/MessageFactory.java:230-239 | a fourth field and beyond are ignored |
| Locales.ParseLocaleShortForms | core/src/main/java/org/swiftshire/i18n/MessageFactory.java:230-239 | a bare language gives (l, "", ""); the empty string gives the root locale |
| Locales.ParseLocaleString | core/src/main/java/org/swiftshire/i18n/MessageFactory.java:230-239 | parsing a locale's printed form gives the locale back exactly when it is not variant-only (which prints as "") |
| Locales.LocaleString | core/src/main/java/org/swiftshire/i18n/MessageFactory.java:424 | the printed locale starts with the language, and is empty exactly when language and country both are |
| Locales.ExpandStep | core/src/main/java/org/swiftshire/i18n/MessageFactory.java:271-287 | one guarded step of `expand` adds exactly the candidate for one more segment |
| Locales.Collect | core/src/main/java/org/swiftshire/i18n/MessageFactory.java:262-287 | the buffer loop yields one name more than there are non-empty fields, the first being `name + suffix` |
| Locales.CollectIsPrefixes | core/src/main/java/org/swiftshire/i18n/MessageFactory.java:262-287 | the buffer stages are the name extended by each prefix of the non-empty locale fields, plus the suffix |
| Locales.Reverse | core/src/main/java/org/swiftshire/i18n/MessageFactory.java:289 | `Collections.reverse`: same length, element i is element n-1-i |
| Locales.Expand | core/src/main/java/org/swiftshire/i18n/MessageFactory.java:262-291 | one more name than non-empty fields; element i is the name extended by all but the last i fields, plus the suffix |
| Locales.ExpandChecked | core/src/main/java/org/swiftshire/i18n/MessageFactory.java:249-260 | a null name, locale or suffix throws `IllegalArgumentException`; otherwise the result is `expand`'s list |
| Locales.ExpandEnds | core/src/main/java/org/swiftshire/i18n/MessageFactory.java:262-291 | length = 1 + the number of non-empty fields; the first element is the most specific; the last is `name + suffix` |
| Locales.ExpandAffixes | core/src/main/java/org/swiftshire/i18n/MessageFactory.java:262-291 | every element starts with the name and ends with the suffix |
| Locales.ExpandNested | core/src/main/java/org/swiftshire/i18n/MessageFactory.java:262-291 | with the suffix cut off, each later element is a proper prefix of each earlier one |
| Locales.ExpandCountryExample | core/src/main/java/org/swiftshire/i18n/MessageFactory.java:262-291 | `expand("X", en_US, "")` is `["X_en_US", "X_en", "X"]` |
| Locales.ExpandLanguageExample | core/src/main/java/org/swiftshire/i18n/MessageFactory.java:262-291 | `expand("X", en, "")` is `["X_en", "X"]` |
| Locales.ExpandVariantExample | core/src/main/java/org/swiftshire/i18n/MessageFactory.java:262-291 | `expand("X", en_US_v, ".p")` is `["X_en_US_v.p", "X_en_US.p", "X_en.p", "X.p"]`: one name per field, each with the suffix |
| Locales.ExpandNoCountryExample | core/src/main/java/org/swiftshire/i18n/MessageFactory.java:262-291 | `expand("X", (en, "", v), "")` is `["X_en_v", "X_en", "X"]`: the empty country adds no name, and the variant puts one name in front of the list for `en` alone |
| Locales.ExpandRootExample | core/src/main/java/org/swiftshire/i18n/MessageFactory.java:262-291 | the root locale leaves only `name + suffix` |
| Annotations.MessageKey | core/src/main/java/org/swiftshire/i18n/handler/MessageHandler.java:147-149 | the key is the annotation's key when non-empty, else the method name |
| MessageHandler.FormatArgs | core/src/main/java/org/swiftshire/i18n/handler/MessageHandler.java:117-130 | a present key gives its template formatted with the arguments, or the formatter's `IllegalArgumentException`, which is not caught; a null bundle or missing key gives `"!!" + key + "!!"`; no other failure |
| MessageHandler.Format | core/src/main/java/org/swiftshire/i18n/handler/MessageHandler.java:97-99 | `format(key)`: a present key gives its template formatted with no arguments, or the formatter's `IllegalArgumentException`; a null bundle or missing key gives the decorated key |
| MessageHandler.FormatWith | core/src/main/java/org/swiftshire/i18n/handler/MessageHandler.java:105-107 | `format(key, args)`: a present key gives its template formatted with the arguments, or the formatter's `IllegalArgumentException`; a null bundle or missing key gives the decorated key |
| MessageHandler.GetLocale | core/src/main/java/org/swiftshire/i18n/handler/MessageHandler.java:89-91 | the bundle's own locale; a null bundle throws `NullPointerException` |
| MessageHandler.Invoke | core/src/main/java/org/swiftshire/i18n/handler/MessageHandler.java:142-155 | an annotated method yields its formatted text or the formatter's bare `IllegalArgumentException`, whatever its declared return type; a non-annotated contract method is rejected by reflection with `IllegalArgumentException`; a failure of a `Messages` method reached by `method.invoke` comes back wrapped in `UndeclaredThrowableException`; `getBundle` returns the bundle; `getLocale` succeeds exactly when there is a bundle |
| MessageHandler.FormatKeyIsEmptyArgs | core/src/main/java/org/swiftshire/i18n/handler/MessageHandler.java:97-107 | `format(key)` is `format(key)` with no arguments, both directly and through the proxy |
| MessageHandler.InvokeAnnotatedIsFormat | core/src/main/java/org/swiftshire/i18n/handler/MessageHandler.java:142-153 | calling an annotated method succeeds exactly when `format(annotation key or method name, args)` does, with the same text; on a formatter failure the direct call throws `IllegalArgumentException` and the reflective one throws it wrapped |
| MessageHandler.MissingKeyIsDecorated | core/src/main/java/org/swiftshire/i18n/handler/MessageHandler.java:117-130 | with a null bundle or a missing key, the proxy returns `"!!" + key + "!!"` and does not throw |
| MessageHandler.PresentKeyIsFormatted | core/src/main/java/org/swiftshire/i18n/handler/MessageHandler.java:117-153 | through the proxy, a present key returns the bundle's template formatted with the arguments, or the formatter's failure wrapped in `UndeclaredThrowableException` |
| MessageHandler.BundleAndLocaleFixed | core/src/main/java/org/swiftshire/i18n/handler/MessageHandler.java:54-91 | `getBundle` and `getLocale` through the proxy return the construction bundle and its locale |
| MessageHandler.NullBundleGetLocaleWrapped | core/src/main/java/org/swiftshire/i18n/handler/MessageHandler.java:89-153 | without a bundle, the handler's `getLocale` throws `NullPointerException`, and the proxy's caller sees it wrapped in `UndeclaredThrowableException` |
| MessageHandler.HelloExample | core/src/main/java/org/swiftshire/i18n/handler/MessageHandler.java:142-150 | `hello(a, b)` on an unkeyed method formats the bundle's "hello" template and equals `format("hello", a, b)` |
| ThreadLocale.SetThread | core/src/main/java/org/swiftshire/i18n/locale/ThreadLocale.java:54-56 | `setThread` changes the mode and no slot |
| ThreadLocale.Get | core/src/main/java/org/swiftshire/i18n/locale/ThreadLocale.java:43-71 | global mode reads the global slot and changes nothing; per-thread mode reads the caller's slot, and a caller without one gets the process default, which is then stored in its slot |
| ThreadLocale.GetPinsValue | core/src/main/java/org/swiftshire/i18n/locale/ThreadLocale.java:43-71 | a second read returns what the first returned and changes nothing, even when the process default changed in between |
| ThreadLocale.Set | core/src/main/java/org/swiftshire/i18n/locale/ThreadLocale.java:79-86 | `set` writes only the slot the current mode selects |
| ThreadLocale.InitialReads | core/src/main/java/org/swiftshire/i18n/locale/ThreadLocale.java:33-47 | initially every thread reads the process default; in global mode the initial value is null |
| ThreadLocale.PerThreadSetIsolated | core/src/main/java/org/swiftshire/i18n/locale/ThreadLocale.java:79-82 | in per-thread mode, one thread's `set` leaves every other thread's reading and the global slot unchanged |
| ThreadLocale.GlobalSetShared | core/src/main/java/org/swiftshire/i18n/locale/ThreadLocale.java:83-85 | in global mode, `set` leaves every per-thread slot unchanged and every thread reads the new value |
| ThreadLocale.SetThenGet | core/src/main/java/org/swiftshire/i18n/locale/ThreadLocale.java:64-86 | in the same mode and thread, `get` returns what `set` stored |
| ThreadLocale.SwitchBackRestores | core/src/main/java/org/swiftshire/i18n/locale/ThreadLocale.java:54-56 | switching to global mode, setting there, and switching back brings back the earlier per-thread value |
| LocaleManager.SetThreadLocale | core/src/main/java/org/swiftshire/i18n/locale/LocaleManager.java:51-54 | per-thread mode, with the caller's slot set and all else kept |
| LocaleManager.SetLocale | core/src/main/java/org/swiftshire/i18n/locale/LocaleManager.java:61-64 | global mode, with the global slot set and every thread slot kept |
| LocaleManager.GetLocale | core/src/main/java/org/swiftshire/i18n/locale/LocaleManager.java:71-73 | `getLocale` never changes the mode or the global slot; in global mode it returns the global locale and changes nothing; in per-thread mode the caller's slot afterwards holds what it returned |
| LocaleManager.DefaultPinnedByFirstRead | core/src/main/java/org/swiftshire/i18n/locale/LocaleManager.java:71-73 | a thread's first read returns the process default and keeps returning it after the default changes, while another thread's first read sees the new default |
| LocaleManager.SetThreadLocaleThenGet | core/src/main/java/org/swiftshire/i18n/locale/LocaleManager.java:51-73 | after `setThreadLocale(l)`, the caller reads `l` |
| LocaleManager.SetLocaleSeenByAll | core/src/main/java/org/swiftshire/i18n/locale/LocaleManager.java:61-73 | after `setLocale(l)`, every thread reads `l` |
| LocaleManager.SetThreadLocaleIsolated | core/src/main/java/org/swiftshire/i18n/locale/LocaleManager.java:51-54 | `setThreadLocale` on thread B does not change what thread A reads |
| LocaleManager.TwoThreadsExample | core/src/main/java/org/swiftshire/i18n/locale/LocaleManager.java:51-54 | main sets de_DE, a worker sets en_UK: each reads its own |
| LocaleManager.SetLocaleKeepsThreadSlots | core/src/main/java/org/swiftshire/i18n/locale/LocaleManager.java:61-64 | `setLocale` leaves the per-thread slots untouched, so a return to per-thread mode shows the old values |
| LocaleManager.InterleavedSetLocaleStaysLocal | core/src/main/java/org/swiftshire/i18n/locale/LocaleManager.java:61-64 | if another thread's `setThreadLocale` runs between `setLocale`'s two steps, the "global" locale lands in the caller's own slot |
| MessageFactory.SetFabricateBundles | core/src/main/java/org/swiftshire/i18n/MessageFactory.java:115-117 | the flag takes the given value; cache and counters are kept |
| MessageFactory.BundleName | core/src/main/java/org/swiftshire/i18n/MessageFactory.java:411-422 | the annotation's name when non-empty, else the class name |
| MessageFactory.CacheId | core/src/main/java/org/swiftshire/i18n/MessageFactory.java:424 | the cache key is the bundle name, '_', then the printed locale; a null locale gives `name + "_null"` |
| MessageFactory.DeclaredEntries | core/src/main/java/org/swiftshire/i18n/MessageFactory.java:330-345 | a key is in the fabricated table exactly when some annotated method with a non-empty text has it, and its text is the last such method's |
| MessageFactory.DeclaredTexts | core/src/main/java/org/swiftshire/i18n/MessageFactory.java:330-345 | every annotated method with a non-empty text has its key in the fabricated table |
| MessageFactory.Fabricate | core/src/main/java/org/swiftshire/i18n/MessageFactory.java:309-358 | the locale is `parse(annotation.locale)` whenever the annotation is present, else the process default |
| MessageFactory.FabricateDefaultLocaleIsRoot | core/src/main/java/org/swiftshire/i18n/MessageFactory.java:312-319 | an annotation with the default locale "" gives a root-locale bundle |
| MessageFactory.Create | core/src/main/java/org/swiftshire/i18n/MessageFactory.java:401-469 | validation errors come first and change nothing; entries are never replaced or removed; at most the call's key is added; a success is what the cache holds under that key; a fabrication implies a counted miss |
| MessageFactory.CacheHitPure | core/src/main/java/org/swiftshire/i18n/MessageFactory.java:428-431 | a hit returns the cached proxy and leaves the state unchanged |
| MessageFactory.CreateIdempotent | core/src/main/java/org/swiftshire/i18n/MessageFactory.java:428-466 | a second identical call returns the same proxy from an unchanged state |
| MessageFactory.CreateForThread | core/src/main/java/org/swiftshire/i18n/MessageFactory.java:368-370 | a null class is refused with `IllegalArgumentException`; reading the thread's locale keeps the mode and global slot, leaves the caller's slot filled in per-thread mode, and changes nothing for a caller that already had one or in global mode |
| MessageFactory.CreateFromString | core/src/main/java/org/swiftshire/i18n/MessageFactory.java:379-391 | a null class is refused; a non-null string leaves the locale state alone, and a success is cached under the parsed locale's key |
| MessageFactory.CreateForThreadPinsDefault | core/src/main/java/org/swiftshire/i18n/MessageFactory.java:368-370 | `create(Class)` on a thread that never set a locale resolves for the process default, and the thread's next `create(Class)` still does after the default changes |
| MessageFactory.LoadedBundleCached | core/src/main/java/org/swiftshire/i18n/MessageFactory.java:440-464 | on a miss with a found bundle, exactly one entry is added, backed by that bundle, and the counters are kept |
| MessageFactory.MissingBundleFabricatedIff | core/src/main/java/org/swiftshire/i18n/MessageFactory.java:443-456 | a missing bundle always bumps the missing count; the call succeeds with a fabricated bundle exactly when the type is NONE or fabrication is on; otherwise the cache is unchanged |
| MessageFactory.NullLocaleMissFails | core/src/main/java/org/swiftshire/i18n/MessageFactory.java:440-442 | a null locale that misses the cache throws `NullPointerException` and changes nothing |
| MessageFactory.FabricatedFormatsDeclaredText | core/src/main/java/org/swiftshire/i18n/MessageFactory.java:330-353 | a fabricated proxy formats a method's declared text unless a later method reuses its key |
| MessageFactory.FabricatedSkipsEmptyTexts | core/src/main/java/org/swiftshire/i18n/MessageFactory.java:334-343 | a key contributed by no annotated method with a non-empty text is absent from the fabricated bundle |
| MessageFactory.SharedBundleNameSharesProxy | core/src/main/java/org/swiftshire/i18n/MessageFactory.java:411-431 | two contracts with one bundle name share one cache entry |
| MessageFactory.CacheIdCollision | core/src/main/java/org/swiftshire/i18n/MessageFactory.java:424 | cache keys are not unique: bundle "A_b" in locale c and bundle "A" in locale b_c share "A_b_c" |
| MessageFactory.NullLocaleKeyCollision | core/src/main/java/org/swiftshire/i18n/MessageFactory.java:424 | a null locale shares its key with the locale "null" |
| MessageFactory.CreateFromPrintedLocale | core/src/main/java/org/swiftshire/i18n/MessageFactory.java:379-391 | `create(Class, String)` on a locale's printed form is `create(Class, Locale)` |
| MessageFactory.NullStringUsesThreadLocale | core/src/main/java/org/swiftshire/i18n/MessageFactory.java:379-391 | `create(Class, null)` uses the calling thread's locale |
| MessageFactory.CreateAfterSetThreadLocale | core/src/main/java/org/swiftshire/i18n/MessageFactory.java:368-370 | `create(Class)` after `setThreadLocale(l)` on the same thread resolves for `l` |
| MessageFactory.InitialFabricates | core/src/main/java/org/swiftshire/i18n/MessageFactory.java:70 | the flag starts true, so a fresh factory with no bundles fabricates |
| MessageFactory.SetThreadLocaleFields | core/src/main/java/org/swiftshire/i18n/MessageFactory.java:136-161 | per-thread mode; the caller's slot holds the locale of the given language, country and variant, a missing one empty; every other thread's slot and the global slot are kept |
| MessageFactory.SetLocaleFields | core/src/main/java/org/swiftshire/i18n/MessageFactory.java:178-201 | global mode; the global slot holds the locale of the given language, country and variant, a missing one empty; every thread slot is kept |
| MessageFactory.ThreadFieldsCreate | core/src/main/java/org/swiftshire/i18n/MessageFactory.java:136-161 | `create(Class)` after `setThreadLocale(fields)` on the same thread resolves for the locale the fields spell |
| MessageFactory.SetLocaleFieldsSeenByAll | core/src/main/java/org/swiftshire/i18n/MessageFactory.java:188-190 | `setLocale("de", "DE")` makes every thread's `create(Class)` resolve for de_DE |
| MessageFactory.FieldOverloadMatchesString | core/src/main/java/org/swiftshire/i18n/MessageFactory.java:147-149 | `setThreadLocale("en", "US")` then `create(Class)` is `create(Class, "en_US")` |
| Verifiers.UnescapedAmongMembers | plugins/maven-i18n-plugin/src/main/java/org/swiftshire/maven/I18nMojo.java:661 | a position is reported exactly when it is examined and is at 0 or not preceded by a backslash |
| Verifiers.Examined | plugins/maven-i18n-plugin/src/main/java/org/swiftshire/maven/I18nMojo.java:643-656 | the positions the search visits are strictly increasing, each at or after the start and holding a line feed or the start of a CR-LF |
| Verifiers.ExaminedIsReached | plugins/maven-i18n-plugin/src/main/java/org/swiftshire/maven/I18nMojo.java:643-675 | the loop examines exactly every CR-LF, plus every bare line feed with no CR-LF after it |
| Verifiers.ReachedPastCrLf | plugins/maven-i18n-plugin/src/main/java/org/swiftshire/maven/I18nMojo.java:648-655 | past a CR-LF, the reached positions are that CR-LF and those after its line feed |
| Verifiers.ReachedPastLineFeed | plugins/maven-i18n-plugin/src/main/java/org/swiftshire/maven/I18nMojo.java:650-652 | with no CR-LF ahead, the reached positions are the next line feed and those after it |
| Verifiers.NewlineTurn | plugins/maven-i18n-plugin/src/main/java/org/swiftshire/maven/I18nMojo.java:645-673 | one turn: the break found heads the remaining reports when unescaped, and the search goes on past it |
| Verifiers.NextBreak | plugins/maven-i18n-plugin/src/main/java/org/swiftshire/maven/I18nMojo.java:645-656 | the next CR-LF anywhere ahead (step 2), else the next line feed (step 1), else -1 |
| Verifiers.ReportsAreReached | plugins/maven-i18n-plugin/src/main/java/org/swiftshire/maven/I18nMojo.java:643-675 | the reports are exactly the unescaped reached breaks |
| Verifiers.ReportTurnNone | plugins/maven-i18n-plugin/src/main/java/org/swiftshire/maven/I18nMojo.java:650-658 | a turn that finds no break ends with every report made |
| Verifiers.ReportTurnFound | plugins/maven-i18n-plugin/src/main/java/org/swiftshire/maven/I18nMojo.java:658-673 | a turn that finds a break adds it when unescaped and moves the start strictly forward |
| Verifiers.NewlinesTurn | plugins/maven-i18n-plugin/src/main/java/org/swiftshire/maven/I18nMojo.java:645-674 | the loop body keeps "reports so far + reports from the next start = all reports" and ends with all of them |
| Verifiers.CheckNewlines | plugins/maven-i18n-plugin/src/main/java/org/swiftshire/maven/I18nMojo.java:639-676 | the do-while reports, in order, exactly the unescaped examined breaks |
| Verifiers.NoCrLfExaminesEveryLineFeed | plugins/maven-i18n-plugin/src/main/java/org/swiftshire/maven/I18nMojo.java:650-652 | with no CR-LF in the text, every line feed is examined |
| Verifiers.BareLineFeedBeforeCrLfMissed | plugins/maven-i18n-plugin/src/main/java/org/swiftshire/maven/I18nMojo.java:644-652 | "a\nb\\\r\n" passes: the bare line feed before a CR-LF is jumped over |
| Verifiers.QuotesBeforeFlat | plugins/maven-i18n-plugin/src/main/java/org/swiftshire/maven/I18nMojo.java:584-615 | a quote-free stretch leaves the count unchanged |
| Verifiers.SlicePlaceholder | plugins/maven-i18n-plugin/src/main/java/org/swiftshire/maven/I18nMojo.java:603-611 | matching `(?s).*\{[0-9].*` on `substring(a, b)` is finding a "{digit" inside [a, b) |
| Verifiers.QuotedFromUnpaired | plugins/maven-i18n-plugin/src/main/java/org/swiftshire/maven/I18nMojo.java:608-612 | an unpaired last quote has the rest of the text searched |
| Verifiers.QuotedFromSpan | plugins/maven-i18n-plugin/src/main/java/org/swiftshire/maven/I18nMojo.java:595-607 | a paired quote has its span searched, then the loop continues after the closing quote; an adjacent pair has an empty span |
| Verifiers.QuotedFrom | plugins/maven-i18n-plugin/src/main/java/org/swiftshire/maven/I18nMojo.java:590-615 | the loop flags a text only when some "{digit" lies at or after the quote it starts from |
| Verifiers.InsideSpan | plugins/maven-i18n-plugin/src/main/java/org/swiftshire/maven/I18nMojo.java:602-604 | inside a span opened by an even-numbered quote, a "{digit" lies in the span exactly when a quoted placeholder does; the closing quote raises the count by one |
| Verifiers.OutsideSpan | plugins/maven-i18n-plugin/src/main/java/org/swiftshire/maven/I18nMojo.java:606 | from a closing quote up to the next quote, no brace is quoted |
| Verifiers.OddQuotesUnpaired | plugins/maven-i18n-plugin/src/main/java/org/swiftshire/maven/I18nMojo.java:608-612 | after an unpaired quote, a quoted placeholder exists exactly when the rest holds "{digit" |
| Verifiers.OddQuotesLastSpan | plugins/maven-i18n-plugin/src/main/java/org/swiftshire/maven/I18nMojo.java:602-606 | a closed last span is flagged exactly when it holds a quoted placeholder |
| Verifiers.OddQuotesNextSpan | plugins/maven-i18n-plugin/src/main/java/org/swiftshire/maven/I18nMojo.java:602-606 | a closed span followed by more quotes is flagged exactly when a quoted placeholder lies in it or beyond |
| Verifiers.QuotedFromIsOddQuotes | plugins/maven-i18n-plugin/src/main/java/org/swiftshire/maven/I18nMojo.java:590-615 | from an even-numbered quote, the loop flags exactly when a quoted placeholder lies at or after it |
| Verifiers.QuotedIffOddQuotes | plugins/maven-i18n-plugin/src/main/java/org/swiftshire/maven/I18nMojo.java:584-627 | `checkSingleQuotes` flags a text exactly when some "{digit" follows an odd number of single quotes |
| Verifiers.QuotedFromAdjacent | plugins/maven-i18n-plugin/src/main/java/org/swiftshire/maven/I18nMojo.java:595-598 | an adjacent `''` pair is skipped |
| Verifiers.QuotedFromPaired | plugins/maven-i18n-plugin/src/main/java/org/swiftshire/maven/I18nMojo.java:602-607 | a separated pair has its span searched before the loop goes on |
| Verifiers.QuotedFromLast | plugins/maven-i18n-plugin/src/main/java/org/swiftshire/maven/I18nMojo.java:608-612 | an unpaired quote has the rest of the text searched and ends the loop |
| Verifiers.QuotesTurn | plugins/maven-i18n-plugin/src/main/java/org/swiftshire/maven/I18nMojo.java:591-614 | one turn's verdict, or'ed with the verdict from the next quote, is the verdict from this quote; the next quote lies strictly ahead |
| Verifiers.CheckSingleQuotes | plugins/maven-i18n-plugin/src/main/java/org/swiftshire/maven/I18nMojo.java:584-615 | the loop's flag is true exactly when some "{digit" follows an odd number of quotes |
| Verifiers.QuoteExamples | plugins/maven-i18n-plugin/src/main/java/org/swiftshire/maven/I18nMojo.java:584-627 | "don't use {0} here" is flagged; "it''s fine {0}" is not |
| BundleDefinition.New | plugins/maven-i18n-plugin/src/main/java/org/swiftshire/maven/I18nMojo.java:841-846 | a new definition prints as `baseName + "_" + defaultLocale` and is a PROPERTY bundle |
| BundleDefinition.Canonical | plugins/maven-i18n-plugin/src/main/java/org/swiftshire/maven/I18nMojo.java:912-914 | `toString` starts with the base name, is exactly the base name when the locale is null, and otherwise goes on with '_' and the printed locale |
| BundleDefinition.Same | plugins/maven-i18n-plugin/src/main/java/org/swiftshire/maven/I18nMojo.java:920-930 | `equals` compares printed forms, so two locale-less definitions are equal only with equal base names |
| BundleDefinition.SetBaseName | plugins/maven-i18n-plugin/src/main/java/org/swiftshire/maven/I18nMojo.java:852-856 | a non-empty name replaces the base name; null or "" leaves the definition as it was |
| BundleDefinition.SetLocale | plugins/maven-i18n-plugin/src/main/java/org/swiftshire/maven/I18nMojo.java:868-872 | a non-empty string sets the parsed locale; null or "" leaves the definition as it was |
| BundleDefinition.SetType | plugins/maven-i18n-plugin/src/main/java/org/swiftshire/maven/I18nMojo.java:879-888 | succeeds exactly for PROPERTY; any other type is refused and reported |
| BundleDefinition.SameIgnoresType | plugins/maven-i18n-plugin/src/main/java/org/swiftshire/maven/I18nMojo.java:912-930 | the type takes no part in identity |
| BundleDefinition.SameLocaleSameName | plugins/maven-i18n-plugin/src/main/java/org/swiftshire/maven/I18nMojo.java:912-930 | with equal locales, two definitions are the same exactly when their base names are equal |
| BundleDefinition.SetLocaleOfPrinted | plugins/maven-i18n-plugin/src/main/java/org/swiftshire/maven/I18nMojo.java:868-872 | setting a locale's printed form gives that locale back, when language or country is set and no field holds '_' |
| BundleDefinition.LocaleInNameCollides | plugins/maven-i18n-plugin/src/main/java/org/swiftshire/maven/I18nMojo.java:912-930 | identity is the printed form only: ("X_en", no locale) is the same bundle as ("X", en) |
| I18nMojo.FileOfInjective | plugins/maven-i18n-plugin/src/main/java/org/swiftshire/maven/I18nMojo.java:523 | distinct identities have distinct ".properties" files |
| I18nMojo.RecordKey | plugins/maven-i18n-plugin/src/main/java/org/swiftshire/maven/I18nMojo.java:546-565 | the key joins the end of the identity's list, so it is a duplicate from then on; every other identity's list, the files, counters and order are kept |
| I18nMojo.Emit | plugins/maven-i18n-plugin/src/main/java/org/swiftshire/maven/I18nMojo.java:511-531 | the bundle's file becomes what it keeps plus the line (truncated at a first write unless appending); its counter rises by one; other counters are kept |
| I18nMojo.Checked | plugins/maven-i18n-plugin/src/main/java/org/swiftshire/maven/I18nMojo.java:502-506 | when verifying, the key is recorded; files and counters are kept |
| I18nMojo.WriteLive | plugins/maven-i18n-plugin/src/main/java/org/swiftshire/maven/I18nMojo.java:502-531 | an abort happens only in a pedantic verifying run and names the key; a success appends `key=text` and counts it |
| I18nMojo.WriteMessage | plugins/maven-i18n-plugin/src/main/java/org/swiftshire/maven/I18nMojo.java:487-535 | a null or blank text changes nothing; only a pedantic verifying run aborts; otherwise exactly `key + "=" + text` is appended and counted, and the key is recorded |
| I18nMojo.WriteMessageChecks | plugins/maven-i18n-plugin/src/main/java/org/swiftshire/maven/I18nMojo.java:502-566 | a pedantic run aborts on an unescaped newline, else a quoted placeholder, else a duplicate key, each exactly then |
| I18nMojo.Mirror | plugins/maven-i18n-plugin/src/main/java/org/swiftshire/maven/I18nMojo.java:347-385 | a blank text changes nothing; only a pedantic verifying run aborts, naming the key; otherwise `key=text` is appended to the contract's bundle and then, when aggregating, to the aggregate bundle, each write counted once |
| I18nMojo.SplitDefine | plugins/maven-i18n-plugin/src/main/java/org/swiftshire/maven/I18nMojo.java:342-345 | no split exactly when the entry has no '='; otherwise `entry == key + "=" + text` with no '=' in the key |
| I18nMojo.DefineStep | plugins/maven-i18n-plugin/src/main/java/org/swiftshire/maven/I18nMojo.java:340-360 | an entry without '=' aborts the run with that entry; with one, a lenient run goes on |
| I18nMojo.WriteDefinitions | plugins/maven-i18n-plugin/src/main/java/org/swiftshire/maven/I18nMojo.java:337-362 | any entry without '=' aborts; a malformed-entry abort names such an entry; all well-formed in a lenient run succeeds |
| I18nMojo.WriteOperations | plugins/maven-i18n-plugin/src/main/java/org/swiftshire/maven/I18nMojo.java:371-402 | the flag is true exactly when some method is annotated and returns String; with none, nothing changes |
| I18nMojo.ClassFile | plugins/maven-i18n-plugin/src/main/java/org/swiftshire/maven/I18nMojo.java:221-225 | the class file path: the binary name with every '.' replaced by '/' |
| I18nMojo.ContractDef | plugins/maven-i18n-plugin/src/main/java/org/swiftshire/maven/I18nMojo.java:316-331 | the base name is the annotation's name if non-empty, else the class file in the output directory; the locale is the annotation's if non-empty, else the default |
| I18nMojo.ProcessClass | plugins/maven-i18n-plugin/src/main/java/org/swiftshire/maven/I18nMojo.java:307-402 | a non-contract or NONE class writes nothing and returns false; XML/XLIFF aborts; a malformed define aborts; a class that is not accepted always aborts and an accepted one never does in a lenient run; the flag is "annotated PROPERTY or some generating method" |
| I18nMojo.ScanAll | plugins/maven-i18n-plugin/src/main/java/org/swiftshire/maven/I18nMojo.java:216-241 | the scan succeeds only when every class is accepted, and a lenient scan of accepted classes always succeeds |
| I18nMojo.DefaultOf | plugins/maven-i18n-plugin/src/main/java/org/swiftshire/maven/I18nMojo.java:255-256 | the copy's identity is the bare base name |
| I18nMojo.PutAll | plugins/maven-i18n-plugin/src/main/java/org/swiftshire/maven/I18nMojo.java:267 | keys are the union; added counts win; other counters are kept |
| I18nMojo.AggregateDef | plugins/maven-i18n-plugin/src/main/java/org/swiftshire/maven/I18nMojo.java:179-187 | aggregating with a null or empty name aborts; otherwise there is an aggregate bundle exactly when aggregating |
| I18nMojo.Execute | plugins/maven-i18n-plugin/src/main/java/org/swiftshire/maven/I18nMojo.java:173-187 | a missing aggregate name aborts the run before anything is scanned |
| I18nMojo.WfFrame | plugins/maven-i18n-plugin/src/main/java/org/swiftshire/maven/I18nMojo.java:150-156 | the run's invariant does not depend on the recorded keys |
| I18nMojo.BeginWf | plugins/maven-i18n-plugin/src/main/java/org/swiftshire/maven/I18nMojo.java:216 | the invariant holds at the start, with no counters |
| I18nMojo.EmitKeyed | plugins/maven-i18n-plugin/src/main/java/org/swiftshire/maven/I18nMojo.java:512-520 | counters stay keyed by their definitions' printed form |
| I18nMojo.EmitTracked | plugins/maven-i18n-plugin/src/main/java/org/swiftshire/maven/I18nMojo.java:511-531 | each counted file keeps its prior records and one record per count |
| I18nMojo.EmitUntouched | plugins/maven-i18n-plugin/src/main/java/org/swiftshire/maven/I18nMojo.java:523-531 | files of bundles not yet counted stay as on disk |
| I18nMojo.EmitListed | plugins/maven-i18n-plugin/src/main/java/org/swiftshire/maven/I18nMojo.java:512-518 | the order lists each counted identity exactly once |
| I18nMojo.EmitWf | plugins/maven-i18n-plugin/src/main/java/org/swiftshire/maven/I18nMojo.java:511-531 | one write preserves the whole invariant |
| I18nMojo.WriteLiveWf | plugins/maven-i18n-plugin/src/main/java/org/swiftshire/maven/I18nMojo.java:502-531 | a successful checked write preserves the invariant |
| I18nMojo.WriteMessageWf | plugins/maven-i18n-plugin/src/main/java/org/swiftshire/maven/I18nMojo.java:487-535 | `writeMessage` preserves the invariant |
| I18nMojo.MirrorWf | plugins/maven-i18n-plugin/src/main/java/org/swiftshire/maven/I18nMojo.java:347-350 | a mirrored write preserves the invariant |
| I18nMojo.DefineStepWf | plugins/maven-i18n-plugin/src/main/java/org/swiftshire/maven/I18nMojo.java:340-360 | one static entry preserves the invariant |
| I18nMojo.WriteDefinitionsWf | plugins/maven-i18n-plugin/src/main/java/org/swiftshire/maven/I18nMojo.java:338-361 | the static-entry loop preserves the invariant |
| I18nMojo.WriteOperationsWf | plugins/maven-i18n-plugin/src/main/java/org/swiftshire/maven/I18nMojo.java:365-402 | the method loop preserves the invariant |
| I18nMojo.ProcessClassWf | plugins/maven-i18n-plugin/src/main/java/org/swiftshire/maven/I18nMojo.java:307-402 | `processClass` preserves the invariant |
| I18nMojo.ScanAllWf | plugins/maven-i18n-plugin/src/main/java/org/swiftshire/maven/I18nMojo.java:216-241 | after the scan, each counter is the number of records the run wrote after the file's prior records |
| I18nMojo.LenientWrite | plugins/maven-i18n-plugin/src/main/java/org/swiftshire/maven/I18nMojo.java:502-531 | a lenient write of a non-blank text succeeds, appends its line and records the key |
| I18nMojo.LenientDuplicateWritesBoth | plugins/maven-i18n-plugin/src/main/java/org/swiftshire/maven/I18nMojo.java:544-566 | a lenient run that meets a duplicate key still writes both lines and counts two |
| I18nMojo.PedanticDuplicateAborts | plugins/maven-i18n-plugin/src/main/java/org/swiftshire/maven/I18nMojo.java:544-553 | in a pedantic run, a first write of a fresh key whose text passes the newline and quote checks succeeds, and a second write of that key to the same bundle aborts with a duplicate-key error |
| I18nMojo.DefaultDefineAborts | core/src/main/java/org/swiftshire/i18n/annotation/ResourceBundle.java:63 | `@ResourceBundle` with the default define `{""}` aborts the run, because "" has no '=' |
| I18nMojo.NamedBundleIgnoresOutputDirectory | plugins/maven-i18n-plugin/src/main/java/org/swiftshire/maven/I18nMojo.java:316-331 | a named bundle's identity does not depend on the output directory |
| I18nMojo.PromotedBaseInjective | plugins/maven-i18n-plugin/src/main/java/org/swiftshire/maven/I18nMojo.java:251-256 | two promoted identities with one base name are one identity |
| I18nMojo.PromoteFrame | plugins/maven-i18n-plugin/src/main/java/org/swiftshire/maven/I18nMojo.java:247-264 | a file and count no bundle promotes to are left alone |
| I18nMojo.PromoteFrom | plugins/maven-i18n-plugin/src/main/java/org/swiftshire/maven/I18nMojo.java:247-264 | with no default-locale bundle nothing changes; a failure names the file of some default-locale bundle; on a success every file name and every noted identity stays present |
| I18nMojo.PromoteCopies | plugins/maven-i18n-plugin/src/main/java/org/swiftshire/maven/I18nMojo.java:247-264 | promotion succeeds; each default-locale bundle's base-name file is an exact copy of its file, and its count is noted under the base name |
| I18nMojo.WfPromotionReady | plugins/maven-i18n-plugin/src/main/java/org/swiftshire/maven/I18nMojo.java:247-264 | a well-formed scan with no copy clash meets promotion's precondition |
| I18nMojo.ExecuteGenerates | plugins/maven-i18n-plugin/src/main/java/org/swiftshire/maven/I18nMojo.java:173-267 | after a scan that succeeds: counters equal lines written; each default-locale bundle gets a locale-less copy and a counter with its count |
| MojoLines.MirrorKept | plugins/maven-i18n-plugin/src/main/java/org/swiftshire/maven/I18nMojo.java:347-350 | a mirrored write adds `key=text` once to the contract's bundle file and once more to the aggregate's, and nothing for a blank text; no other file's kept lines change |
| MojoLines.WriteDefinitionsKept | plugins/maven-i18n-plugin/src/main/java/org/swiftshire/maven/I18nMojo.java:337-361 | the static entries add their `key=text` lines, split at the first '=', in entry order, to each bundle they go to |
| MojoLines.WriteOperationsKept | plugins/maven-i18n-plugin/src/main/java/org/swiftshire/maven/I18nMojo.java:371-402 | each method annotated with `@Message` and returning String adds `key=text`, the key being the annotation's or else the method name, in method order; every other method adds nothing |
| MojoLines.ProcessClassKept | plugins/maven-i18n-plugin/src/main/java/org/swiftshire/maven/I18nMojo.java:307-402 | a class adds its static entries' lines and then its generating methods' lines, once per bundle the write goes to; a non-contract or non-PROPERTY class adds none |
| MojoLines.ProcessClassWrites | plugins/maven-i18n-plugin/src/main/java/org/swiftshire/maven/I18nMojo.java:307-402 | in a lenient run an accepted class succeeds, and its bundle file becomes the lines it kept followed by one line per non-blank message, static entries first; every bundle, the aggregate included, grows by its copies of those lines |
| MojoLines.ScanAllKept | plugins/maven-i18n-plugin/src/main/java/org/swiftshire/maven/I18nMojo.java:216-241 | a scan adds to each bundle the lines of each class, in scan order |
| MojoLines.ScanLines | plugins/maven-i18n-plugin/src/main/java/org/swiftshire/maven/I18nMojo.java:216-241 | after a lenient scan of accepted classes, every bundle that received lines holds its prior contents (dropped unless appending) followed by all of them, in scan order |

## Left out

- Reflection, `Proxy` and annotation lookup: contracts are plain data, and a proxy call is a `Call` value.
- MessageHandler.Invoke: an annotated method whose declared return type cannot hold a String (`int`, a user type) is modelled as returning its text. Java's proxy casts the String `invoke` returns to the declared type and throws `ClassCastException` there. The model records only whether a method returns String, which cannot tell such a type from `void` or `Object`, where no cast fails.
- `JmxHelper` (MBean interface detection): "is a message contract" is a boolean field of the contract.
- `@Permission` fields and `permissionsDefinition`: the annotation and its resource file name are not part of this model.
- Maven plumbing (class loading, `DirectoryScanner`, logging, the summary report): the scan's result is the input sequence of contracts.
- MBean registration, `I18nService` and `locateMBeanServer`: only the counters are kept, as fields of the factory state.
- `MessageFormat`, `ResourceBundle.getBundle` and `Locale.getDefault`: these are parameters; the model states nothing about their internals. The `IllegalArgumentException` that `MessageFormat` throws is modelled as the formatter returning `None`.
- Method order: `Class.getMethods()` returns a class's public methods, inherited ones included, in an order the JVM leaves unspecified. A contract's `operations` is taken to be that list in that order, so which of two methods with one key wins in `DeclaredEntries`, and the order of generated lines in `MojoLines`, hold for whatever order the JVM produced.
- I18nMojo.WriteMessage: an abort returns only the failure. In the program the lines written before it stay on disk, since nothing is rolled back; the model does not say what the files hold after an abort.
- I18nMojo.ProcessClass: as for `WriteMessage`, an abort part way through a class does not model the lines already written for it.
- I18nMojo.ScanAll: as for `WriteMessage`, an abort does not model the files written by the classes scanned before it.
- I18nMojo.Execute: an abort returns only the failure; the files on disk after an aborted run are not modelled.
- `java.util.Locale` case normalisation, scripts and extensions: a locale is three strings.
- Concurrency: each `synchronized` block, atomic or `ThreadLocal` operation is one sequential step with an explicit thread id. `LocaleManager.InterleavedSetLocaleStaysLocal` shows the one interleaving that matters.
- MessageFactory.Create: the counters are unbounded `nat`s, so `AtomicInteger` wrap-around after 2^31 misses is not modelled.
- Byte-level I/O: a file is a sequence of records and a copy is assignment. Each record is one `println` of `key=text`, and the "lines" of a file in this model are these records: a text with an escaped line break, which `checkNewlines` lets through, spans several physical lines of the file but is one record here. The only I/O error modelled is a missing copy source; write failures are not.
- I18nMojo.PromoteFrom: iterates the counters in first-count order. Java's `HashMap` order is unspecified, and `PromoteCopies` needs the absence of copy clashes (`NoCopyClash`), under which the order does not matter.
- BundleDefinition.New: the `defaultLocale != null ? … : Locale.getDefault()` fallback is not modelled; the plugin's default locale is always given.
- I18nMojo.ContractDef: `setLocale(Locale)` is not modelled; it is unused by the generator.
- A duplicate key in a pedantic run: `checkForDuplicate` throws before `bundleKeyList.add`, so the key is not recorded. The model follows the code. This is moot because the run aborts.
- Verifiers.CheckNewlines: returns every reported position, which is the lenient mode's log. Pedantic mode stops at the first, which `UnescapedNewline` captures as "some position is reported".

=== FILE: annotations.dfy ===
/** A message contract as plain data: what reflection would read off a Java
    interface and its @ResourceBundle and @Message annotations. */
module Annotations {
  import opened Results

  /** The declared backing format of a bundle. Only PROPERTY is generated;
      NONE asks the runtime to fabricate the bundle and the plugin to skip it. */
  datatype BundleType = NONE | PROPERTY | XML | XLIFF

  /** @Message: an optional explicit key ("" when absent) and the default text. */
  datatype MessageAnnotation = MessageAnnotation(key: string, value: string)

  /** @ResourceBundle on a contract type. */
  datatype BundleAnnotation = BundleAnnotation(
    name: string,         // bundle base name, "" for the default
    locale: string,       // "language_country_variant", "" for the default
    btype: BundleType,
    define: seq<string>)  // static "key=value" entries

  /** @ResourceBundle with every element left at its default; note that
      define defaults to the one-element array {""}, not to an empty one. */
  const DefaultBundleAnnotation: BundleAnnotation := BundleAnnotation("", "", PROPERTY, [""])

  /** One method of a contract interface. */
  datatype Operation = Operation(
    name: string,
    returnsString: bool,
    message: Option<MessageAnnotation>)

  /** A scanned type: its binary name, the shape facts reflection reports,
      its optional bundle annotation and its public methods, inherited ones
      included, in the order Class.getMethods() returns them, an order the
      JVM leaves unspecified. */
  datatype Contract = Contract(
    className: string,
    isInterface: bool,
    isMessageContract: bool, // extends Messages, or is shaped like an MBean
    bundle: Option<BundleAnnotation>,
    operations: seq<Operation>)

  /** The bundle key of an annotated method: the explicit key if non-empty,
      else the method's name. Shared by the runtime dispatch, the runtime
      fabrication and the build plugin. */
  function MessageKey(methodName: string, m: MessageAnnotation): (k: string)
    ensures m.key != "" ==> k == m.key
    ensures m.key == "" ==> k == methodName
  {
    if m.key == "" then methodName else m.key
  }
}

=== FILE: bundledef.dfy ===
/** The build plugin's identity of a generated bundle: a base name (a file
    path without extension), an optional locale and a declared type. Two
    definitions are the same bundle exactly when they print the same. */
module BundleDefinition {
  import opened Results
  import opened Strings
  import opened Locales
  import opened Annotations

  datatype Def = Def(baseName: string, locale: Option<Locale>, btype: BundleType)

  /** new ResourceBundleDefinition(baseName): a property bundle in the
      plugin's default locale. */
  function New(baseName: string, defaultLocale: Locale): (d: Def)
    ensures Canonical(d) == baseName + "_" + LocaleString(defaultLocale)
    ensures d.btype == PROPERTY
  {
    Def(baseName, Some(defaultLocale), PROPERTY)
  }

  /** toString: the base name, then '_' and the printed locale when there
      is one. A locale always leaves its separator, even one that prints
      as "" (the root locale). */
  function Canonical(d: Def): (r: string)
    ensures |d.baseName| <= |r| && r[..|d.baseName|] == d.baseName
    ensures d.locale.None? <==> |r| == |d.baseName|
    ensures d.locale.Some? ==> r[|d.baseName|..] == "_" + LocaleString(d.locale.value)
  {
    d.baseName + (match d.locale case Some(l) => "_" + LocaleString(l) case None => "")
  }

  /** equals and hashCode both go through toString: two definitions are
      the same bundle when they print the same. Without locales that is
      equality of base names. */
  function Same(a: Def, b: Def): (r: bool)
    ensures r && a.locale.None? && b.locale.None? ==> a.baseName == b.baseName
  {
    Canonical(a) == Canonical(b)
  }

  /** setBaseName: a null or empty name leaves the definition as it was. */
  function SetBaseName(d: Def, name: Option<string>): (r: Def)
    ensures r.locale == d.locale && r.btype == d.btype
    ensures name.Some? && name.value != "" ==> r.baseName == name.value
    ensures name.None? || name.value == "" ==> r == d
  {
    match name
    case Some(n) => if |n| > 0 then d.(baseName := n) else d
    case None => d
  }

  /** setLocale(String): a null or empty string leaves the definition as it
      was; anything else is parsed as "language_country_variant". */
  function SetLocale(d: Def, s: Option<string>): (r: Def)
    ensures r.baseName == d.baseName && r.btype == d.btype
    ensures s.Some? && s.value != "" ==> r.locale == Some(ParseLocale(s.value))
    ensures s.None? || s.value == "" ==> r == d
  {
    match s
    case Some(text) => if |text| > 0 then d.(locale := Some(ParseLocale(text))) else d
    case None => d
  }

  /** setType: only property bundles are generated; any other type is
      refused and reported back. */
  function SetType(d: Def, t: BundleType): (r: Result<Def, BundleType>)
    ensures r.Ok? <==> t == PROPERTY
    ensures r.Ok? ==> r.value == d.(btype := PROPERTY)
    ensures r.Err? ==> r.error == t
  {
    if t != PROPERTY then Err(t) else Ok(d.(btype := t))
  }

  /** The type takes no part in identity. */
  lemma SameIgnoresType(d: Def, t: BundleType)
    ensures Same(d, d.(btype := t))
  {
  }

  /** With equal locales, identity is equality of base names. */
  lemma SameLocaleSameName(a: Def, b: Def)
    requires a.locale == b.locale
    ensures Same(a, b) <==> a.baseName == b.baseName
  {
    var tail := match a.locale case Some(l) => "_" + LocaleString(l) case None => "";
    if Same(a, b) {
      AppendInjective(a.baseName, b.baseName, tail);
    }
  }

  /** Setting a printed locale gives that locale back, unless it prints as
      "" (the root locale and a variant-only locale), which is ignored. */
  lemma SetLocaleOfPrinted(d: Def, loc: Locale)
    requires '_' !in loc.language && '_' !in loc.country && '_' !in loc.variant
    requires loc.language != "" || loc.country != ""
    ensures SetLocale(d, Some(LocaleString(loc))).locale == Some(loc)
  {
    ParseLocaleString(loc);
  }

  /** Identity is by printed form only: a bundle with no locale whose name
      ends in "_en" is the same bundle as one named without it in locale en. */
  lemma LocaleInNameCollides(base: string)
    ensures Same(Def(base + "_en", None, PROPERTY), Def(base, Some(Locale("en", "", "")), PROPERTY))
  {
    assert LocaleString(Locale("en", "", "")) == "en";
  }
}

=== FILE: factory.dfy ===
/** MessageFactory: resolves a contract and a locale to a cached proxy. The
    synchronized cache update is one atomic step over an explicit state;
    ResourceBundle.getBundle is an oracle that finds a bundle or reports it
    missing. */
module MessageFactory {
  import opened Results
  import opened Locales
  import opened Annotations
  import opened MessageHandler
  import TL = ThreadLocale
  import LM = LocaleManager

  /** What create hands back: a proxy implementing the contract and backed by
      a handler. */
  datatype Proxy = Proxy(contract: Contract, handler: Handler)

  /** ResourceBundle.getBundle(baseName, locale): a bundle, or None for a
      MissingResourceException. */
  type BundleLoader = (string, Locale) -> Option<Bundle>

  /** The factory's static state: the handler cache, the fabrication flag and
      the missing/fabricated bundle counters. */
  datatype FactoryState = FactoryState(
    handlers: map<string, Proxy>,
    fabricate: bool,
    missing: nat,
    fabricated: nat)

  /** Class initialisation: empty cache, fabrication switched ON (whatever
      the setter's documentation says), both counters zero. */
  const Initial: FactoryState := FactoryState(map[], true, 0, 0)

  /** The outcome of create: the next state and the proxy or the exception. */
  datatype Created = Created(st: FactoryState, result: Result<Proxy, RuntimeFailure>)

  /** setFabricateBundles: changes the flag and nothing else. */
  function SetFabricateBundles(st: FactoryState, yes: bool): (r: FactoryState)
    ensures r.fabricate == yes
    ensures r.handlers == st.handlers && r.missing == st.missing && r.fabricated == st.fabricated
  {
    st.(fabricate := yes)
  }

  /** The bundle base name: the annotation's name when given and non-empty,
      else the contract's class name. */
  function BundleName(c: Contract): (r: string)
    ensures c.bundle.Some? && c.bundle.value.name != "" ==> r == c.bundle.value.name
    ensures c.bundle.None? || c.bundle.value.name == "" ==> r == c.className
  {
    match c.bundle
    case Some(b) => if b.name != "" then b.name else c.className
    case None => c.className
  }

  /** The cache key: bundle name, '_', then the locale as Java prints it
      ("null" for a null locale). */
  function CacheId(c: Contract, locale: Option<Locale>): (r: string)
    ensures |BundleName(c)| < |r| && r[..|BundleName(c)|] == BundleName(c) && r[|BundleName(c)|] == '_'
    ensures locale.None? ==> r == BundleName(c) + "_null"
    ensures locale.Some? ==> r[|BundleName(c)| + 1..] == LocaleString(locale.value)
  {
    BundleName(c) + "_" + LocaleText(locale)
  }

  // ---------------------------------------------------------------------
  // Fabrication
  // ---------------------------------------------------------------------

  /** An operation that contributes an entry to a fabricated bundle: it
      carries @Message with a non-empty value. */
  predicate Contributes(op: Operation) {
    op.message.Some? && op.message.value.value != ""
  }

  /** The key a contributing operation is stored under. */
  function KeyOf(op: Operation): string
    requires op.message.Some?
  {
    MessageKey(op.name, op.message.value)
  }

  /** The lookup table a ListResourceBundle builds from the fabricated
      contents: each contributing method in order, a later pair overwriting
      an earlier one with the same key. */
  function DeclaredTexts(ops: seq<Operation>): (r: map<string, string>)
    ensures forall i :: 0 <= i < |ops| && Contributes(ops[i]) ==> KeyOf(ops[i]) in r
    decreases |ops|
  {
    if |ops| == 0 then map[]
    else
      var rest := DeclaredTexts(ops[..|ops| - 1]);
      var op := ops[|ops| - 1];
      if Contributes(op) then rest[KeyOf(op) := op.message.value.value] else rest
  }

  /** A key is in the fabricated table exactly when some contributing method
      is keyed by it, and it maps to the value of the last such method. */
  lemma {:induction false} DeclaredEntries(ops: seq<Operation>, k: string)
    ensures k in DeclaredTexts(ops) <==>
      exists i :: 0 <= i < |ops| && Contributes(ops[i]) && KeyOf(ops[i]) == k
    ensures k in DeclaredTexts(ops) ==>
      exists i :: 0 <= i < |ops| && Contributes(ops[i]) && KeyOf(ops[i]) == k
        && DeclaredTexts(ops)[k] == ops[i].message.value.value
        && forall j :: i < j < |ops| && Contributes(ops[j]) ==> KeyOf(ops[j]) != k
    decreases |ops|
  {
    if |ops| > 0 {
      var init := ops[..|ops| - 1];
      var op := ops[|ops| - 1];
      DeclaredEntries(init, k);
      forall i | 0 <= i < |init| ensures init[i] == ops[i] { }
      if Contributes(op) && KeyOf(op) == k {
        assert DeclaredTexts(ops)[k] == op.message.value.value;
      } else if k in DeclaredTexts(init) {
        var i :| 0 <= i < |init| && Contributes(init[i]) && KeyOf(init[i]) == k
          && DeclaredTexts(init)[k] == init[i].message.value.value
          && forall j :: i < j < |init| && Contributes(init[j]) ==> KeyOf(init[j]) != k;
        assert Contributes(ops[i]) && KeyOf(ops[i]) == k;
      }
    }
  }

  /** fabricateBundle's bundle: the declared entries, with the locale parsed
      from the annotation whenever the annotation is present (its default ""
      parses to the root locale), else the JVM default locale. */
  function Fabricate(c: Contract, processDefault: Locale): (b: Bundle)
    ensures c.bundle.Some? ==> b.locale == ParseLocale(c.bundle.value.locale)
    ensures c.bundle.None? ==> b.locale == processDefault
  {
    var locale := match c.bundle
      case Some(a) => ParseLocale(a.locale)
      case None => processDefault;
    Bundle(locale, DeclaredTexts(c.operations))
  }

  /** A contract that keeps the annotation's default locale gets a root-locale
      fabricated bundle, not the JVM default. */
  lemma FabricateDefaultLocaleIsRoot(c: Contract, processDefault: Locale)
    requires c.bundle.Some? && c.bundle.value.locale == ""
    ensures Fabricate(c, processDefault).locale == Root
  {
    JoinSmall("", "", "", "");
    ParseLocaleOfJoin([""]);
  }

  // ---------------------------------------------------------------------
  // create
  // ---------------------------------------------------------------------

  /** create(Class, Locale). Validation first, then one atomic step under the
      cache lock: a hit returns the cached proxy; a miss asks the loader and,
      when the bundle is missing, fabricates one if the contract's type is
      NONE or fabrication is on, else rethrows. A null locale makes getBundle
      throw NullPointerException, which nothing catches. */
  function Create(st: FactoryState, clazz: Option<Contract>, locale: Option<Locale>,
                  load: BundleLoader, processDefault: Locale): (r: Created)
    // validation runs before the cache is consulted
    ensures clazz.None? ==> r == Created(st, Err(IllegalArgument))
    ensures clazz.Some? && !clazz.value.isInterface ==> r == Created(st, Err(UnsupportedOperation))
    // the flag is never touched; entries are never replaced or removed
    ensures r.st.fabricate == st.fabricate
    ensures forall id :: id in st.handlers ==> id in r.st.handlers && r.st.handlers[id] == st.handlers[id]
    // at most the call's own key is added, and a success is what the cache now holds under it
    ensures clazz.Some? ==> r.st.handlers.Keys <= st.handlers.Keys + {CacheId(clazz.value, locale)}
    ensures clazz.None? ==> r.st.handlers == st.handlers
    ensures r.result.Ok? ==>
      && clazz.Some? && clazz.value.isInterface
      && CacheId(clazz.value, locale) in r.st.handlers
      && r.st.handlers[CacheId(clazz.value, locale)] == r.result.value
    ensures r.result.Err? ==> r.st.handlers == st.handlers
    // the counters move by at most one each, and only together with a miss
    ensures r.st.missing == st.missing || r.st.missing == st.missing + 1
    ensures r.st.fabricated == st.fabricated || r.st.fabricated == st.fabricated + 1
    ensures r.st.fabricated == st.fabricated + 1 ==> r.st.missing == st.missing + 1 && r.result.Ok?
  {
    match clazz
    case None => Created(st, Err(IllegalArgument))
    case Some(c) =>
      if !c.isInterface then Created(st, Err(UnsupportedOperation))
      else
        var id := CacheId(c, locale);
        if id in st.handlers then Created(st, Ok(st.handlers[id]))
        else
          match locale
          case None => Created(st, Err(NullPointer))
          case Some(l) =>
            match load(BundleName(c), l)
            case Some(b) =>
              var p := Proxy(c, Handler(Some(b)));
              Created(st.(handlers := st.handlers[id := p]), Ok(p))
            case None =>
              var counted := st.(missing := st.missing + 1);
              if (c.bundle.Some? && c.bundle.value.btype == NONE) || st.fabricate then
                var p := Proxy(c, Handler(Some(Fabricate(c, processDefault))));
                Created(counted.(handlers := st.handlers[id := p], fabricated := st.fabricated + 1), Ok(p))
              else
                Created(counted, Err(MissingResource))
  }

  /** create(Class): the locale is LocaleManager.getLocale for the calling
      thread, read before the class is validated. In per-thread mode that
      read leaves the thread's slot filled, with the process default if it
      was empty; nothing else in the locale state changes. */
  function CreateForThread(st: FactoryState, clazz: Option<Contract>, locales: TL.State, caller: TL.ThreadId,
                           load: BundleLoader, processDefault: Locale): (r: (Created, TL.State))
    ensures clazz.None? ==> r.0 == Created(st, Err(IllegalArgument))
    ensures r.1.perThread == locales.perThread && r.1.global == locales.global
    ensures locales.perThread ==> caller in r.1.slots
    ensures !locales.perThread || caller in locales.slots ==> r.1 == locales
  {
    var read := LM.GetLocale(locales, caller, processDefault);
    (Create(st, clazz, read.locale, load, processDefault), read.st)
  }

  /** create(Class, String): a non-null string is parsed, a null one falls
      back to the calling thread's locale. */
  function CreateFromString(st: FactoryState, clazz: Option<Contract>, localeString: Option<string>,
                            locales: TL.State, caller: TL.ThreadId,
                            load: BundleLoader, processDefault: Locale): (r: (Created, TL.State))
    ensures clazz.None? ==> r.0 == Created(st, Err(IllegalArgument))
    ensures localeString.Some? ==> r.1 == locales
    ensures localeString.Some? && r.0.result.Ok? ==>
      CacheId(clazz.value, Some(ParseLocale(localeString.value))) in r.0.st.handlers
  {
    match localeString
    case Some(s) => (Create(st, clazz, Some(ParseLocale(s)), load, processDefault), locales)
    case None => CreateForThread(st, clazz, locales, caller, load, processDefault)
  }

  // ---------------------------------------------------------------------
  // Properties of create
  // ---------------------------------------------------------------------

  /** A hit returns the cached proxy and changes no state. */
  lemma CacheHitPure(st: FactoryState, c: Contract, locale: Option<Locale>, load: BundleLoader, processDefault: Locale)
    requires c.isInterface && CacheId(c, locale) in st.handlers
    ensures Create(st, Some(c), locale, load, processDefault) == Created(st, Ok(st.handlers[CacheId(c, locale)]))
  {
  }

  /** Calling create twice with the same arguments gives the same proxy, and
      the second call changes nothing. */
  lemma CreateIdempotent(st: FactoryState, c: Contract, locale: Option<Locale>, load: BundleLoader, processDefault: Locale)
    ensures var first := Create(st, Some(c), locale, load, processDefault);
      var second := Create(first.st, Some(c), locale, load, processDefault);
      first.result.Ok? ==> second == Created(first.st, first.result)
  {
  }

  /** A miss with a found bundle adds exactly one entry, backed by that bundle,
      and leaves the counters alone. */
  lemma LoadedBundleCached(st: FactoryState, c: Contract, l: Locale, load: BundleLoader, processDefault: Locale)
    requires c.isInterface && CacheId(c, Some(l)) !in st.handlers
    requires load(BundleName(c), l).Some?
    ensures var r := Create(st, Some(c), Some(l), load, processDefault);
      && r.result == Ok(Proxy(c, Handler(load(BundleName(c), l))))
      && r.st.handlers == st.handlers[CacheId(c, Some(l)) := r.result.value]
      && r.st.missing == st.missing && r.st.fabricated == st.fabricated
  {
  }

  /** A missing bundle always counts as missing; the call succeeds exactly
      when the type is NONE or fabrication is on, and then the proxy is backed
      by the fabricated bundle, the fabricated counter moves and one entry is
      added. Otherwise the cache is untouched. */
  lemma MissingBundleFabricatedIff(st: FactoryState, c: Contract, l: Locale, load: BundleLoader, processDefault: Locale)
    requires c.isInterface && CacheId(c, Some(l)) !in st.handlers
    requires load(BundleName(c), l).None?
    ensures var r := Create(st, Some(c), Some(l), load, processDefault);
      var allowed := (c.bundle.Some? && c.bundle.value.btype == NONE) || st.fabricate;
      && r.st.missing == st.missing + 1
      && (r.result.Ok? <==> allowed)
      && (allowed ==>
            && r.result.value == Proxy(c, Handler(Some(Fabricate(c, processDefault))))
            && r.st.fabricated == st.fabricated + 1
            && r.st.handlers == st.handlers[CacheId(c, Some(l)) := r.result.value])
      && (!allowed ==>
            && r.result == Err(MissingResource)
            && r.st.handlers == st.handlers
            && r.st.fabricated == st.fabricated)
  {
  }

  /** A null locale that misses the cache fails with NullPointerException and
      changes nothing, not even the missing counter. */
  lemma NullLocaleMissFails(st: FactoryState, c: Contract, load: BundleLoader, processDefault: Locale)
    requires c.isInterface && CacheId(c, None) !in st.handlers
    ensures Create(st, Some(c), None, load, processDefault) == Created(st, Err(NullPointer))
  {
  }

  /** A fabricated proxy formats exactly the declared texts: an annotated
      method whose key no later contributing method reuses formats its own
      default text. */
  lemma FabricatedFormatsDeclaredText(c: Contract, processDefault: Locale, i: nat, args: seq<Arg>, fmt: Formatter)
    requires i < |c.operations| && Contributes(c.operations[i])
    requires forall j :: i < j < |c.operations| && Contributes(c.operations[j]) ==>
      KeyOf(c.operations[j]) != KeyOf(c.operations[i])
    ensures var h := Handler(Some(Fabricate(c, processDefault)));
      Invoke(h, Declared(c.operations[i], args), fmt)
        == TextReply(Formatted(fmt, c.operations[i].message.value.value, args))
  {
    var ops := c.operations;
    var k := KeyOf(ops[i]);
    DeclaredEntries(ops, k);
    var j :| 0 <= j < |ops| && Contributes(ops[j]) && KeyOf(ops[j]) == k
      && DeclaredTexts(ops)[k] == ops[j].message.value.value
      && forall m :: j < m < |ops| && Contributes(ops[m]) ==> KeyOf(ops[m]) != k;
    assert j == i;
  }

  /** An annotated method without a text, or one without @Message, is absent
      from a fabricated bundle unless another method shares its key, so its
      call degrades to the decorated key. */
  lemma FabricatedSkipsEmptyTexts(c: Contract, processDefault: Locale, k: string)
    requires forall j :: 0 <= j < |c.operations| && Contributes(c.operations[j]) ==> KeyOf(c.operations[j]) != k
    ensures k !in Fabricate(c, processDefault).entries
  {
    DeclaredEntries(c.operations, k);
  }

  /** Two contracts with the same bundle name share one cache entry: the
      second create returns the proxy built for the first contract. */
  lemma SharedBundleNameSharesProxy(st: FactoryState, a: Contract, b: Contract, l: Locale,
                                    load: BundleLoader, processDefault: Locale)
    requires a.isInterface && b.isInterface && BundleName(a) == BundleName(b)
    ensures var first := Create(st, Some(a), Some(l), load, processDefault);
      first.result.Ok? ==>
        Create(first.st, Some(b), Some(l), load, processDefault).result == first.result
  {
  }

  /** Cache keys are not unique per (bundle, locale): a dotted bundle name
      with an underscore and a shorter locale print the same key as the
      shorter name with a longer locale. */
  lemma CacheIdCollision()
    ensures var a := Contract("A", true, true, Some(BundleAnnotation("A_b", "", PROPERTY, [""])), []);
      var b := Contract("A", true, true, Some(BundleAnnotation("A", "", PROPERTY, [""])), []);
      CacheId(a, Some(Locale("c", "", ""))) == CacheId(b, Some(Locale("b", "c", "")))
  {
  }

  /** A null locale prints as "null", so it shares a key with the locale
      whose language is "null". */
  lemma NullLocaleKeyCollision(c: Contract)
    ensures CacheId(c, None) == CacheId(c, Some(Locale("null", "", "")))
  {
  }

  /** create(Class, String) on a locale's printed form is create(Class, Locale)
      for every locale the printed form determines. */
  lemma CreateFromPrintedLocale(st: FactoryState, c: Contract, l: Locale, locales: TL.State, caller: TL.ThreadId,
                                load: BundleLoader, processDefault: Locale)
    requires '_' !in l.language && '_' !in l.country && '_' !in l.variant
    requires !(l.language == "" && l.country == "" && l.variant != "")
    ensures CreateFromString(st, Some(c), Some(LocaleString(l)), locales, caller, load, processDefault).0
         == Create(st, Some(c), Some(l), load, processDefault)
  {
    ParseLocaleString(l);
  }

  /** create(Class, null String) falls back to the calling thread's locale. */
  lemma NullStringUsesThreadLocale(st: FactoryState, c: Contract, locales: TL.State, caller: TL.ThreadId,
                                   load: BundleLoader, processDefault: Locale)
    ensures CreateFromString(st, Some(c), None, locales, caller, load, processDefault)
         == CreateForThread(st, Some(c), locales, caller, load, processDefault)
  {
  }

  /** create(Class) after setThreadLocale(l) on the same thread resolves for l. */
  lemma CreateAfterSetThreadLocale(st: FactoryState, c: Contract, locales: TL.State, caller: TL.ThreadId,
                                   l: Locale, load: BundleLoader, processDefault: Locale)
    ensures CreateForThread(st, Some(c), LM.SetThreadLocale(locales, caller, Some(l)), caller, load, processDefault).0
         == Create(st, Some(c), Some(l), load, processDefault)
  {
  }

  /** create(Class) on a thread that never set a locale resolves for the
      process default and pins it: after the default changes, the thread's
      next create(Class) still resolves for the old one. */
  lemma CreateForThreadPinsDefault(st: FactoryState, c: Contract, locales: TL.State, caller: TL.ThreadId,
                                   load: BundleLoader, before: Locale, after: Locale)
    requires locales.perThread && caller !in locales.slots
    ensures var first := CreateForThread(st, Some(c), locales, caller, load, before);
      && first.0 == Create(st, Some(c), Some(before), load, before)
      && CreateForThread(first.0.st, Some(c), first.1, caller, load, after).0
         == Create(first.0.st, Some(c), Some(before), load, after)
  {
  }

  /** A fresh factory with no bundles on the class path fabricates, because
      the flag starts on. */
  lemma InitialFabricates(c: Contract, l: Locale, processDefault: Locale)
    requires c.isInterface
    ensures var none: BundleLoader := (n, x) => None;
      Create(Initial, Some(c), Some(l), none, processDefault).result
        == Ok(Proxy(c, Handler(Some(Fabricate(c, processDefault)))))
  {
  }

  // ---------------------------------------------------------------------
  // The locale-string overloads of the setters
  // ---------------------------------------------------------------------

  /** setThreadLocale(language[, country[, variant]]): a locale built from the
      given fields, missing ones empty. */
  function SetThreadLocaleFields(locales: TL.State, caller: TL.ThreadId, fields: seq<string>): (r: TL.State)
    requires 1 <= |fields| <= 3
    ensures r.perThread && r.global == locales.global
    ensures caller in r.slots && r.slots[caller].Some? && r.slots[caller].value.language == fields[0]
    ensures |fields| >= 2 ==> r.slots[caller].value.country == fields[1]
    ensures |fields| == 3 ==> r.slots[caller].value.variant == fields[2]
    ensures |fields| < 3 ==> r.slots[caller].value.variant == ""
    ensures |fields| < 2 ==> r.slots[caller].value.country == ""
    ensures forall t :: t != caller && t in locales.slots ==> t in r.slots && r.slots[t] == locales.slots[t]
  {
    LM.SetThreadLocale(locales, caller, Some(Locale(Field(fields, 0), Field(fields, 1), Field(fields, 2))))
  }

  /** setLocale(language[, country[, variant]]): as above, globally. */
  function SetLocaleFields(locales: TL.State, caller: TL.ThreadId, fields: seq<string>): (r: TL.State)
    requires 1 <= |fields| <= 3
    ensures !r.perThread && r.slots == locales.slots
    ensures r.global.Some? && r.global.value.language == fields[0]
    ensures |fields| >= 2 ==> r.global.value.country == fields[1]
    ensures |fields| == 3 ==> r.global.value.variant == fields[2]
    ensures |fields| < 3 ==> r.global.value.variant == ""
    ensures |fields| < 2 ==> r.global.value.country == ""
  {
    LM.SetLocale(locales, caller, Some(Locale(Field(fields, 0), Field(fields, 1), Field(fields, 2))))
  }

  /** setLocale("de", "DE") makes every thread's create(Class) resolve for de_DE. */
  lemma SetLocaleFieldsSeenByAll(st: FactoryState, c: Contract, locales: TL.State, caller: TL.ThreadId,
                                 other: TL.ThreadId, load: BundleLoader, processDefault: Locale)
    ensures CreateForThread(st, Some(c), SetLocaleFields(locales, caller, ["de", "DE"]), other, load, processDefault).0
         == Create(st, Some(c), Some(Locale("de", "DE", "")), load, processDefault)
  {
  }

  /** The field overloads and the parsed string agree: setting ("en", "US")
      and then creating from the thread is create(Class, "en_US"). */
  lemma FieldOverloadMatchesString(st: FactoryState, c: Contract, locales: TL.State, caller: TL.ThreadId,
                                   load: BundleLoader, processDefault: Locale)
    ensures CreateForThread(st, Some(c), SetThreadLocaleFields(locales, caller, ["en", "US"]), caller, load, processDefault).0
         == CreateFromString(st, Some(c), Some("en_US"), locales, caller, load, processDefault).0
  {
    var en := Locale("en", "US", "");
    ParseEnUs();
    ThreadFieldsCreate(st, c, locales, caller, ["en", "US"], load, processDefault);
    assert Locale(Field(["en", "US"], 0), Field(["en", "US"], 1), Field(["en", "US"], 2)) == en;
  }

  lemma ParseEnUs()
    ensures ParseLocale("en_US") == Locale("en", "US", "")
  {
    ParseLocaleShortForms("en", "US");
    assert "en" + "_" + "US" == "en_US";
  }

  /** create(Class) after setThreadLocale(fields) in the same thread resolves
      for the locale the fields spell. */
  lemma ThreadFieldsCreate(st: FactoryState, c: Contract, locales: TL.State, caller: TL.ThreadId,
                           fields: seq<string>, load: BundleLoader, processDefault: Locale)
    requires 1 <= |fields| <= 3
    ensures CreateForThread(st, Some(c), SetThreadLocaleFields(locales, caller, fields), caller, load, processDefault).0
         == Create(st, Some(c), Some(Locale(Field(fields, 0), Field(fields, 1), Field(fields, 2))), load, processDefault)
  {
    var chosen := SetThreadLocaleFields(locales, caller, fields);
    assert LM.GetLocale(chosen, caller, processDefault).locale == Some(Locale(Field(fields, 0), Field(fields, 1), Field(fields, 2)));
  }
}

=== FILE: handler.dfy ===
/** MessageHandler: formats a bundle's templates with graceful degradation on
    missing keys, and stands behind every contract interface as an explicit
    dispatch function in place of a java.lang.reflect.Proxy. */
module MessageHandler {
  import opened Results
  import opened Locales
  import opened Annotations

  /** A resolved java.util.ResourceBundle: its locale and the key/template
      pairs visible through it (a file bundle's parent chain flattened). */
  datatype Bundle = Bundle(locale: Locale, entries: map<string, string>)

  /** A message argument as the caller passes it. */
  datatype Arg = TextArg(text: string) | NumberArg(number: int)

  /** java.text.MessageFormat.format, left uninterpreted: the formatted
      text, or None for the IllegalArgumentException it throws on a
      malformed pattern or an argument a format element cannot take. */
  type Formatter = (string, seq<Arg>) -> Option<string>

  /** The marker wrapped around a key that cannot be resolved. */
  const BogusKeyDecorator: string := "!!"

  /** The handler holds one bundle, fixed at construction; it may be null. */
  datatype Handler = Handler(bundle: Option<Bundle>)

  /** A call of MessageFormat.format: its text, or the exception it throws. */
  function Formatted(fmt: Formatter, template: string, args: seq<Arg>): (r: Result<string, RuntimeFailure>)
    ensures r.Ok? <==> fmt(template, args).Some?
    ensures r.Ok? ==> r.value == fmt(template, args).value
    ensures r.Err? ==> r.error == IllegalArgument
  {
    match fmt(template, args)
    case Some(t) => Ok(t)
    case None => Err(IllegalArgument)
  }

  /** formatArgs: the bundle's template for the key, formatted with the
      arguments; a null bundle or an absent key gives "!!key!!". Only the
      MissingResourceException of the lookup is caught, so a template the
      formatter rejects throws IllegalArgumentException to the caller. */
  function FormatArgs(h: Handler, key: string, args: seq<Arg>, fmt: Formatter): (r: Result<string, RuntimeFailure>)
    ensures h.bundle.Some? && key in h.bundle.value.entries ==>
      r == Formatted(fmt, h.bundle.value.entries[key], args)
    ensures h.bundle.None? || key !in h.bundle.value.entries ==>
      r == Ok(BogusKeyDecorator + key + BogusKeyDecorator)
    ensures r.Err? ==> r.error == IllegalArgument
  {
    match h.bundle
    case Some(b) =>
      if key in b.entries then Formatted(fmt, b.entries[key], args)
      else Ok(BogusKeyDecorator + key + BogusKeyDecorator)
    case None => Ok(BogusKeyDecorator + key + BogusKeyDecorator)
  }

  /** Messages.format(String key): a key it cannot resolve is decorated,
      never thrown; the only failure is the formatter's. */
  function Format(h: Handler, key: string, fmt: Formatter): (r: Result<string, RuntimeFailure>)
    ensures h.bundle.Some? && key in h.bundle.value.entries ==> r == Formatted(fmt, h.bundle.value.entries[key], [])
    ensures h.bundle.None? || key !in h.bundle.value.entries ==> r == Ok("!!" + key + "!!")
    ensures r.Err? ==> r.error == IllegalArgument
  {
    FormatArgs(h, key, [], fmt)
  }

  /** Messages.format(String key, Object... args), with the same guarantees. */
  function FormatWith(h: Handler, key: string, args: seq<Arg>, fmt: Formatter): (r: Result<string, RuntimeFailure>)
    ensures h.bundle.Some? && key in h.bundle.value.entries ==> r == Formatted(fmt, h.bundle.value.entries[key], args)
    ensures h.bundle.None? || key !in h.bundle.value.entries ==> r == Ok("!!" + key + "!!")
    ensures r.Err? ==> r.error == IllegalArgument
  {
    FormatArgs(h, key, args, fmt)
  }

  /** Messages.getLocale: the bundle's own locale; a null bundle throws. */
  function GetLocale(h: Handler): (r: Result<Locale, RuntimeFailure>)
    ensures h.bundle.Some? ==> r == Ok(h.bundle.value.locale)
    ensures h.bundle.None? ==> r == Err(NullPointer)
  {
    match h.bundle
    case Some(b) => Ok(b.locale)
    case None => Err(NullPointer)
  }

  /** A call arriving at the proxy: a method of the contract interface, or
      one of the four base methods every contract inherits from Messages. */
  datatype Call =
    | Declared(op: Operation, args: seq<Arg>)
    | FormatKey(key: string)
    | FormatKeyWith(key: string, args: seq<Arg>)
    | GetBundleCall
    | GetLocaleCall

  datatype Reply = Text(text: string) | BundleReply(bundle: Option<Bundle>) | LocaleReply(locale: Locale)

  /** A formatted text as the proxy's reply. */
  function TextReply(t: Result<string, RuntimeFailure>): Result<Reply, RuntimeFailure> {
    match t
    case Ok(s) => Ok(Text(s))
    case Err(e) => Err(e)
  }

  /** A handler method reached through Method.invoke: its failure comes back
      as InvocationTargetException, a checked exception the Messages method
      does not declare, so the proxy throws UndeclaredThrowableException. */
  function Reflected(r: Result<Reply, RuntimeFailure>): (w: Result<Reply, RuntimeFailure>)
    ensures r.Ok? ==> w == r
    ensures r.Err? ==> w == Err(UndeclaredThrowable(r.error))
  {
    match r
    case Ok(v) => Ok(v)
    case Err(e) => Err(UndeclaredThrowable(e))
  }

  /** invoke: an annotated method formats its key with the call's arguments
      by a direct call, so a formatter failure reaches the caller as it is.
      Every other call goes through Method.invoke on the handler: a
      Messages method runs the handler's own implementation, its failures
      wrapped; a declared method without @Message is not a method of the
      handler, and reflection rejects it with IllegalArgumentException. */
  function Invoke(h: Handler, call: Call, fmt: Formatter): (r: Result<Reply, RuntimeFailure>)
    ensures call.Declared? && call.op.message.Some? ==>
      (r.Ok? ==> r.value.Text?) && (r.Err? ==> r.error == IllegalArgument)
    ensures call.Declared? && call.op.message.None? ==> r == Err(IllegalArgument)
    ensures !call.Declared? && r.Err? ==> r.error.UndeclaredThrowable?
    ensures call.GetBundleCall? ==> r == Ok(BundleReply(h.bundle))
    ensures call.GetLocaleCall? ==> (r.Ok? <==> h.bundle.Some?)
  {
    match call
    case Declared(op, args) =>
      (match op.message
       case Some(m) => TextReply(FormatWith(h, MessageKey(op.name, m), args, fmt))
       case None => Err(IllegalArgument))
    case FormatKey(key) => Reflected(TextReply(Format(h, key, fmt)))
    case FormatKeyWith(key, args) => Reflected(TextReply(FormatWith(h, key, args, fmt)))
    case GetBundleCall => Ok(BundleReply(h.bundle))
    case GetLocaleCall =>
      Reflected(match GetLocale(h)
                case Ok(l) => Ok(LocaleReply(l))
                case Err(e) => Err(e))
  }

  /** format(key) is format(key) with an empty argument list. */
  lemma FormatKeyIsEmptyArgs(h: Handler, key: string, fmt: Formatter)
    ensures Format(h, key, fmt) == FormatWith(h, key, [], fmt)
    ensures Invoke(h, FormatKey(key), fmt) == Invoke(h, FormatKeyWith(key, []), fmt)
  {
  }

  /** Calling an annotated method is calling format with its key (the
      explicit key, else the method name) and the same arguments: the same
      text when formatting succeeds; when the formatter throws, the direct
      call lets IllegalArgumentException through while format, reached by
      reflection, has it wrapped. */
  lemma InvokeAnnotatedIsFormat(h: Handler, op: Operation, args: seq<Arg>, fmt: Formatter)
    requires op.message.Some?
    ensures var key := if op.message.value.key != "" then op.message.value.key else op.name;
      var direct := Invoke(h, Declared(op, args), fmt);
      var reflected := Invoke(h, FormatKeyWith(key, args), fmt);
      && (direct.Ok? <==> reflected.Ok?)
      && (direct.Ok? ==> direct == reflected)
      && (direct.Err? ==> direct.error == IllegalArgument && reflected == Err(UndeclaredThrowable(IllegalArgument)))
  {
  }

  /** Missing keys degrade to the decorated key, with or without a bundle. */
  lemma MissingKeyIsDecorated(h: Handler, key: string, args: seq<Arg>, fmt: Formatter)
    requires h.bundle.None? || key !in h.bundle.value.entries
    ensures Invoke(h, FormatKeyWith(key, args), fmt) == Ok(Text("!!" + key + "!!"))
  {
  }

  /** A present key formats the bundle's own template; a template the
      formatter rejects fails, wrapped by the reflective dispatch. */
  lemma PresentKeyIsFormatted(b: Bundle, key: string, args: seq<Arg>, fmt: Formatter)
    requires key in b.entries
    ensures var r := Invoke(Handler(Some(b)), FormatKeyWith(key, args), fmt);
      match fmt(b.entries[key], args)
      case Some(t) => r == Ok(Text(t))
      case None => r == Err(UndeclaredThrowable(IllegalArgument))
  {
  }

  /** A handler built on a bundle hands back that bundle and its locale on
      every call: nothing a call does can change them. */
  lemma BundleAndLocaleFixed(b: Bundle, fmt: Formatter)
    ensures Invoke(Handler(Some(b)), GetBundleCall, fmt) == Ok(BundleReply(Some(b)))
    ensures Invoke(Handler(Some(b)), GetLocaleCall, fmt) == Ok(LocaleReply(b.locale))
  {
  }

  /** getLocale on a handler without a bundle: the handler's own method
      throws NullPointerException, which the proxy's caller sees wrapped. */
  lemma NullBundleGetLocaleWrapped(fmt: Formatter)
    ensures GetLocale(Handler(None)) == Err(NullPointer)
    ensures Invoke(Handler(None), GetLocaleCall, fmt) == Err(UndeclaredThrowable(NullPointer))
  {
  }

  /** The proxy test: hello("John Doe", 1) on an unkeyed method named "hello"
      formats the bundle's "hello" template, exactly as format("hello",
      "John Doe", 1) does. */
  lemma HelloExample(b: Bundle, fmt: Formatter)
    requires "hello" in b.entries
    requires fmt(b.entries["hello"], [TextArg("John Doe"), NumberArg(1)]).Some?
    ensures var hello := Operation("hello", true, Some(MessageAnnotation("", "Hello {0}. You visited this website {1} times.")));
      var args := [TextArg("John Doe"), NumberArg(1)];
      var h := Handler(Some(b));
      && Invoke(h, Declared(hello, args), fmt) == Ok(Text(fmt(b.entries["hello"], args).value))
      && Invoke(h, Declared(hello, args), fmt) == Invoke(h, FormatKeyWith("hello", args), fmt)
  {
  }
}

=== FILE: localemanager.dfy ===
/** LocaleManager: the process-wide front of one shared ThreadLocale. Each
    setter switches the mode and then stores the locale. */
module LocaleManager {
  import opened Results
  import opened Locales
  import TL = ThreadLocale

  /** setThreadLocale: per-thread mode, then store into the caller's slot. */
  function SetThreadLocale(st: TL.State, caller: TL.ThreadId, locale: Option<Locale>): (r: TL.State)
    ensures r.perThread
    ensures r.global == st.global
    ensures r.slots == st.slots[caller := locale]
  {
    TL.Set(TL.SetThread(st, true), caller, locale)
  }

  /** setLocale: global mode, then store into the global slot. */
  function SetLocale(st: TL.State, caller: TL.ThreadId, locale: Option<Locale>): (r: TL.State)
    ensures !r.perThread
    ensures r.global == locale
    ensures r.slots == st.slots
  {
    TL.Set(TL.SetThread(st, false), caller, locale)
  }

  /** getLocale: ThreadLocale.get on the shared instance. It never changes
      the mode or the global slot, and in global mode nothing at all. */
  function GetLocale(st: TL.State, caller: TL.ThreadId, processDefault: Locale): (r: TL.Read)
    ensures r.st.perThread == st.perThread && r.st.global == st.global
    ensures !st.perThread ==> r.locale == st.global && r.st == st
    ensures st.perThread ==> r.st.slots == st.slots[caller := r.locale]
  {
    TL.Get(st, caller, processDefault)
  }

  /** A thread that read the default keeps reading it after the default
      changes; another thread's first read sees the new default. */
  lemma DefaultPinnedByFirstRead(st: TL.State, a: TL.ThreadId, b: TL.ThreadId, before: Locale, after: Locale)
    requires st.perThread && a != b && a !in st.slots && b !in st.slots
    ensures var first := GetLocale(st, a, before);
      && first.locale == Some(before)
      && GetLocale(first.st, a, after).locale == Some(before)
      && GetLocale(first.st, b, after).locale == Some(after)
  {
  }

  /** After setThreadLocale the caller reads its locale back. */
  lemma SetThreadLocaleThenGet(st: TL.State, caller: TL.ThreadId, locale: Option<Locale>, processDefault: Locale)
    ensures GetLocale(SetThreadLocale(st, caller, locale), caller, processDefault).locale == locale
  {
  }

  /** After setLocale every thread reads the same locale. */
  lemma SetLocaleSeenByAll(st: TL.State, caller: TL.ThreadId, other: TL.ThreadId, locale: Option<Locale>, processDefault: Locale)
    ensures GetLocale(SetLocale(st, caller, locale), other, processDefault).locale == locale
  {
  }

  /** setThreadLocale on one thread does not change what another thread
      reads in per-thread mode. */
  lemma SetThreadLocaleIsolated(st: TL.State, a: TL.ThreadId, b: TL.ThreadId, locale: Option<Locale>, processDefault: Locale)
    requires st.perThread && a != b
    ensures GetLocale(SetThreadLocale(st, b, locale), a, processDefault).locale == GetLocale(st, a, processDefault).locale
  {
  }

  /** The thread test: the main thread sets de_DE, a second thread sets
      en_UK, and the main thread still reads de_DE while the second reads en_UK. */
  lemma TwoThreadsExample(st: TL.State, main: TL.ThreadId, worker: TL.ThreadId, processDefault: Locale)
    requires main != worker
    ensures var german := Some(Locale("de", "DE", ""));
      var english := Some(Locale("en", "UK", ""));
      var s1 := SetThreadLocale(st, main, german);
      var s2 := SetThreadLocale(s1, worker, english);
      GetLocale(s2, main, processDefault).locale == german && GetLocale(s2, worker, processDefault).locale == english
  {
  }

  /** setLocale leaves every per-thread slot untouched, so a later
      setThreadLocale by another thread brings back each thread's old value. */
  lemma SetLocaleKeepsThreadSlots(st: TL.State, caller: TL.ThreadId, b: TL.ThreadId, a: TL.ThreadId,
                                  global: Option<Locale>, mine: Option<Locale>, processDefault: Locale)
    requires st.perThread && a != b
    ensures var s := SetThreadLocale(SetLocale(st, caller, global), b, mine);
      GetLocale(s, a, processDefault).locale == GetLocale(st, a, processDefault).locale
  {
  }

  /** The two steps of a setter are separate atomic steps in the Java code. If
      another thread's setThreadLocale runs between setLocale's mode switch
      and its store, the "global" locale lands in the caller's own slot and
      the global slot keeps its old value. */
  lemma InterleavedSetLocaleStaysLocal(st: TL.State, a: TL.ThreadId, b: TL.ThreadId,
                                       global: Option<Locale>, mine: Option<Locale>, processDefault: Locale)
    requires a != b
    ensures var s1 := TL.SetThread(st, false);          // a: setLocale, first step
      var s2 := SetThreadLocale(s1, b, mine);           // b: setThreadLocale, both steps
      var s3 := TL.Set(s2, a, global);                  // a: setLocale, second step
      && s3.perThread
      && s3.global == st.global
      && GetLocale(s3, a, processDefault).locale == global
      && GetLocale(s3, b, processDefault).locale == mine
  {
  }
}

=== FILE: locales.dfy ===
/** Locales as the library sees them: a (language, country, variant) triple,
    its printed form, the "language_country_variant" parser that both the
    runtime factory and the build plugin carry, and the candidate-name
    expansion that orders bundle names from most to least specific. */
module Locales {
  import opened Results
  import opened Strings

  /** java.util.Locale reduced to its three fields. Case normalisation of
      the fields is the JDK's business and is not modelled. */
  datatype Locale = Locale(language: string, country: string, variant: string)

  /** The root locale, what parsing the empty string yields. */
  const Root: Locale := Locale("", "", "")

  /** Locale.toString for a locale without script or extensions: the country
      is printed when present or when it separates language from variant;
      the variant is printed only after a language or a country. */
  function LocaleString(loc: Locale): (r: string)
    ensures r == "" <==> loc.language == "" && loc.country == ""
    ensures |loc.language| <= |r| && r[..|loc.language|] == loc.language
  {
    var l := loc.language != "";
    var c := loc.country != "";
    var v := loc.variant != "";
    loc.language
      + (if c || (l && v) then "_" + loc.country else "")
      + (if v && (l || c) then "_" + loc.variant else "")
  }

  /** A possibly-null locale concatenated onto a string, as Java prints it. */
  function LocaleText(loc: Option<Locale>): string {
    match loc
    case None => "null"
    case Some(l) => LocaleString(l)
  }

  /** Underscore-separated concatenation of the parts. */
  function Join(parts: seq<string>): string
    decreases |parts|
  {
    if |parts| == 0 then ""
    else if |parts| == 1 then parts[0]
    else parts[0] + "_" + Join(parts[1..])
  }

  /** Join of a part followed by at least one more. */
  lemma JoinCons(p: string, rest: seq<string>)
    requires |rest| >= 1
    ensures Join([p] + rest) == p + "_" + Join(rest)
  {
    assert ([p] + rest)[1..] == rest;
  }

  /** Join of two, three and four parts written out. */
  lemma JoinSmall(a: string, b: string, c: string, d: string)
    ensures Join([a]) == a
    ensures Join([a, b]) == a + "_" + b
    ensures Join([a, b, c]) == a + "_" + b + "_" + c
    ensures Join([a, b, c, d]) == a + "_" + b + "_" + c + "_" + d
  {
    JoinCons(c, [d]);
    assert [c, d] == [c] + [d];
    JoinCons(b, [c, d]);
    assert [b, c, d] == [b] + [c, d];
    JoinCons(a, [b, c, d]);
    assert [a, b, c, d] == [a] + [b, c, d];
    JoinCons(b, [c]);
    assert [b, c] == [b] + [c];
    JoinCons(a, [b, c]);
    assert [a, b, c] == [a] + [b, c];
    JoinCons(a, [b]);
    assert [a, b] == [a] + [b];
  }

  /** Every underscore-separated field of s, empty ones included. */
  function Fields(s: string): (r: seq<string>)
    ensures |r| >= 1
    ensures forall i :: 0 <= i < |r| ==> '_' !in r[i]
    ensures Join(r) == s
    decreases |s|
  {
    var i := IndexOf(s, '_', 0);
    if i == -1 then [s]
    else
      var rest := Fields(s[i + 1..]);
      assert ([s[..i]] + rest)[1..] == rest;
      assert s == s[..i] + "_" + s[i + 1..];
      [s[..i]] + rest
  }

  /** Fields inverts Join on underscore-free parts. */
  lemma {:induction false} FieldsOfJoin(parts: seq<string>)
    requires |parts| >= 1
    requires forall i :: 0 <= i < |parts| ==> '_' !in parts[i]
    ensures Fields(Join(parts)) == parts
    decreases |parts|
  {
    if |parts| > 1 {
      var p := parts[0];
      var s := Join(parts);
      assert s == p + "_" + Join(parts[1..]);
      assert s[|p|] == '_';
      assert forall j :: 0 <= j < |p| ==> s[j] == p[j];
      assert IndexOf(s, '_', 0) == |p|;
      assert s[..|p|] == p;
      assert s[|p| + 1..] == Join(parts[1..]);
      FieldsOfJoin(parts[1..]);
      assert parts == [p] + parts[1..];
    }
  }

  /** The list with its trailing empty strings removed. */
  function DropTrailingEmpty(f: seq<string>): (r: seq<string>)
    ensures |r| <= |f| && r == f[..|r|]
    ensures forall i :: |r| <= i < |f| ==> f[i] == ""
    ensures |r| > 0 ==> r[|r| - 1] != ""
  {
    if |f| == 0 then f
    else if f[|f| - 1] == "" then DropTrailingEmpty(f[..|f| - 1])
    else f
  }

  /** String.split("_"): the whole string when there is no separator,
      otherwise the fields with trailing empty ones discarded. */
  function Split(s: string): (r: seq<string>)
    ensures '_' !in s ==> r == [s]
    ensures |r| <= |Fields(s)| && r == Fields(s)[..|r|]
    ensures forall i :: |r| <= i < |Fields(s)| ==> Fields(s)[i] == ""
    ensures '_' in s && |r| > 0 ==> r[|r| - 1] != ""
  {
    if '_' !in s then [s] else DropTrailingEmpty(Fields(s))
  }

  /** Array element i, or "" past the end. */
  function Field(parts: seq<string>, i: nat): string {
    if i < |parts| then parts[i] else ""
  }

  /** parseLocaleString: the first three fields of the split, "" for any
      that are missing. Dropping trailing empty fields never matters, so
      the result is read off the plain fields of the string. */
  function ParseLocale(s: string): (r: Locale)
    ensures var f := Fields(s); r == Locale(Field(f, 0), Field(f, 1), Field(f, 2))
  {
    var parts := Split(s);
    if '_' !in s then
      assert IndexOf(s, '_', 0) == -1;
      Locale(Field(parts, 0), Field(parts, 1), Field(parts, 2))
    else
      var f := Fields(s);
      assert forall i: nat :: Field(parts, i) == Field(f, i);
      Locale(Field(parts, 0), Field(parts, 1), Field(parts, 2))
  }

  /** Parsing a joined string takes its first three parts and ignores the rest. */
  lemma ParseLocaleOfJoin(parts: seq<string>)
    requires |parts| >= 1
    requires forall i :: 0 <= i < |parts| ==> '_' !in parts[i]
    ensures ParseLocale(Join(parts)) == Locale(Field(parts, 0), Field(parts, 1), Field(parts, 2))
  {
    FieldsOfJoin(parts);
  }

  /** parse(l + "_" + c + "_" + v) == (l, c, v) when no field holds '_'. */
  lemma ParseLocaleRoundTrip(l: string, c: string, v: string)
    requires '_' !in l && '_' !in c && '_' !in v
    ensures ParseLocale(l + "_" + c + "_" + v) == Locale(l, c, v)
  {
    JoinSmall(l, c, v, "");
    ParseLocaleOfJoin([l, c, v]);
  }

  /** Extra fields after the variant are ignored. */
  lemma ParseLocaleIgnoresExtraFields(l: string, c: string, v: string, extra: string)
    requires '_' !in l && '_' !in c && '_' !in v && '_' !in extra
    ensures ParseLocale(l + "_" + c + "_" + v + "_" + extra) == Locale(l, c, v)
  {
    JoinSmall(l, c, v, extra);
    ParseLocaleOfJoin([l, c, v, extra]);
  }

  /** Missing fields are read as "": a bare language, and the empty string. */
  lemma ParseLocaleShortForms(l: string, c: string)
    requires '_' !in l && '_' !in c
    ensures ParseLocale(l) == Locale(l, "", "")
    ensures ParseLocale(l + "_" + c) == Locale(l, c, "")
    ensures ParseLocale("") == Root
  {
    JoinSmall(l, c, "", "");
    ParseLocaleOfJoin([l]);
    ParseLocaleOfJoin([l, c]);
    ParseLocaleOfJoin([""]);
  }

  /** Parsing the printed form gives the locale back, except for a locale
      with only a variant, which prints as "". */
  lemma ParseLocaleString(loc: Locale)
    requires '_' !in loc.language && '_' !in loc.country && '_' !in loc.variant
    ensures ParseLocale(LocaleString(loc)) == loc
        <==> !(loc.language == "" && loc.country == "" && loc.variant != "")
  {
    var l, c, v := loc.language, loc.country, loc.variant;
    var s := LocaleString(loc);
    JoinSmall(l, c, v, "");
    JoinSmall("", c, v, "");
    if l == "" && c == "" {
      assert s == Join([""]);
      ParseLocaleOfJoin([""]);
    } else if v != "" {
      assert s == Join([l, c, v]);
      ParseLocaleOfJoin([l, c, v]);
    } else if c != "" {
      assert s == Join([l, c]);
      ParseLocaleOfJoin([l, c]);
    } else {
      assert s == Join([l]);
      ParseLocaleOfJoin([l]);
    }
  }

  /** The non-empty locale fields, most general first. */
  function Segments(loc: Locale): seq<string> {
    (if loc.language != "" then [loc.language] else [])
    + (if loc.country != "" then [loc.country] else [])
    + (if loc.variant != "" then [loc.variant] else [])
  }

  /** name followed by "_" + each segment. */
  function Path(name: string, segs: seq<string>): string
    decreases |segs|
  {
    if |segs| == 0 then name else Path(name, segs[..|segs| - 1]) + "_" + segs[|segs| - 1]
  }

  function Reverse<T>(s: seq<T>): (r: seq<T>)
    ensures |r| == |s|
    ensures forall i :: 0 <= i < |s| ==> r[i] == s[|s| - 1 - i]
  {
    if |s| == 0 then [] else [s[|s| - 1]] + Reverse(s[..|s| - 1])
  }

  /** The candidate names for the segments seen so far: the name extended by
      the first k segments, plus the suffix, for k = 0 .. |segs|. */
  function Prefixes(name: string, segs: seq<string>, suffix: string): seq<string> {
    seq(|segs| + 1, k requires 0 <= k <= |segs| => Path(name, segs[..k]) + suffix)
  }

  /** One of expand's three identical steps: a non-empty field extends the
      buffer by "_" + field and collects the buffer plus the suffix. */
  lemma ExpandStep(name: string, segs: seq<string>, field: string, suffix: string)
    ensures var segs' := segs + (if field != "" then [field] else []);
      && (if field != "" then Path(name, segs) + "_" + field else Path(name, segs)) == Path(name, segs')
      && Prefixes(name, segs, suffix)
           + (if field != "" then [Path(name, segs) + "_" + field + suffix] else [])
         == Prefixes(name, segs', suffix)
  {
    if field != "" {
      var segs' := segs + [field];
      assert segs'[..|segs'| - 1] == segs;
      assert segs'[..|segs'|] == segs';
      forall k | 0 <= k <= |segs|
        ensures segs'[..k] == segs[..k]
      {
      }
    } else {
      assert segs + [] == segs;
    }
  }

  /** The loop of MessageFactory.expand before the final reversal: a buffer
      grows by "_language", "_country", "_variant" (each only when
      non-empty) and every stage plus the suffix is collected. */
  function Collect(name: string, locale: Locale, suffix: string): (r: seq<string>)
    ensures |r| == |Segments(locale)| + 1
    ensures r[0] == name + suffix
  {
    var b1 := if locale.language != "" then name + "_" + locale.language else name;
    var n1 := [name + suffix] + (if locale.language != "" then [b1 + suffix] else []);
    var b2 := if locale.country != "" then b1 + "_" + locale.country else b1;
    var n2 := n1 + (if locale.country != "" then [b2 + suffix] else []);
    var b3 := if locale.variant != "" then b2 + "_" + locale.variant else b2;
    n2 + (if locale.variant != "" then [b3 + suffix] else [])
  }

  /** The collected stages are the name extended by each prefix of the
      non-empty fields. */
  lemma CollectIsPrefixes(name: string, locale: Locale, suffix: string)
    ensures Collect(name, locale, suffix) == Prefixes(name, Segments(locale), suffix)
  {
    var s0: seq<string> := [];
    var s1 := s0 + (if locale.language != "" then [locale.language] else []);
    var s2 := s1 + (if locale.country != "" then [locale.country] else []);
    var s3 := s2 + (if locale.variant != "" then [locale.variant] else []);
    assert Prefixes(name, s0, suffix) == [name + suffix];
    ExpandStep(name, s0, locale.language, suffix);
    ExpandStep(name, s1, locale.country, suffix);
    ExpandStep(name, s2, locale.variant, suffix);
    assert s3 == Segments(locale);
  }

  /** MessageFactory.expand past its null checks: the collected stages,
      most specific first. Element i is the name extended by all but the
      last i segments. */
  function Expand(name: string, locale: Locale, suffix: string): (r: seq<string>)
    ensures |r| == |Segments(locale)| + 1
    ensures forall i :: 0 <= i < |r| ==>
      r[i] == Path(name, Segments(locale)[..|Segments(locale)| - i]) + suffix
  {
    CollectIsPrefixes(name, locale, suffix);
    Reverse(Collect(name, locale, suffix))
  }

  /** expand with Java's null checks: a null name, locale or suffix throws
      IllegalArgumentException. */
  function ExpandChecked(name: Option<string>, locale: Option<Locale>, suffix: Option<string>)
    : (r: Result<seq<string>, RuntimeFailure>)
    ensures r.Err? <==> name.None? || locale.None? || suffix.None?
    ensures r.Err? ==> r.error == IllegalArgument
    ensures r.Ok? ==> r.value == Expand(name.value, locale.value, suffix.value)
  {
    if name.None? || locale.None? || suffix.None? then Err(IllegalArgument)
    else Ok(Expand(name.value, locale.value, suffix.value))
  }

  /** Fewer segments give a proper prefix. */
  lemma {:induction false} PathPrefix(name: string, segs: seq<string>, k: nat)
    requires k < |segs|
    ensures Path(name, segs[..k]) < Path(name, segs)
    decreases |segs|
  {
    var last := |segs| - 1;
    assert segs[..last] == segs[..|segs| - 1];
    if k < last {
      PathPrefix(name, segs[..last], k);
      assert segs[..last][..k] == segs[..k];
    }
    assert Path(name, segs) == Path(name, segs[..last]) + "_" + segs[last];
  }

  /** Every candidate starts with the name. */
  lemma {:induction false} PathStartsWithName(name: string, segs: seq<string>)
    ensures name <= Path(name, segs)
    decreases |segs|
  {
    if |segs| > 0 {
      PathStartsWithName(name, segs[..|segs| - 1]);
    }
  }

  /** The ends of expand's result: one more name than non-empty locale
      fields, the most specific name first and the bare name plus suffix
      last. */
  lemma ExpandEnds(name: string, locale: Locale, suffix: string)
    ensures var r := Expand(name, locale, suffix);
      && |r| == |Segments(locale)| + 1
      && r[0] == Path(name, Segments(locale)) + suffix
      && r[|r| - 1] == name + suffix
  {
    var segs := Segments(locale);
    assert segs[..|segs|] == segs;
    assert segs[..0] == [];
  }

  /** Every name expand yields starts with the name and ends with the suffix. */
  lemma ExpandAffixes(name: string, locale: Locale, suffix: string)
    ensures var r := Expand(name, locale, suffix);
      forall i :: 0 <= i < |r| ==>
        (|name| + |suffix| <= |r[i]| && r[i][..|name|] == name && r[i][|r[i]| - |suffix|..] == suffix)
  {
    var r := Expand(name, locale, suffix);
    var segs := Segments(locale);
    forall i | 0 <= i < |r|
      ensures |name| + |suffix| <= |r[i]| && r[i][..|name|] == name
      ensures r[i][|r[i]| - |suffix|..] == suffix
    {
      var p := Path(name, segs[..|segs| - i]);
      PathStartsWithName(name, segs[..|segs| - i]);
      assert r[i] == p + suffix;
      assert r[i][..|name|] == p[..|name|];
    }
  }

  /** With the suffix cut off, each later name is a proper prefix of each
      earlier one: the list runs from most to least specific. */
  lemma ExpandNested(name: string, locale: Locale, suffix: string)
    ensures var r := Expand(name, locale, suffix);
      forall i, j :: 0 <= i < j < |r| ==>
        r[j][..|r[j]| - |suffix|] < r[i][..|r[i]| - |suffix|]
  {
    var r := Expand(name, locale, suffix);
    var segs := Segments(locale);
    forall i, j | 0 <= i < j < |r|
      ensures r[j][..|r[j]| - |suffix|] < r[i][..|r[i]| - |suffix|]
    {
      DropSuffix(Path(name, segs[..|segs| - i]), suffix);
      DropSuffix(Path(name, segs[..|segs| - j]), suffix);
      PathsNested(name, segs, |segs| - j, |segs| - i);
    }
  }

  lemma DropSuffix(p: string, suffix: string)
    ensures (p + suffix)[..|p + suffix| - |suffix|] == p
  {
  }

  /** A path over fewer leading segments is a proper prefix. */
  lemma PathsNested(name: string, segs: seq<string>, a: nat, b: nat)
    requires a < b <= |segs|
    ensures Path(name, segs[..a]) < Path(name, segs[..b])
  {
    assert segs[..b][..a] == segs[..a];
    PathPrefix(name, segs[..b], a);
  }

  /** An example with language and country. */
  lemma ExpandCountryExample()
    ensures Expand("X", Locale("en", "US", ""), "") == ["X_en_US", "X_en", "X"]
  {
    var c := Collect("X", Locale("en", "US", ""), "");
    assert "X" + "_" + "en" == "X_en" && "X_en" + "_" + "US" == "X_en_US";
    assert "X" + "" == "X" && "X_en" + "" == "X_en" && "X_en_US" + "" == "X_en_US";
    assert c == ["X", "X_en", "X_en_US"];
    var r := Expand("X", Locale("en", "US", ""), "");
    assert r[0] == c[2] && r[1] == c[1] && r[2] == c[0];
  }

  /** A language alone. */
  lemma ExpandLanguageExample()
    ensures Expand("X", Locale("en", "", ""), "") == ["X_en", "X"]
  {
    var c := Collect("X", Locale("en", "", ""), "");
    assert "X" + "_" + "en" == "X_en";
    assert "X" + "" == "X" && "X_en" + "" == "X_en";
    assert c == ["X", "X_en"];
    var r := Expand("X", Locale("en", "", ""), "");
    assert r[0] == c[1] && r[1] == c[0];
  }

  /** A full locale with a suffix: one name per field, longest first, each
      ending in the suffix. */
  lemma ExpandVariantExample()
    ensures Expand("X", Locale("en", "US", "v"), ".p") == ["X_en_US_v.p", "X_en_US.p", "X_en.p", "X.p"]
  {
    var c := Collect("X", Locale("en", "US", "v"), ".p");
    assert "X" + "_" + "en" == "X_en" && "X_en" + "_" + "US" == "X_en_US" && "X_en_US" + "_" + "v" == "X_en_US_v";
    assert "X" + ".p" == "X.p" && "X_en" + ".p" == "X_en.p";
    assert "X_en_US" + ".p" == "X_en_US.p" && "X_en_US_v" + ".p" == "X_en_US_v.p";
    assert c == ["X.p", "X_en.p", "X_en_US.p", "X_en_US_v.p"];
    var r := Expand("X", Locale("en", "US", "v"), ".p");
    assert r[0] == c[3] && r[1] == c[2] && r[2] == c[1] && r[3] == c[0];
  }

  /** A language and a variant with no country: the empty country adds no
      name, so the variant puts one name in front of the language's list. */
  lemma ExpandNoCountryExample()
    ensures Expand("X", Locale("en", "", "v"), "") == ["X_en_v"] + Expand("X", Locale("en", "", ""), "")
    ensures Expand("X", Locale("en", "", "v"), "") == ["X_en_v", "X_en", "X"]
  {
    ExpandLanguageExample();
    var c := Collect("X", Locale("en", "", "v"), "");
    assert "X" + "_" + "en" == "X_en" && "X_en" + "_" + "v" == "X_en_v";
    assert "X" + "" == "X" && "X_en" + "" == "X_en" && "X_en_v" + "" == "X_en_v";
    assert Collect("X", Locale("en", "", ""), "") == ["X", "X_en"];
    assert c == ["X", "X_en", "X_en_v"];
    var r := Expand("X", Locale("en", "", "v"), "");
    assert r[0] == c[2] && r[1] == c[1] && r[2] == c[0];
  }

  /** The root locale leaves the bare name with its suffix. */
  lemma ExpandRootExample()
    ensures Expand("X", Root, ".properties") == ["X.properties"]
  {
    var c := Collect("X", Root, ".properties");
    assert c == ["X" + ".properties"];
    assert "X" + ".properties" == "X.properties";
    var r := Expand("X", Root, ".properties");
    assert r[0] == c[0];
  }
}

=== FILE: mojo.dfy ===
/** The build plugin's generator. For every scanned contract it writes one
    "key=text" line per message into the contract's bundle file, checking
    each text and key on the way; after the scan it copies every bundle in
    the default locale to the locale-less file name. The file system is a
    map from path to lines; File.separator is "/". */
module I18nMojo {
  import opened Results
  import opened Strings
  import opened Locales
  import opened Annotations
  import opened BundleDefinition
  import V = Verifiers

  type Files = map<string, seq<string>>

  /** The plugin's parameters that the generator reads. */
  datatype Config = Config(
    verify: bool,
    append: bool,
    pedantic: bool,
    aggregate: bool,
    aggregateName: Option<string>,
    outputDirectory: string,
    defaultLocale: Locale)

  /** A MojoExecutionException, by cause. */
  datatype Abort =
    | UnsupportedBundleType(baseName: string, btype: BundleType)
    | MalformedDefine(className: string, entry: string)
    | UnescapedNewline(key: string)
    | QuotedPlaceholder(key: string)
    | DuplicateKey(key: string)
    | MissingAggregateName
    | CopyFailed(from: string)

  /** A bundleCounters entry: the definition first stored under the
      identity (a HashMap keeps its first key) and the count. */
  datatype Counter = Counter(def: Def, count: nat)

  /** The generator's state: the files, bundleCounters and
      generatedBundleMessageKeys keyed by bundle identity, and the order in
      which identities were first counted, which stands for the HashMap's
      iteration order. */
  datatype GenState = GenState(
    files: Files,
    counters: map<string, Counter>,
    order: seq<string>,
    keys: map<string, seq<string>>)

  /** The state at the start of a run over the files already on disk. */
  function Begin(disk: Files): GenState {
    GenState(disk, map[], [], map[])
  }

  /** The file of a bundle: its printed identity plus ".properties". */
  function FileOf(id: string): string {
    id + ".properties"
  }

  lemma FileOfInjective(a: string, b: string)
    ensures FileOf(a) == FileOf(b) ==> a == b
  {
    if FileOf(a) == FileOf(b) {
      AppendInjective(a, b, ".properties");
    }
  }

  /** Map.get: the value at a key, or null. */
  function Lookup<V>(m: map<string, V>, key: string): Option<V> {
    if key in m then Some(m[key]) else None
  }

  /** The messages counted so far for a bundle identity. */
  function Count(st: GenState, id: string): nat {
    if id in st.counters then st.counters[id].count else 0
  }

  // ---------------------------------------------------------------------
  // writeMessage
  // ---------------------------------------------------------------------

  /** A text worth writing: not null, and not empty after String.trim. */
  predicate Live(text: Option<string>) {
    text.Some? && !IsBlank(text.value)
  }

  /** checkSingleQuotes's verdict on a text. */
  predicate Quoted(text: string) {
    V.QuotedFrom(text, IndexOf(text, '\'', 0))
  }

  /** The key has already been recorded for this bundle identity. */
  predicate Duplicate(st: GenState, def: Def, key: string) {
    var id := Canonical(def);
    id in st.keys && key in st.keys[id]
  }

  /** checkForDuplicate's bookkeeping: the key joins the end of the
      bundle's list, and every other bundle's list is left as it was. */
  function RecordKey(st: GenState, def: Def, key: string): (r: GenState)
    ensures r.files == st.files && r.counters == st.counters && r.order == st.order
    ensures Duplicate(r, def, key)
    ensures r.keys.Keys == st.keys.Keys + {Canonical(def)}
    ensures r.keys[Canonical(def)] == Lookup(st.keys, Canonical(def)).GetOr([]) + [key]
    ensures forall o :: o in st.keys && o != Canonical(def) ==> r.keys[o] == st.keys[o]
  {
    var id := Canonical(def);
    var known := if id in st.keys then st.keys[id] else [];
    st.(keys := st.keys[id := known + [key]])
  }

  /** The lines a write keeps in front of its own: the file as it stands,
      except at the first write to a bundle in a run that does not append,
      which truncates it. */
  function Kept(cfg: Config, st: GenState, id: string): seq<string> {
    var path := FileOf(id);
    if (id in st.counters || cfg.append) && path in st.files then st.files[path] else []
  }

  /** r is st after one line for def: the line follows what the bundle's
      file keeps, the bundle is counted once more and every other counter
      is as it was. */
  predicate Appended(cfg: Config, st: GenState, def: Def, line: string, r: GenState) {
    var id := Canonical(def);
    && r.files == st.files[FileOf(id) := Kept(cfg, st, id) + [line]]
    && r.counters.Keys == st.counters.Keys + {id}
    && Count(r, id) == Count(st, id) + 1
    && (forall other :: other in st.counters && other != id ==> r.counters[other] == st.counters[other])
  }

  /** Count the message and print its line to the bundle's file. */
  function Emit(cfg: Config, st: GenState, def: Def, line: string): (r: GenState)
    ensures Appended(cfg, st, def, line, r)
    ensures r.keys == st.keys
  {
    var id := Canonical(def);
    var first := id !in st.counters;
    var owner := if first then def else st.counters[id].def;
    st.(files := st.files[FileOf(id) := Kept(cfg, st, id) + [line]],
        counters := st.counters[id := Counter(owner, Count(st, id) + 1)],
        order := if first then st.order + [id] else st.order)
  }

  /** The verification step's outcome in pedantic mode: the first failing
      check, in the order newline, quotes, duplicate; in lenient mode the
      checks only log, and with verification off they do not run. */
  function Verdict(cfg: Config, st: GenState, def: Def, key: string, t: string): Option<Abort> {
    if !(cfg.verify && cfg.pedantic) then None
    else if V.UnescapedNewline(t) then Some(UnescapedNewline(key))
    else if Quoted(t) then Some(QuotedPlaceholder(key))
    else if Duplicate(st, def, key) then Some(DuplicateKey(key))
    else None
  }

  /** The state once the checks pass: the key recorded when verifying. */
  function Checked(cfg: Config, st: GenState, def: Def, key: string): (r: GenState)
    ensures r.files == st.files && r.counters == st.counters && r.order == st.order
    ensures cfg.verify ==> Duplicate(r, def, key)
  {
    if cfg.verify then RecordKey(st, def, key) else st
  }

  /** The write of a text that survived the blank check: the checks, then
      the line. */
  function WriteLive(cfg: Config, st: GenState, def: Def, key: string, t: string): (r: Result<GenState, Abort>)
    ensures r.Err? ==> cfg.verify && cfg.pedantic
    ensures r.Err? ==> r.error in {UnescapedNewline(key), QuotedPlaceholder(key), DuplicateKey(key)}
    ensures r.Ok? ==> Appended(cfg, st, def, key + "=" + t, r.value)
    ensures r.Ok? && cfg.verify ==> Duplicate(r.value, def, key)
  {
    match Verdict(cfg, st, def, key, t)
    case Some(abort) => Err(abort)
    case None => Ok(Emit(cfg, Checked(cfg, st, def, key), def, key + "=" + t))
  }

  /** writeMessage: a null or blank text is skipped with nothing checked or
      written. Otherwise, when verifying, the newline, quote and duplicate
      checks run in that order and, in pedantic mode, the first that fails
      aborts before anything is written; then "key=text" is printed to the
      bundle's file and its counter goes up by one. */
  function WriteMessage(cfg: Config, st: GenState, def: Def, key: string, text: Option<string>): (r: Result<GenState, Abort>)
    ensures !Live(text) ==> r == Ok(st)
    ensures r.Err? ==> Live(text) && cfg.verify && cfg.pedantic
    ensures r.Err? ==> r.error in {UnescapedNewline(key), QuotedPlaceholder(key), DuplicateKey(key)}
    ensures r.Ok? && Live(text) ==> Appended(cfg, st, def, key + "=" + text.value, r.value)
    ensures r.Ok? && Live(text) && cfg.verify ==> Duplicate(r.value, def, key)
  {
    if text.None? || |Trim(text.value)| == 0 then
      TrimEmptyIffBlank(if text.Some? then text.value else "");
      Ok(st)
    else
      TrimEmptyIffBlank(text.value);
      WriteLive(cfg, st, def, key, text.value)
  }

  /** The three checks abort a pedantic run in order: an unescaped
      newline first, then a quoted placeholder, then a duplicate key. */
  lemma WriteMessageChecks(cfg: Config, st: GenState, def: Def, key: string, text: Option<string>)
    ensures var r := WriteMessage(cfg, st, def, key, text);
      && (r == Err(UnescapedNewline(key)) <==>
            Live(text) && cfg.verify && cfg.pedantic && V.UnescapedNewline(text.value))
      && (r == Err(QuotedPlaceholder(key)) <==>
            Live(text) && cfg.verify && cfg.pedantic && !V.UnescapedNewline(text.value) && Quoted(text.value))
      && (r == Err(DuplicateKey(key)) <==>
            && Live(text) && cfg.verify && cfg.pedantic && !V.UnescapedNewline(text.value) && !Quoted(text.value)
            && Duplicate(st, def, key))
  {
  }

  /** r is st after one line for def and then, when aggregating, the same
      line for the aggregate bundle. */
  ghost predicate Mirrored(cfg: Config, agg: Option<Def>, st: GenState, def: Def, line: string, r: GenState) {
    exists mid :: && Appended(cfg, st, def, line, mid)
                  && if agg.Some? then Appended(cfg, mid, agg.value, line, r) else r == mid
  }

  /** A write to the contract's bundle, repeated to the aggregate bundle
      when aggregating. */
  function Mirror(cfg: Config, agg: Option<Def>, st: GenState, def: Def, key: string, text: string): (r: Result<GenState, Abort>)
    ensures IsBlank(text) ==> r == Ok(st)
    ensures !(cfg.verify && cfg.pedantic) ==> r.Ok?
    ensures r.Err? ==> r.error in {UnescapedNewline(key), QuotedPlaceholder(key), DuplicateKey(key)}
    ensures r.Ok? && !IsBlank(text) ==> Mirrored(cfg, agg, st, def, key + "=" + text, r.value)
  {
    match WriteMessage(cfg, st, def, key, Some(text))
    case Err(e) => Err(e)
    case Ok(st1) => if agg.Some? then WriteMessage(cfg, st1, agg.value, key, Some(text)) else Ok(st1)
  }

  // ---------------------------------------------------------------------
  // processClass
  // ---------------------------------------------------------------------

  /** A define entry split at its first '=' into key and text; null when
      there is none (substring(0, -1) then throws, which aborts the run). */
  function SplitDefine(entry: string): (r: Option<(string, string)>)
    ensures r.None? <==> '=' !in entry
    ensures r.Some? ==> entry == r.value.0 + "=" + r.value.1 && '=' !in r.value.0
  {
    var delim := IndexOf(entry, '=', 0);
    SplitAt(entry, delim);
    if delim == -1 then None
    else Some((entry[..delim], entry[delim + 1..]))
  }

  lemma SplitAt(entry: string, delim: int)
    requires delim == IndexOf(entry, '=', 0)
    ensures delim == -1 <==> '=' !in entry
    ensures delim != -1 ==> 0 <= delim < |entry| && entry == entry[..delim] + "=" + entry[delim + 1..] && '=' !in entry[..delim]
  {
    if delim == -1 {
      forall j | 0 <= j < |entry| ensures entry[j] != '=' { }
    } else {
      SplitAtFound(entry, delim);
    }
  }

  lemma SplitAtFound(entry: string, delim: int)
    requires 0 <= delim < |entry| && entry[delim] == '='
    requires forall j :: 0 <= j < delim ==> entry[j] != '='
    ensures entry == entry[..delim] + "=" + entry[delim + 1..] && '=' !in entry[..delim]
  {
    var key, text := entry[..delim], entry[delim + 1..];
    forall j | 0 <= j < |key| ensures key[j] != '=' {
      assert key[j] == entry[j];
    }
    assert entry == key + "=" + text by {
      assert entry == entry[..delim] + entry[delim..];
      assert entry[delim..] == "=" + text;
    }
  }

  /** One static entry: split, then mirrored like a message. */
  function DefineStep(cfg: Config, agg: Option<Def>, st: GenState, def: Def,
                      className: string, entry: string): (r: Result<GenState, Abort>)
    ensures '=' !in entry ==> r == Err(MalformedDefine(className, entry))
    ensures '=' in entry && !(cfg.verify && cfg.pedantic) ==> r.Ok?
    ensures r.Err? && r.error.MalformedDefine? ==> '=' !in entry && r.error.entry == entry
  {
    match SplitDefine(entry)
    case None => Err(MalformedDefine(className, entry))
    case Some(kv) => Mirror(cfg, agg, st, def, kv.0, kv.1)
  }

  /** The static entries of @ResourceBundle.define, in order; the first
      abort ends the loop. */
  function WriteDefinitions(cfg: Config, agg: Option<Def>, st: GenState, def: Def,
                            className: string, entries: seq<string>): (r: Result<GenState, Abort>)
    ensures (exists i :: 0 <= i < |entries| && '=' !in entries[i]) ==> r.Err?
    ensures (forall i :: 0 <= i < |entries| ==> '=' in entries[i]) && !(cfg.verify && cfg.pedantic) ==> r.Ok?
    ensures r.Err? && r.error.MalformedDefine? ==> r.error.entry in entries && '=' !in r.error.entry
    decreases |entries|
  {
    if |entries| == 0 then Ok(st)
    else
      match DefineStep(cfg, agg, st, def, className, entries[0])
      case Err(e) => Err(e)
      case Ok(st1) =>
        EntriesTail(entries);
        WriteDefinitions(cfg, agg, st1, def, className, entries[1..])
  }

  /** Past a first entry that has an '=', an entry without one is still
      ahead, and every entry ahead has one when every entry does. */
  lemma EntriesTail(entries: seq<string>)
    requires |entries| > 0 && '=' in entries[0]
    ensures (exists i :: 0 <= i < |entries| && '=' !in entries[i]) ==>
      exists i :: 0 <= i < |entries[1..]| && '=' !in entries[1..][i]
    ensures (forall i :: 0 <= i < |entries| ==> '=' in entries[i]) ==>
      forall i :: 0 <= i < |entries[1..]| ==> '=' in entries[1..][i]
    ensures forall e :: e in entries[1..] ==> e in entries
  {
    if exists i :: 0 <= i < |entries| && '=' !in entries[i] {
      var i :| 0 <= i < |entries| && '=' !in entries[i];
      assert entries[1..][i - 1] == entries[i];
    }
  }

  /** A method the plugin writes a message for: annotated with @Message and
      returning String. */
  predicate Generates(op: Operation) {
    op.message.Some? && op.returnsString
  }

  /** The method loop: each generating method writes its text under its
      key; the flag says whether any method generated. */
  function WriteOperations(cfg: Config, agg: Option<Def>, st: GenState, def: Def, ops: seq<Operation>): (r: Result<(GenState, bool), Abort>)
    ensures r.Ok? ==> (r.value.1 <==> exists i :: 0 <= i < |ops| && Generates(ops[i]))
    ensures !(cfg.verify && cfg.pedantic) ==> r.Ok?
    ensures (forall i :: 0 <= i < |ops| ==> !Generates(ops[i])) ==> r == Ok((st, false))
    decreases |ops|
  {
    if |ops| == 0 then Ok((st, false))
    else
      var op := ops[0];
      assert forall i :: 1 <= i < |ops| ==> ops[i] == ops[1..][i - 1];
      if !Generates(op) then WriteOperations(cfg, agg, st, def, ops[1..])
      else
        var m := op.message.value;
        match Mirror(cfg, agg, st, def, MessageKey(op.name, m), m.value)
        case Err(e) => Err(e)
        case Ok(st1) =>
          match WriteOperations(cfg, agg, st1, def, ops[1..])
          case Err(e) => Err(e)
          case Ok(res) => Ok((res.0, true))
  }

  /** A class's binary name as the path of its class file. */
  function ClassFile(className: string): (r: string)
    ensures |r| == |className|
    ensures forall i :: 0 <= i < |r| ==> r[i] == if className[i] == '.' then '/' else className[i]
  {
    if |className| == 0 then ""
    else (if className[0] == '.' then "/" else [className[0]]) + ClassFile(className[1..])
  }

  /** The bundle a contract writes to: the class file's path in the output
      directory, in the default locale, with the annotation's locale and
      name applied when given. */
  function ContractDef(cfg: Config, c: Contract): (d: Def)
    ensures c.bundle.None? || c.bundle.value.name == "" ==>
      d.baseName == cfg.outputDirectory + "/" + ClassFile(c.className)
    ensures c.bundle.Some? && c.bundle.value.name != "" ==> d.baseName == c.bundle.value.name
    ensures c.bundle.None? || c.bundle.value.locale == "" ==> d.locale == Some(cfg.defaultLocale)
    ensures c.bundle.Some? && c.bundle.value.locale != "" ==> d.locale == Some(ParseLocale(c.bundle.value.locale))
  {
    var d0 := New(cfg.outputDirectory + "/" + ClassFile(c.className), cfg.defaultLocale);
    match c.bundle
    case Some(a) => SetBaseName(SetLocale(d0, Some(a.locale)), Some(a.name))
    case None => d0
  }

  /** A class the scan gets past in a lenient run: not a message contract,
      no bundle annotation, a NONE bundle, or a PROPERTY bundle whose every
      static entry has an '='. */
  predicate Accepted(c: Contract) {
    || !c.isInterface || !c.isMessageContract || c.bundle.None?
    || c.bundle.value.btype == NONE
    || (&& c.bundle.value.btype == PROPERTY
        && forall i :: 0 <= i < |c.bundle.value.define| ==> '=' in c.bundle.value.define[i])
  }

  /** processClass: only message-contract interfaces are processed. A NONE
      bundle is skipped; any type other than PROPERTY aborts before anything
      is written; then the static entries and the methods are written. The
      flag is true when the class carried a bundle annotation or had a
      generating method. */
  function ProcessClass(cfg: Config, agg: Option<Def>, st: GenState, c: Contract): (r: Result<(GenState, bool), Abort>)
    ensures !c.isInterface || !c.isMessageContract ==> r == Ok((st, false))
    ensures c.bundle.Some? && c.bundle.value.btype == NONE ==> r == Ok((st, false))
    ensures c.isInterface && c.isMessageContract && c.bundle.Some? && c.bundle.value.btype in {XML, XLIFF} ==>
      r == Err(UnsupportedBundleType(ContractDef(cfg, c).baseName, c.bundle.value.btype))
    ensures (&& c.isInterface && c.isMessageContract && c.bundle.Some? && c.bundle.value.btype == PROPERTY
             && exists i :: 0 <= i < |c.bundle.value.define| && '=' !in c.bundle.value.define[i]) ==> r.Err?
    ensures r.Ok? && r.value.1 ==> c.isInterface && c.isMessageContract
    ensures r.Ok? && c.isInterface && c.isMessageContract && (c.bundle.None? || c.bundle.value.btype != NONE) ==>
      (r.value.1 <==> (c.bundle.Some? && c.bundle.value.btype == PROPERTY)
                      || exists i :: 0 <= i < |c.operations| && Generates(c.operations[i]))
    ensures !Accepted(c) ==> r.Err?
    ensures Accepted(c) && !(cfg.verify && cfg.pedantic) ==> r.Ok?
  {
    if !c.isInterface || !c.isMessageContract then Ok((st, false))
    else
      var def := ContractDef(cfg, c);
      match c.bundle
      case None => WriteOperations(cfg, agg, st, def, c.operations)
      case Some(a) =>
        if a.btype == NONE then Ok((st, false))
        else
          match SetType(def, a.btype)
          case Err(t) => Err(UnsupportedBundleType(def.baseName, t))
          case Ok(typed) =>
            match WriteDefinitions(cfg, agg, st, typed, c.className, a.define)
            case Err(e) => Err(e)
            case Ok(st1) =>
              match WriteOperations(cfg, agg, st1, typed, c.operations)
              case Err(e) => Err(e)
              case Ok(res) => Ok((res.0, true))
  }

  /** The scan: every contract in turn; the first abort ends the run. */
  function ScanAll(cfg: Config, agg: Option<Def>, st: GenState, cs: seq<Contract>): (r: Result<GenState, Abort>)
    ensures r.Ok? ==> forall i :: 0 <= i < |cs| ==> Accepted(cs[i])
    ensures (forall i :: 0 <= i < |cs| ==> Accepted(cs[i])) && !(cfg.verify && cfg.pedantic) ==> r.Ok?
    decreases |cs|
  {
    if |cs| == 0 then Ok(st)
    else
      assert forall i :: 1 <= i < |cs| ==> cs[i] == cs[1..][i - 1];
      match ProcessClass(cfg, agg, st, cs[0])
      case Err(e) => Err(e)
      case Ok(res) => ScanAll(cfg, agg, res.0, cs[1..])
  }

  // ---------------------------------------------------------------------
  // Default-locale promotion and the run
  // ---------------------------------------------------------------------

  /** A counted bundle in the default locale, which gets a locale-less copy. */
  predicate Promoted(cfg: Config, counters: map<string, Counter>, id: string) {
    id in counters && counters[id].def.locale == Some(cfg.defaultLocale)
  }

  /** The locale-less definition a promoted bundle is copied to; its
      identity is the bare base name. */
  function DefaultOf(d: Def): (r: Def)
    ensures Canonical(r) == d.baseName
  {
    Def(d.baseName, None, PROPERTY)
  }

  /** The promotion loop over the counters in iteration order: each bundle
      in the default locale has its file copied to the base name's file,
      and its count is noted for the new identity. */
  function PromoteFrom(cfg: Config, counters: map<string, Counter>, files: Files,
                       ids: seq<string>, added: map<string, Counter>): (r: Result<(Files, map<string, Counter>), Abort>)
    ensures (forall k :: 0 <= k < |ids| ==> !Promoted(cfg, counters, ids[k])) ==> r == Ok((files, added))
    ensures r.Err? ==> exists k :: 0 <= k < |ids| && Promoted(cfg, counters, ids[k]) && r.error == CopyFailed(FileOf(ids[k]))
    ensures r.Ok? ==> files.Keys <= r.value.0.Keys && added.Keys <= r.value.1.Keys
    decreases |ids|
  {
    if |ids| == 0 then Ok((files, added))
    else
      var id := ids[0];
      if Promoted(cfg, counters, id) then
        var c := counters[id];
        var to := Canonical(DefaultOf(c.def));
        if FileOf(id) !in files then Err(CopyFailed(FileOf(id)))
        else
          var owner := if to in added then added[to].def else DefaultOf(c.def);
          assert forall k :: 1 <= k < |ids| ==> ids[k] == ids[1..][k - 1];
          PromoteFrom(cfg, counters, files[FileOf(to) := files[FileOf(id)]], ids[1..], added[to := Counter(owner, c.count)])
      else
        assert forall k :: 1 <= k < |ids| ==> ids[k] == ids[1..][k - 1];
        PromoteFrom(cfg, counters, files, ids[1..], added)
  }

  /** bundleCounters.putAll(defaultBundles): new counts replace old ones;
      an identity already present keeps its first definition. */
  function PutAll(counters: map<string, Counter>, added: map<string, Counter>): (r: map<string, Counter>)
    ensures r.Keys == counters.Keys + added.Keys
    ensures forall id :: id in added ==> r[id].count == added[id].count
    ensures forall id :: id in counters && id !in added ==> r[id] == counters[id]
  {
    map id | id in counters.Keys + added.Keys ::
      if id in added then Counter(if id in counters then counters[id].def else added[id].def, added[id].count)
      else counters[id]
  }

  /** The aggregate bundle: the dotted aggregate name as a path in the output
      directory. Aggregating without a name aborts the run. */
  function AggregateDef(cfg: Config): (r: Result<Option<Def>, Abort>)
    ensures !cfg.aggregate ==> r == Ok(None)
    ensures cfg.aggregate && (cfg.aggregateName.None? || cfg.aggregateName.value == "") ==> r == Err(MissingAggregateName)
    ensures r.Ok? && cfg.aggregate ==> r.value.Some?
  {
    if !cfg.aggregate then Ok(None)
    else
      match cfg.aggregateName
      case None => Err(MissingAggregateName)
      case Some(n) =>
        if n == "" then Err(MissingAggregateName)
        else Ok(Some(New(cfg.outputDirectory + "/" + ClassFile(n), cfg.defaultLocale)))
  }

  /** execute: the aggregate check, the scan over every contract, then the
      promotion of default-locale bundles. */
  function Execute(cfg: Config, disk: Files, contracts: seq<Contract>): (r: Result<GenState, Abort>)
    ensures cfg.aggregate && (cfg.aggregateName.None? || cfg.aggregateName.value == "") ==> r == Err(MissingAggregateName)
  {
    match AggregateDef(cfg)
    case Err(e) => Err(e)
    case Ok(agg) =>
      match ScanAll(cfg, agg, Begin(disk), contracts)
      case Err(e) => Err(e)
      case Ok(st) =>
        match PromoteFrom(cfg, st.counters, st.files, st.order, map[])
        case Err(e) => Err(e)
        case Ok(res) => Ok(st.(files := res.0, counters := PutAll(st.counters, res.1)))
  }

  // ---------------------------------------------------------------------
  // Properties
  // ---------------------------------------------------------------------

  /** The lines a bundle's file starts the run with: what is on disk when
      appending, nothing otherwise. */
  function Prior(cfg: Config, disk: Files, path: string): seq<string> {
    if cfg.append && path in disk then disk[path] else []
  }

  /** Counters are keyed by their definitions' identities. */
  ghost predicate Keyed(st: GenState) {
    forall id :: id in st.counters ==> Canonical(st.counters[id].def) == id
  }

  /** Every counted bundle's file starts with its prior records and holds
      exactly one more record per counted message (a record is one println
      of "key=text", which spans several physical lines when the text holds
      an escaped line break). */
  ghost predicate Tracked(cfg: Config, disk: Files, st: GenState) {
    forall id :: id in st.counters ==>
      && FileOf(id) in st.files
      && Prior(cfg, disk, FileOf(id)) <= st.files[FileOf(id)]
      && |st.files[FileOf(id)]| == |Prior(cfg, disk, FileOf(id))| + st.counters[id].count
  }

  /** The file of a bundle not yet counted is as it was on disk. */
  ghost predicate Untouched(disk: Files, st: GenState) {
    forall id :: id !in st.counters ==> Lookup(st.files, FileOf(id)) == Lookup(disk, FileOf(id))
  }

  /** The order lists each counted identity exactly once. */
  ghost predicate Listed(st: GenState) {
    && (forall i :: 0 <= i < |st.order| ==> st.order[i] in st.counters)
    && (forall id :: id in st.counters ==> id in st.order)
    && (forall i, j :: 0 <= i < j < |st.order| ==> st.order[i] != st.order[j])
  }

  /** What a run keeps true of its state. */
  ghost predicate Wf(cfg: Config, disk: Files, st: GenState) {
    Keyed(st) && Tracked(cfg, disk, st) && Untouched(disk, st) && Listed(st)
  }

  /** Wf reads only the files, the counters and the order. */
  lemma WfFrame(cfg: Config, disk: Files, a: GenState, b: GenState)
    requires Wf(cfg, disk, a)
    requires a.files == b.files && a.counters == b.counters && a.order == b.order
    ensures Wf(cfg, disk, b)
  {
  }

  lemma BeginWf(cfg: Config, disk: Files)
    ensures Wf(cfg, disk, Begin(disk))
  {
  }

  lemma EmitKeyed(cfg: Config, st: GenState, def: Def, line: string)
    requires Keyed(st)
    ensures Keyed(Emit(cfg, st, def, line))
  {
  }

  lemma {:induction false} EmitTracked(cfg: Config, disk: Files, st: GenState, def: Def, line: string)
    requires Tracked(cfg, disk, st) && Untouched(disk, st)
    ensures Tracked(cfg, disk, Emit(cfg, st, def, line))
  {
    var r := Emit(cfg, st, def, line);
    var id := Canonical(def);
    var path := FileOf(id);
    assert Kept(cfg, st, id) == (if id in st.counters then st.files[path] else Prior(cfg, disk, path)) by {
      if id !in st.counters {
        assert Lookup(st.files, path) == Lookup(disk, path);
      }
    }
    forall other | other in r.counters
      ensures && FileOf(other) in r.files
              && Prior(cfg, disk, FileOf(other)) <= r.files[FileOf(other)]
              && |r.files[FileOf(other)]| == |Prior(cfg, disk, FileOf(other))| + r.counters[other].count
    {
      FileOfInjective(other, id);
      if other != id {
        assert r.files[FileOf(other)] == st.files[FileOf(other)];
      }
    }
  }

  lemma {:induction false} EmitUntouched(cfg: Config, disk: Files, st: GenState, def: Def, line: string)
    requires Untouched(disk, st)
    ensures Untouched(disk, Emit(cfg, st, def, line))
  {
    var r := Emit(cfg, st, def, line);
    var id := Canonical(def);
    forall other | other !in r.counters
      ensures Lookup(r.files, FileOf(other)) == Lookup(disk, FileOf(other))
    {
      FileOfInjective(other, id);
      assert Lookup(r.files, FileOf(other)) == Lookup(st.files, FileOf(other));
    }
  }

  lemma {:induction false} EmitListed(cfg: Config, st: GenState, def: Def, line: string)
    requires Listed(st)
    ensures Listed(Emit(cfg, st, def, line))
  {
    var r := Emit(cfg, st, def, line);
    var id := Canonical(def);
    if id !in st.counters {
      assert r.order == st.order + [id];
      forall i, j | 0 <= i < j < |r.order| ensures r.order[i] != r.order[j] {
        if j == |st.order| {
          assert r.order[i] == st.order[i];
        }
      }
    }
  }

  lemma EmitWf(cfg: Config, disk: Files, st: GenState, def: Def, line: string)
    requires Wf(cfg, disk, st)
    ensures Wf(cfg, disk, Emit(cfg, st, def, line))
  {
    EmitKeyed(cfg, st, def, line);
    EmitTracked(cfg, disk, st, def, line);
    EmitUntouched(cfg, disk, st, def, line);
    EmitListed(cfg, st, def, line);
  }

  lemma WriteLiveWf(cfg: Config, disk: Files, st: GenState, def: Def, key: string, t: string)
    requires Wf(cfg, disk, st)
    ensures WriteLive(cfg, st, def, key, t).Ok? ==> Wf(cfg, disk, WriteLive(cfg, st, def, key, t).value)
  {
    if Verdict(cfg, st, def, key, t).None? {
      var checked := Checked(cfg, st, def, key);
      WfFrame(cfg, disk, st, checked);
      EmitWf(cfg, disk, checked, def, key + "=" + t);
    }
  }

  lemma WriteMessageWf(cfg: Config, disk: Files, st: GenState, def: Def, key: string, text: Option<string>)
    requires Wf(cfg, disk, st)
    ensures WriteMessage(cfg, st, def, key, text).Ok? ==> Wf(cfg, disk, WriteMessage(cfg, st, def, key, text).value)
  {
    if Live(text) {
      TrimEmptyIffBlank(text.value);
      assert WriteMessage(cfg, st, def, key, text) == WriteLive(cfg, st, def, key, text.value);
      WriteLiveWf(cfg, disk, st, def, key, text.value);
    }
  }

  lemma MirrorWf(cfg: Config, disk: Files, agg: Option<Def>, st: GenState, def: Def, key: string, text: string)
    requires Wf(cfg, disk, st)
    ensures Mirror(cfg, agg, st, def, key, text).Ok? ==> Wf(cfg, disk, Mirror(cfg, agg, st, def, key, text).value)
  {
    WriteMessageWf(cfg, disk, st, def, key, Some(text));
    var first := WriteMessage(cfg, st, def, key, Some(text));
    if first.Ok? && agg.Some? {
      WriteMessageWf(cfg, disk, first.value, agg.value, key, Some(text));
    }
  }

  lemma DefineStepWf(cfg: Config, disk: Files, agg: Option<Def>, st: GenState, def: Def,
                     className: string, entry: string)
    requires Wf(cfg, disk, st)
    ensures var r := DefineStep(cfg, agg, st, def, className, entry);
      r.Ok? ==> Wf(cfg, disk, r.value)
  {
    var kv := SplitDefine(entry);
    if kv.Some? {
      MirrorWf(cfg, disk, agg, st, def, kv.value.0, kv.value.1);
    }
  }

  lemma {:induction false} WriteDefinitionsWf(cfg: Config, disk: Files, agg: Option<Def>, st: GenState, def: Def,
                                              className: string, entries: seq<string>)
    requires Wf(cfg, disk, st)
    ensures var r := WriteDefinitions(cfg, agg, st, def, className, entries);
      r.Ok? ==> Wf(cfg, disk, r.value)
    decreases |entries|
  {
    if |entries| > 0 {
      DefineStepWf(cfg, disk, agg, st, def, className, entries[0]);
      var m := DefineStep(cfg, agg, st, def, className, entries[0]);
      if m.Ok? {
        WriteDefinitionsWf(cfg, disk, agg, m.value, def, className, entries[1..]);
      }
    }
  }

  lemma {:induction false} WriteOperationsWf(cfg: Config, disk: Files, agg: Option<Def>, st: GenState, def: Def,
                                             ops: seq<Operation>)
    requires Wf(cfg, disk, st)
    ensures var r := WriteOperations(cfg, agg, st, def, ops);
      r.Ok? ==> Wf(cfg, disk, r.value.0)
    decreases |ops|
  {
    if |ops| > 0 {
      var op := ops[0];
      if !Generates(op) {
        WriteOperationsWf(cfg, disk, agg, st, def, ops[1..]);
      } else {
        var m := op.message.value;
        MirrorWf(cfg, disk, agg, st, def, MessageKey(op.name, m), m.value);
        var w := Mirror(cfg, agg, st, def, MessageKey(op.name, m), m.value);
        if w.Ok? {
          WriteOperationsWf(cfg, disk, agg, w.value, def, ops[1..]);
        }
      }
    }
  }

  lemma ProcessClassWf(cfg: Config, disk: Files, agg: Option<Def>, st: GenState, c: Contract)
    requires Wf(cfg, disk, st)
    ensures var r := ProcessClass(cfg, agg, st, c);
      r.Ok? ==> Wf(cfg, disk, r.value.0)
  {
    if c.isInterface && c.isMessageContract {
      var def := ContractDef(cfg, c);
      match c.bundle
      case None =>
        WriteOperationsWf(cfg, disk, agg, st, def, c.operations);
      case Some(a) =>
        if a.btype == PROPERTY {
          var typed := SetType(def, a.btype).value;
          WriteDefinitionsWf(cfg, disk, agg, st, typed, c.className, a.define);
          var w := WriteDefinitions(cfg, agg, st, typed, c.className, a.define);
          if w.Ok? {
            WriteOperationsWf(cfg, disk, agg, w.value, typed, c.operations);
          }
        }
    }
  }

  /** After the scan, each bundle's counter is the number of records the run
      wrote to its file, after the records it started with. */
  lemma {:induction false} ScanAllWf(cfg: Config, disk: Files, agg: Option<Def>, st: GenState, cs: seq<Contract>)
    requires Wf(cfg, disk, st)
    ensures ScanAll(cfg, agg, st, cs).Ok? ==> Wf(cfg, disk, ScanAll(cfg, agg, st, cs).value)
    decreases |cs|
  {
    if |cs| > 0 {
      ProcessClassWf(cfg, disk, agg, st, cs[0]);
      var p := ProcessClass(cfg, agg, st, cs[0]);
      if p.Ok? {
        ScanAllWf(cfg, disk, agg, p.value.0, cs[1..]);
      }
    }
  }

  /** A lenient run that meets a duplicate key reports it and still writes
      both lines; the key is on the bundle's list after the first write. */
  lemma LenientDuplicateWritesBoth(cfg: Config, st: GenState, def: Def, key: string, a: string, b: string)
    requires cfg.verify && !cfg.pedantic && !IsBlank(a) && !IsBlank(b)
    ensures var first := WriteMessage(cfg, st, def, key, Some(a));
      && first.Ok?
      && Duplicate(first.value, def, key)
      && var second := WriteMessage(cfg, first.value, def, key, Some(b));
      && second.Ok?
      && second.value.files[FileOf(Canonical(def))] == Kept(cfg, st, Canonical(def)) + [key + "=" + a, key + "=" + b]
      && Count(second.value, Canonical(def)) == Count(st, Canonical(def)) + 2
  {
    var id := Canonical(def);
    var la, lb := key + "=" + a, key + "=" + b;
    LenientWrite(cfg, st, def, key, a);
    var s1 := WriteMessage(cfg, st, def, key, Some(a)).value;
    LenientWrite(cfg, s1, def, key, b);
    var s2 := WriteMessage(cfg, s1, def, key, Some(b)).value;
    AppendedFile(cfg, st, def, la, s1);
    AppendedFile(cfg, s1, def, lb, s2);
    TwoLines(Kept(cfg, st, id), la, lb);
  }

  lemma TwoLines(kept: seq<string>, a: string, b: string)
    ensures (kept + [a]) + [b] == kept + [a, b]
  {
  }

  /** After a line for def, def's file is what it kept plus the line, and
      that is what it keeps for the next write. */
  lemma AppendedFile(cfg: Config, st: GenState, def: Def, line: string, r: GenState)
    requires Appended(cfg, st, def, line, r)
    ensures Kept(cfg, r, Canonical(def)) == r.files[FileOf(Canonical(def))] == Kept(cfg, st, Canonical(def)) + [line]
  {
  }

  /** One lenient write of a non-blank text succeeds and appends its line. */
  lemma LenientWrite(cfg: Config, st: GenState, def: Def, key: string, t: string)
    requires cfg.verify && !cfg.pedantic && !IsBlank(t)
    ensures var r := WriteMessage(cfg, st, def, key, Some(t));
      var id := Canonical(def);
      && r.Ok?
      && Canonical(def) in r.value.counters
      && r.value.files[FileOf(id)] == Kept(cfg, st, id) + [key + "=" + t]
      && Count(r.value, id) == Count(st, id) + 1
      && Duplicate(r.value, def, key)
  {
  }

  /** A pedantic run aborts on the second write of a key to a bundle, when
      the text passes the other two checks. */
  lemma PedanticDuplicateAborts(cfg: Config, st: GenState, def: Def, key: string, a: string, b: string)
    requires cfg.verify && cfg.pedantic && !IsBlank(a) && !IsBlank(b)
    requires !V.UnescapedNewline(a) && !Quoted(a) && !Duplicate(st, def, key)
    requires !V.UnescapedNewline(b) && !Quoted(b)
    ensures WriteMessage(cfg, st, def, key, Some(a)).Ok?
    ensures WriteMessage(cfg, WriteMessage(cfg, st, def, key, Some(a)).value, def, key, Some(b)) == Err(DuplicateKey(key))
  {
    WriteMessageChecks(cfg, st, def, key, Some(a));
    WriteMessageChecks(cfg, WriteMessage(cfg, st, def, key, Some(a)).value, def, key, Some(b));
  }

  /** A contract carrying @ResourceBundle with its define left at the
      default {""} aborts the run: "" has no '='. */
  lemma DefaultDefineAborts(cfg: Config, agg: Option<Def>, st: GenState, c: Contract)
    requires c.isInterface && c.isMessageContract
    requires c.bundle == Some(DefaultBundleAnnotation)
    ensures ProcessClass(cfg, agg, st, c) == Err(MalformedDefine(c.className, ""))
  {
  }

  /** A contract that names its bundle writes to that name as given,
      wherever the output directory is: the name is used as a path from
      the working directory, dots and all. */
  lemma NamedBundleIgnoresOutputDirectory(cfg: Config, dir: string, c: Contract)
    requires c.bundle.Some? && c.bundle.value.name != ""
    ensures Canonical(ContractDef(cfg, c)) == Canonical(ContractDef(cfg.(outputDirectory := dir), c))
  {
  }

  /** What promotion needs of the identities it walks: each is counted,
      keyed by its definition and has a file; none repeats; and no promoted
      bundle's base name is itself one of the identities, so no copy lands
      on a file still to be read. */
  ghost predicate PromotionReady(cfg: Config, counters: map<string, Counter>, files: Files, ids: seq<string>) {
    && (forall k :: 0 <= k < |ids| ==>
          ids[k] in counters && Canonical(counters[ids[k]].def) == ids[k] && FileOf(ids[k]) in files)
    && (forall k, m :: 0 <= k < m < |ids| ==> ids[k] != ids[m])
    && (forall k, m :: 0 <= k < |ids| && 0 <= m < |ids| && Promoted(cfg, counters, ids[k]) ==>
          counters[ids[k]].def.baseName != ids[m])
  }

  /** Two promoted identities with one base name are one identity: both
      print the default locale after it. */
  lemma PromotedBaseInjective(cfg: Config, counters: map<string, Counter>, a: string, b: string)
    requires Promoted(cfg, counters, a) && Promoted(cfg, counters, b)
    requires Canonical(counters[a].def) == a && Canonical(counters[b].def) == b
    requires counters[a].def.baseName == counters[b].def.baseName
    ensures a == b
  {
  }

  /** A file whose name no walked bundle promotes to is left alone, and so
      is the count noted for that name. */
  lemma {:induction false} PromoteFrame(cfg: Config, counters: map<string, Counter>, files: Files,
                                        ids: seq<string>, added: map<string, Counter>, p: string)
    requires forall k :: 0 <= k < |ids| && Promoted(cfg, counters, ids[k]) ==> counters[ids[k]].def.baseName != p
    requires PromoteFrom(cfg, counters, files, ids, added).Ok?
    ensures var r := PromoteFrom(cfg, counters, files, ids, added).value;
      && Lookup(r.0, FileOf(p)) == Lookup(files, FileOf(p))
      && Lookup(r.1, p) == Lookup(added, p)
    decreases |ids|
  {
    if |ids| > 0 {
      var id := ids[0];
      assert forall k :: 1 <= k < |ids| ==> ids[1..][k - 1] == ids[k];
      if Promoted(cfg, counters, id) {
        var c := counters[id];
        var to := Canonical(DefaultOf(c.def));
        FileOfInjective(to, p);
        var owner := if to in added then added[to].def else DefaultOf(c.def);
        PromoteFrame(cfg, counters, files[FileOf(to) := files[FileOf(id)]], ids[1..], added[to := Counter(owner, c.count)], p);
      } else {
        PromoteFrame(cfg, counters, files, ids[1..], added, p);
      }
    }
  }

  /** What promotion needs of the identities still ahead holds after the
      first is skipped. */
  lemma ReadyTail(cfg: Config, counters: map<string, Counter>, files: Files, ids: seq<string>)
    requires |ids| > 0 && PromotionReady(cfg, counters, files, ids)
    ensures PromotionReady(cfg, counters, files, ids[1..])
  {
    assert forall k :: 0 <= k < |ids[1..]| ==> ids[1..][k] == ids[k + 1];
  }

  /** ... and after the first is copied to its base name's file, which no
      identity still ahead shares or promotes to. */
  lemma ReadyAfterCopy(cfg: Config, counters: map<string, Counter>, files: Files, ids: seq<string>)
    requires |ids| > 0 && PromotionReady(cfg, counters, files, ids) && Promoted(cfg, counters, ids[0])
    ensures var base := counters[ids[0]].def.baseName;
      && PromotionReady(cfg, counters, files[FileOf(base) := files[FileOf(ids[0])]], ids[1..])
      && (forall k :: 0 <= k < |ids| - 1 && Promoted(cfg, counters, ids[1..][k]) ==> counters[ids[1..][k]].def.baseName != base)
      && forall k :: 0 <= k < |ids| - 1 ==> FileOf(ids[1..][k]) != FileOf(base)
  {
    var id, rest := ids[0], ids[1..];
    var base := counters[id].def.baseName;
    assert forall k :: 0 <= k < |rest| ==> rest[k] == ids[k + 1];
    forall m | 0 <= m < |rest| ensures FileOf(rest[m]) != FileOf(base) {
      FileOfInjective(base, rest[m]);
    }
    forall k | 0 <= k < |rest| && Promoted(cfg, counters, rest[k])
      ensures counters[rest[k]].def.baseName != base
    {
      if counters[rest[k]].def.baseName == base {
        PromotedBaseInjective(cfg, counters, id, rest[k]);
      }
    }
  }

  /** Promotion succeeds, and each bundle in the default locale ends with
      its base name's file an exact copy of its own and its count noted
      under the base name. */
  lemma {:induction false} PromoteCopies(cfg: Config, counters: map<string, Counter>, files: Files,
                                         ids: seq<string>, added: map<string, Counter>)
    requires PromotionReady(cfg, counters, files, ids)
    ensures var r := PromoteFrom(cfg, counters, files, ids, added);
      && r.Ok?
      && forall k :: 0 <= k < |ids| && Promoted(cfg, counters, ids[k]) ==>
           var base := counters[ids[k]].def.baseName;
           && Lookup(r.value.0, FileOf(base)) == Some(files[FileOf(ids[k])])
           && base in r.value.1 && r.value.1[base].count == counters[ids[k]].count
    decreases |ids|
  {
    if |ids| > 0 {
      var id, rest := ids[0], ids[1..];
      if Promoted(cfg, counters, id) {
        var c := counters[id];
        var base := c.def.baseName;
        assert Canonical(DefaultOf(c.def)) == base;
        var files' := files[FileOf(base) := files[FileOf(id)]];
        var owner := if base in added then added[base].def else DefaultOf(c.def);
        var added' := added[base := Counter(owner, c.count)];
        var r := PromoteFrom(cfg, counters, files', rest, added');
        assert PromoteFrom(cfg, counters, files, ids, added) == r;
        ReadyAfterCopy(cfg, counters, files, ids);
        PromoteCopies(cfg, counters, files', rest, added');
        PromoteFrame(cfg, counters, files', rest, added', base);
        forall k | 0 <= k < |ids| && Promoted(cfg, counters, ids[k])
          ensures var b := counters[ids[k]].def.baseName;
            && Lookup(r.value.0, FileOf(b)) == Some(files[FileOf(ids[k])])
            && b in r.value.1 && r.value.1[b].count == counters[ids[k]].count
        {
          if k > 0 {
            assert ids[k] == rest[k - 1];
            assert files'[FileOf(rest[k - 1])] == files[FileOf(ids[k])];
          }
        }
      } else {
        assert PromoteFrom(cfg, counters, files, ids, added) == PromoteFrom(cfg, counters, files, rest, added);
        ReadyTail(cfg, counters, files, ids);
        PromoteCopies(cfg, counters, files, rest, added);
        assert forall k :: 1 <= k < |ids| ==> ids[k] == rest[k - 1];
      }
    }
  }

  /** No bundle in the default locale has a base name that is itself a
      counted identity (which would make a copy overwrite a counted file). */
  ghost predicate NoCopyClash(cfg: Config, counters: map<string, Counter>) {
    forall a, b :: a in counters && b in counters && Promoted(cfg, counters, a) ==> counters[a].def.baseName != b
  }

  lemma WfPromotionReady(cfg: Config, disk: Files, st: GenState)
    requires Wf(cfg, disk, st) && NoCopyClash(cfg, st.counters)
    ensures PromotionReady(cfg, st.counters, st.files, st.order)
  {
  }

  /** A run that gets through the scan: each scanned bundle's counter is the
      number of records the run wrote to its file, and after promotion every
      bundle in the default locale has a locale-less copy of its file and
      its count recorded under the base name. */
  lemma ExecuteGenerates(cfg: Config, disk: Files, contracts: seq<Contract>)
    requires AggregateDef(cfg).Ok?
    requires var scan := ScanAll(cfg, AggregateDef(cfg).value, Begin(disk), contracts);
      scan.Ok? && NoCopyClash(cfg, scan.value.counters)
    ensures var scan := ScanAll(cfg, AggregateDef(cfg).value, Begin(disk), contracts).value;
      var r := Execute(cfg, disk, contracts);
      && r.Ok?
      && Tracked(cfg, disk, scan)
      && forall id :: Promoted(cfg, scan.counters, id) ==>
           var base := scan.counters[id].def.baseName;
           && Lookup(r.value.files, FileOf(base)) == Some(scan.files[FileOf(id)])
           && base in r.value.counters && r.value.counters[base].count == scan.counters[id].count
  {
    var agg := AggregateDef(cfg).value;
    var scan := ScanAll(cfg, agg, Begin(disk), contracts).value;
    BeginWf(cfg, disk);
    ScanAllWf(cfg, disk, agg, Begin(disk), contracts);
    WfPromotionReady(cfg, disk, scan);
    PromoteCopies(cfg, scan.counters, scan.files, scan.order, map[]);
    var promoted := PromoteFrom(cfg, scan.counters, scan.files, scan.order, map[]).value;
    assert Execute(cfg, disk, contracts) == Ok(scan.(files := promoted.0, counters := PutAll(scan.counters, promoted.1)));
    forall id | Promoted(cfg, scan.counters, id)
      ensures var base := scan.counters[id].def.baseName;
        && Lookup(promoted.0, FileOf(base)) == Some(scan.files[FileOf(id)])
        && base in promoted.1 && promoted.1[base].count == scan.counters[id].count
    {
      var k :| 0 <= k < |scan.order| && scan.order[k] == id;
    }
  }
}

=== FILE: mojo_lines.dfy ===
/** Which lines the generator writes: the static entries and then the
    generating methods of each contract, in order, every one repeated to
    the aggregate bundle. The lemmas follow one bundle identity at a time
    through writeMessage, the define loop, the method loop, processClass
    and the scan. */
module MojoLines {
  import opened Results
  import opened Strings
  import opened Annotations
  import opened BundleDefinition
  import opened I18nMojo

  /** A bundle the run has written to: it is counted and has a file, so
      the lines it keeps are that file's lines. */
  predicate Opened(st: GenState, id: string) {
    id in st.counters && FileOf(id) in st.files
  }

  /** How many of the bundles one mirrored write goes to are the bundle id:
      the contract's own, and the aggregate's when aggregating. */
  function Copies(id: string, def: Def, agg: Option<Def>): nat {
    (if Canonical(def) == id then 1 else 0) + (if agg.Some? && Canonical(agg.value) == id then 1 else 0)
  }

  /** n copies of a line. */
  function Repeat(n: nat, line: string): (r: seq<string>)
    ensures |r| == n
    ensures forall i :: 0 <= i < n ==> r[i] == line
  {
    if n == 0 then [] else [line] + Repeat(n - 1, line)
  }

  /** The lines a bundle receives from messages (key, text) each written n
      times: "key=text" for every text that is not blank, in message order. */
  function Written(n: nat, msgs: seq<(string, string)>): seq<string> {
    if |msgs| == 0 then []
    else (if IsBlank(msgs[0].1) then [] else Repeat(n, msgs[0].0 + "=" + msgs[0].1)) + Written(n, msgs[1..])
  }

  /** The static entries of @ResourceBundle.define as (key, text), split at
      their first '='. */
  function DefineMessages(entries: seq<string>): seq<(string, string)> {
    if |entries| == 0 then []
    else
      (match SplitDefine(entries[0]) case Some(kv) => [kv] case None => [])
      + DefineMessages(entries[1..])
  }

  /** The generating methods as (key, text): the @Message key or else the
      method name, and the @Message value; other methods write nothing. */
  function OperationMessages(ops: seq<Operation>): seq<(string, string)> {
    if |ops| == 0 then []
    else
      (if Generates(ops[0]) then [(MessageKey(ops[0].name, ops[0].message.value), ops[0].message.value.value)] else [])
      + OperationMessages(ops[1..])
  }

  /** What processClass writes for a class: nothing for a class that is not
      a message contract or whose bundle type is not PROPERTY; the methods
      alone without a bundle annotation; otherwise the static entries and
      then the methods. */
  function ClassMessages(c: Contract): seq<(string, string)> {
    if !c.isInterface || !c.isMessageContract then []
    else
      match c.bundle
      case None => OperationMessages(c.operations)
      case Some(a) => if a.btype != PROPERTY then [] else DefineMessages(a.define) + OperationMessages(c.operations)
  }

  /** The lines bundle id receives from a scan over cs. */
  function ScanWritten(cfg: Config, agg: Option<Def>, id: string, cs: seq<Contract>): seq<string> {
    if |cs| == 0 then []
    else Written(Copies(id, ContractDef(cfg, cs[0]), agg), ClassMessages(cs[0])) + ScanWritten(cfg, agg, id, cs[1..])
  }

  /** From st to r the lines bundle id keeps grow by w; a bundle once
      written to stays opened, and one that receives a line is opened. */
  predicate Grows(cfg: Config, st: GenState, r: GenState, id: string, w: seq<string>) {
    && Kept(cfg, r, id) == Kept(cfg, st, id) + w
    && (Opened(st, id) ==> Opened(r, id))
    && (|w| > 0 ==> Opened(r, id))
  }

  lemma GrowsTrans(cfg: Config, a: GenState, b: GenState, c: GenState, id: string, w1: seq<string>, w2: seq<string>)
    requires Grows(cfg, a, b, id, w1) && Grows(cfg, b, c, id, w2)
    ensures Grows(cfg, a, c, id, w1 + w2)
  {
    assert Kept(cfg, a, id) + w1 + w2 == Kept(cfg, a, id) + (w1 + w2);
  }

  lemma {:induction false} WrittenAppend(n: nat, a: seq<(string, string)>, b: seq<(string, string)>)
    ensures Written(n, a + b) == Written(n, a) + Written(n, b)
    decreases |a|
  {
    if |a| > 0 {
      assert (a + b)[1..] == a[1..] + b;
      WrittenAppend(n, a[1..], b);
    } else {
      assert a + b == b;
    }
  }

  /** One line appended for def: it follows the lines def's bundle keeps,
      and every other bundle keeps what it kept. */
  lemma AppendedKept(cfg: Config, st: GenState, def: Def, line: string, r: GenState, id: string)
    requires Appended(cfg, st, def, line, r)
    ensures Grows(cfg, st, r, id, if Canonical(def) == id then [line] else [])
  {
    FileOfInjective(id, Canonical(def));
    if Canonical(def) != id {
      assert Lookup(r.files, FileOf(id)) == Lookup(st.files, FileOf(id));
    }
  }

  lemma WrittenOne(n: nat, key: string, text: string)
    ensures Written(n, [(key, text)]) == if IsBlank(text) then [] else Repeat(n, key + "=" + text)
  {
    assert [(key, text)][1..] == [];
  }

  /** A mirrored line is kept once for the contract's bundle and once more
      for the aggregate's. */
  lemma MirroredKept(cfg: Config, agg: Option<Def>, st: GenState, def: Def, line: string, r: GenState, id: string)
    requires Mirrored(cfg, agg, st, def, line, r)
    ensures Grows(cfg, st, r, id, Repeat(Copies(id, def, agg), line))
  {
    var mid :| && Appended(cfg, st, def, line, mid)
               && if agg.Some? then Appended(cfg, mid, agg.value, line, r) else r == mid;
    var w1: seq<string> := if Canonical(def) == id then [line] else [];
    var w2: seq<string> := if agg.Some? && Canonical(agg.value) == id then [line] else [];
    AppendedKept(cfg, st, def, line, mid, id);
    if agg.Some? {
      AppendedKept(cfg, mid, agg.value, line, r, id);
      GrowsTrans(cfg, st, mid, r, id, w1, w2);
    } else {
      assert w1 + w2 == w1;
    }
    RepeatSum(Canonical(def) == id, agg.Some? && Canonical(agg.value) == id, line);
  }

  lemma RepeatSum(a: bool, b: bool, line: string)
    ensures Repeat((if a then 1 else 0) + (if b then 1 else 0), line)
         == (if a then [line] else []) + (if b then [line] else [])
  {
  }

  /** A mirrored write adds its line once for the contract's bundle and once
      more for the aggregate's, and nothing for a blank text. */
  lemma MirrorKept(cfg: Config, agg: Option<Def>, st: GenState, def: Def, key: string, text: string, id: string)
    requires Mirror(cfg, agg, st, def, key, text).Ok?
    ensures Grows(cfg, st, Mirror(cfg, agg, st, def, key, text).value, id, Written(Copies(id, def, agg), [(key, text)]))
  {
    WrittenOne(Copies(id, def, agg), key, text);
    if IsBlank(text) {
      assert Kept(cfg, st, id) + [] == Kept(cfg, st, id);
    } else {
      MirroredKept(cfg, agg, st, def, key + "=" + text, Mirror(cfg, agg, st, def, key, text).value, id);
    }
  }

  lemma {:induction false} WriteDefinitionsKept(cfg: Config, agg: Option<Def>, st: GenState, def: Def,
                                                className: string, entries: seq<string>, id: string)
    requires WriteDefinitions(cfg, agg, st, def, className, entries).Ok?
    ensures Grows(cfg, st, WriteDefinitions(cfg, agg, st, def, className, entries).value, id,
                  Written(Copies(id, def, agg), DefineMessages(entries)))
    decreases |entries|
  {
    var n := Copies(id, def, agg);
    if |entries| == 0 {
      assert Kept(cfg, st, id) + [] == Kept(cfg, st, id);
    } else {
      var kv := SplitDefine(entries[0]).value;
      var mid := Mirror(cfg, agg, st, def, kv.0, kv.1).value;
      MirrorKept(cfg, agg, st, def, kv.0, kv.1, id);
      WriteDefinitionsKept(cfg, agg, mid, def, className, entries[1..], id);
      assert DefineMessages(entries) == [kv] + DefineMessages(entries[1..]);
      WrittenAppend(n, [kv], DefineMessages(entries[1..]));
      GrowsTrans(cfg, st, mid, WriteDefinitions(cfg, agg, st, def, className, entries).value, id,
                 Written(n, [kv]), Written(n, DefineMessages(entries[1..])));
    }
  }

  /** One turn of the method loop: a method that does not generate is
      passed over, one that does is mirrored before the rest. */
  lemma OperationStep(cfg: Config, agg: Option<Def>, st: GenState, def: Def, ops: seq<Operation>)
    requires |ops| > 0 && WriteOperations(cfg, agg, st, def, ops).Ok?
    ensures var r := WriteOperations(cfg, agg, st, def, ops).value.0;
      if !Generates(ops[0]) then
        && WriteOperations(cfg, agg, st, def, ops[1..]).Ok?
        && r == WriteOperations(cfg, agg, st, def, ops[1..]).value.0
      else
        var m := ops[0].message.value;
        var w := Mirror(cfg, agg, st, def, MessageKey(ops[0].name, m), m.value);
        && w.Ok?
        && WriteOperations(cfg, agg, w.value, def, ops[1..]).Ok?
        && r == WriteOperations(cfg, agg, w.value, def, ops[1..]).value.0
  {
  }

  lemma {:induction false} WriteOperationsKept(cfg: Config, agg: Option<Def>, st: GenState, def: Def,
                                               ops: seq<Operation>, id: string)
    requires WriteOperations(cfg, agg, st, def, ops).Ok?
    ensures Grows(cfg, st, WriteOperations(cfg, agg, st, def, ops).value.0, id,
                  Written(Copies(id, def, agg), OperationMessages(ops)))
    decreases |ops|
  {
    var n := Copies(id, def, agg);
    var r := WriteOperations(cfg, agg, st, def, ops).value.0;
    if |ops| == 0 {
      assert Kept(cfg, st, id) + [] == Kept(cfg, st, id);
    } else if !Generates(ops[0]) {
      OperationStep(cfg, agg, st, def, ops);
      WriteOperationsKept(cfg, agg, st, def, ops[1..], id);
      assert OperationMessages(ops) == OperationMessages(ops[1..]) by {
        assert [] + OperationMessages(ops[1..]) == OperationMessages(ops[1..]);
      }
      assert r == WriteOperations(cfg, agg, st, def, ops[1..]).value.0;
    } else {
      var m := ops[0].message.value;
      var kv := (MessageKey(ops[0].name, m), m.value);
      OperationStep(cfg, agg, st, def, ops);
      var mid := Mirror(cfg, agg, st, def, kv.0, kv.1).value;
      MirrorKept(cfg, agg, st, def, kv.0, kv.1, id);
      WriteOperationsKept(cfg, agg, mid, def, ops[1..], id);
      assert OperationMessages(ops) == [kv] + OperationMessages(ops[1..]);
      WrittenAppend(n, [kv], OperationMessages(ops[1..]));
      GrowsTrans(cfg, st, mid, r, id, Written(n, [kv]), Written(n, OperationMessages(ops[1..])));
    }
  }

  lemma ProcessClassKept(cfg: Config, agg: Option<Def>, st: GenState, c: Contract, id: string)
    requires ProcessClass(cfg, agg, st, c).Ok?
    ensures Grows(cfg, st, ProcessClass(cfg, agg, st, c).value.0, id,
                  Written(Copies(id, ContractDef(cfg, c), agg), ClassMessages(c)))
  {
    var def := ContractDef(cfg, c);
    var n := Copies(id, def, agg);
    if !c.isInterface || !c.isMessageContract || (c.bundle.Some? && c.bundle.value.btype != PROPERTY) {
      assert Kept(cfg, st, id) + [] == Kept(cfg, st, id);
    } else if c.bundle.None? {
      WriteOperationsKept(cfg, agg, st, def, c.operations, id);
    } else {
      var a := c.bundle.value;
      var typed := def.(btype := PROPERTY);
      assert Copies(id, typed, agg) == n;
      var mid := WriteDefinitions(cfg, agg, st, typed, c.className, a.define).value;
      WriteDefinitionsKept(cfg, agg, st, typed, c.className, a.define, id);
      WriteOperationsKept(cfg, agg, mid, typed, c.operations, id);
      WrittenAppend(n, DefineMessages(a.define), OperationMessages(c.operations));
      GrowsTrans(cfg, st, mid, ProcessClass(cfg, agg, st, c).value.0, id,
                 Written(n, DefineMessages(a.define)), Written(n, OperationMessages(c.operations)));
    }
  }

  /** A lenient pass over an accepted class succeeds. The contract's bundle
      file, when not also the aggregate's, then holds the lines it kept
      followed by "key=text" for each static entry and then each generating
      method, in order, skipping blank texts; every bundle's lines grow by
      what the class sends it. */
  lemma ProcessClassWrites(cfg: Config, agg: Option<Def>, st: GenState, c: Contract)
    requires !(cfg.verify && cfg.pedantic) && Accepted(c)
    ensures ProcessClass(cfg, agg, st, c).Ok?
    ensures var r := ProcessClass(cfg, agg, st, c).value.0;
      var id := Canonical(ContractDef(cfg, c));
      && (agg.None? || Canonical(agg.value) != id ==>
            && Kept(cfg, r, id) == Kept(cfg, st, id) + Written(1, ClassMessages(c))
            && (|Written(1, ClassMessages(c))| > 0 ==>
                  FileOf(id) in r.files && r.files[FileOf(id)] == Kept(cfg, st, id) + Written(1, ClassMessages(c))))
      && forall o :: Grows(cfg, st, r, o, Written(Copies(o, ContractDef(cfg, c), agg), ClassMessages(c)))
  {
    var def := ContractDef(cfg, c);
    var r := ProcessClass(cfg, agg, st, c).value.0;
    forall o ensures Grows(cfg, st, r, o, Written(Copies(o, def, agg), ClassMessages(c))) {
      ProcessClassKept(cfg, agg, st, c, o);
    }
    var id := Canonical(def);
    if agg.None? || Canonical(agg.value) != id {
      assert Copies(id, def, agg) == 1;
      assert Grows(cfg, st, r, id, Written(1, ClassMessages(c)));
    }
  }

  lemma {:induction false} ScanAllKept(cfg: Config, agg: Option<Def>, st: GenState, cs: seq<Contract>, id: string)
    requires ScanAll(cfg, agg, st, cs).Ok?
    ensures Grows(cfg, st, ScanAll(cfg, agg, st, cs).value, id, ScanWritten(cfg, agg, id, cs))
    decreases |cs|
  {
    if |cs| == 0 {
      assert Kept(cfg, st, id) + [] == Kept(cfg, st, id);
    } else {
      var mid := ProcessClass(cfg, agg, st, cs[0]).value.0;
      ProcessClassKept(cfg, agg, st, cs[0], id);
      ScanAllKept(cfg, agg, mid, cs[1..], id);
      GrowsTrans(cfg, st, mid, ScanAll(cfg, agg, st, cs).value, id,
                 Written(Copies(id, ContractDef(cfg, cs[0]), agg), ClassMessages(cs[0])),
                 ScanWritten(cfg, agg, id, cs[1..]));
    }
  }

  /** A lenient scan over accepted classes succeeds, and every bundle that
      receives a line ends with its file holding the lines it started the
      run with (the disk's when appending, none otherwise) followed by the
      lines of each class in scan order. */
  lemma ScanLines(cfg: Config, disk: Files, agg: Option<Def>, cs: seq<Contract>)
    requires !(cfg.verify && cfg.pedantic)
    requires forall i :: 0 <= i < |cs| ==> Accepted(cs[i])
    ensures ScanAll(cfg, agg, Begin(disk), cs).Ok?
    ensures var r := ScanAll(cfg, agg, Begin(disk), cs).value;
      forall id :: |ScanWritten(cfg, agg, id, cs)| > 0 ==>
        && FileOf(id) in r.files
        && r.files[FileOf(id)] == Prior(cfg, disk, FileOf(id)) + ScanWritten(cfg, agg, id, cs)
  {
    forall id | |ScanWritten(cfg, agg, id, cs)| > 0
      ensures var r := ScanAll(cfg, agg, Begin(disk), cs).value;
        && FileOf(id) in r.files
        && r.files[FileOf(id)] == Prior(cfg, disk, FileOf(id)) + ScanWritten(cfg, agg, id, cs)
    {
      ScanAllKept(cfg, agg, Begin(disk), cs, id);
    }
  }
}

=== FILE: results.dfy ===
/** Failure-compatible wrappers shared by every module of the model, and the
    runtime exceptions the library raises or lets through to its callers. */
module Results {

  /** A possibly-null Java reference. */
  datatype Option<+T> = None | Some(value: T) {
    function GetOr(default: T): T {
      match this
      case Some(v) => v
      case None => default
    }
  }

  /** A value, or the exception that replaced it. */
  datatype Result<+T, +E> = Ok(value: T) | Err(error: E)

  /** The unchecked exceptions of the runtime half of the library. */
  datatype RuntimeFailure =
    | IllegalArgument      // java.lang.IllegalArgumentException
    | UnsupportedOperation // java.lang.UnsupportedOperationException
    | NullPointer          // java.lang.NullPointerException
    | MissingResource      // java.util.MissingResourceException
    // java.lang.reflect.UndeclaredThrowableException: a proxy's answer to a
    // checked exception from its handler, here the InvocationTargetException
    // Method.invoke wraps around the named failure
    | UndeclaredThrowable(cause: RuntimeFailure)
}

=== FILE: strings.dfy ===
/** The handful of java.lang.String operations the library's logic is built
    from, with Java's index conventions (-1 for "not found"). */
module Strings {

  /** String.indexOf(char, fromIndex): a negative start counts as 0 and a
      start at or past the end finds nothing. */
  function IndexOf(s: string, c: char, from: int): (r: int)
    ensures -1 <= r < |s|
    ensures r >= 0 ==> from <= r && s[r] == c
    ensures r >= 0 ==> forall j :: from <= j < r && 0 <= j ==> s[j] != c
    ensures r == -1 ==> forall j :: from <= j < |s| && 0 <= j ==> s[j] != c
    decreases |s| - from
  {
    if from < 0 then IndexOf(s, c, 0)
    else if from >= |s| then -1
    else if s[from] == c then from
    else IndexOf(s, c, from + 1)
  }

  /** A carriage return immediately followed by a line feed starts at i. */
  predicate CrLfAt(s: string, i: int) {
    0 <= i && i + 1 < |s| && s[i] == '\r' && s[i + 1] == '\n'
  }

  /** String.indexOf("\r\n", fromIndex). */
  function IndexOfCrLf(s: string, from: int): (r: int)
    ensures -1 <= r < |s|
    ensures r >= 0 ==> from <= r && CrLfAt(s, r)
    ensures r >= 0 ==> forall j :: from <= j < r ==> !CrLfAt(s, j)
    ensures r == -1 ==> forall j :: from <= j ==> !CrLfAt(s, j)
    decreases |s| - from
  {
    if from < 0 then IndexOfCrLf(s, 0)
    else if from + 1 >= |s| then -1
    else if CrLfAt(s, from) then from
    else IndexOfCrLf(s, from + 1)
  }

  /** String.trim treats every character up to and including the space as white. */
  predicate IsWhite(c: char) {
    c <= ' '
  }

  /** Every character is white: what String.trim reduces to the empty string. */
  predicate IsBlank(s: string) {
    forall i :: 0 <= i < |s| ==> IsWhite(s[i])
  }

  function TrimStart(s: string): (r: string)
    ensures |r| <= |s| && r == s[|s| - |r|..]
    ensures forall i :: 0 <= i < |s| - |r| ==> IsWhite(s[i])
    ensures |r| > 0 ==> !IsWhite(r[0])
  {
    if |s| > 0 && IsWhite(s[0]) then TrimStart(s[1..]) else s
  }

  function TrimEnd(s: string): (r: string)
    ensures |r| <= |s| && r == s[..|r|]
    ensures forall i :: |r| <= i < |s| ==> IsWhite(s[i])
    ensures |r| > 0 ==> !IsWhite(r[|r| - 1])
  {
    if |s| > 0 && IsWhite(s[|s| - 1]) then TrimEnd(s[..|s| - 1]) else s
  }

  /** String.trim: drop white characters from both ends. What remains is a
      slice of s with only white characters around it, and it neither
      starts nor ends with one. */
  function Trim(s: string): (r: string)
    ensures |r| <= |s|
    ensures exists i :: 0 <= i && i + |r| <= |s| && r == s[i..i + |r|] && IsBlank(s[..i]) && IsBlank(s[i + |r|..])
    ensures |r| > 0 ==> !IsWhite(r[0]) && !IsWhite(r[|r| - 1])
  {
    var t := TrimStart(s);
    var r := TrimEnd(t);
    BetweenBlanks(s, t, r);
    r
  }

  /** A prefix r of a suffix t of s, with only white characters cut away
      on either side, is a slice of s between two blank runs. */
  lemma BetweenBlanks(s: string, t: string, r: string)
    requires |t| <= |s| && t == s[|s| - |t|..] && forall i :: 0 <= i < |s| - |t| ==> IsWhite(s[i])
    requires |r| <= |t| && r == t[..|r|] && forall i :: |r| <= i < |t| ==> IsWhite(t[i])
    ensures var i := |s| - |t|; r == s[i..i + |r|] && IsBlank(s[..i]) && IsBlank(s[i + |r|..])
  {
    var i := |s| - |t|;
    assert s[i + |r|..] == t[|r|..];
  }

  /** text.trim().length() == 0 exactly when every character is white. */
  lemma TrimEmptyIffBlank(s: string)
    ensures |Trim(s)| == 0 <==> IsBlank(s)
  {
    var t := TrimStart(s);
    if |Trim(s)| == 0 {
      assert |t| == 0;
    } else {
      var k := |s| - |t|;
      assert !IsWhite(t[0]) && t[0] == s[k];
    }
  }

  /** A suffix appended to two strings keeps them apart. */
  lemma AppendInjective(a: string, b: string, suffix: string)
    requires a + suffix == b + suffix
    ensures a == b
  {
    assert |a| == |b|;
    assert a == (a + suffix)[..|a|];
    assert b == (b + suffix)[..|b|];
  }
}

=== FILE: threadlocale.dfy ===
/** ThreadLocale: one process-wide mode bit choosing between a single global
    locale slot and a slot per thread. Threads are named by explicit ids and
    each operation is one atomic step. */
module ThreadLocale {
  import opened Results
  import opened Locales

  type ThreadId = nat

  /** perThread is the AtomicBoolean, global the shared field, slots the
      values each thread has stored in its ThreadLocal (null included). */
  datatype State = State(perThread: bool, global: Option<Locale>, slots: map<ThreadId, Option<Locale>>)

  /** A fresh ThreadLocale: per-thread mode, no global locale, no thread has set anything. */
  const Initial: State := State(true, None, map[])

  /** setThread: flips the mode and touches no slot. */
  function SetThread(st: State, useThread: bool): (r: State)
    ensures r.perThread == useThread
    ensures r.global == st.global && r.slots == st.slots
  {
    st.(perThread := useThread)
  }

  /** What get returns, and the state after it. */
  datatype Read = Read(locale: Option<Locale>, st: State)

  /** get: in global mode the global slot. In per-thread mode the caller's
      slot; a thread that never stored one gets ThreadLocal.initialValue(),
      the process default at that moment, which ThreadLocal.get stores in
      the slot, so later reads keep it whatever the default becomes. */
  function Get(st: State, thread: ThreadId, processDefault: Locale): (r: Read)
    ensures st.perThread && thread in st.slots ==> r == Read(st.slots[thread], st)
    ensures st.perThread && thread !in st.slots ==>
      r.locale == Some(processDefault) && r.st == st.(slots := st.slots[thread := Some(processDefault)])
    ensures !st.perThread ==> r == Read(st.global, st)
  {
    if st.perThread then
      if thread in st.slots then Read(st.slots[thread], st)
      else Read(Some(processDefault), st.(slots := st.slots[thread := Some(processDefault)]))
    else Read(st.global, st)
  }

  /** A read changes nothing a second read could tell apart: reading again
      returns the same locale and leaves the state as the first read left
      it, even when the process default has changed in between. */
  lemma GetPinsValue(st: State, thread: ThreadId, before: Locale, after: Locale)
    ensures var first := Get(st, thread, before);
      Get(first.st, thread, after) == first
  {
  }

  /** set: writes the slot the current mode selects, and only that slot. */
  function Set(st: State, thread: ThreadId, locale: Option<Locale>): (r: State)
    ensures r.perThread == st.perThread
    ensures st.perThread ==> r.global == st.global && r.slots == st.slots[thread := locale]
    ensures !st.perThread ==> r.global == locale && r.slots == st.slots
  {
    if st.perThread then st.(slots := st.slots[thread := locale])
    else st.(global := locale)
  }

  /** Initially every thread reads the process default, and switching to
      global mode before any set reads null. */
  lemma InitialReads(thread: ThreadId, processDefault: Locale)
    ensures Get(Initial, thread, processDefault).locale == Some(processDefault)
    ensures Get(SetThread(Initial, false), thread, processDefault).locale == None
  {
  }

  /** In per-thread mode a set is seen only by the thread that made it:
      every other thread's reading and the global slot are unchanged. */
  lemma PerThreadSetIsolated(st: State, thread: ThreadId, other: ThreadId, locale: Option<Locale>, processDefault: Locale)
    requires st.perThread && other != thread
    ensures Get(Set(st, thread, locale), other, processDefault).locale == Get(st, other, processDefault).locale
    ensures Set(st, thread, locale).global == st.global
  {
  }

  /** In global mode a set changes only the global slot, and every thread
      then reads it. */
  lemma GlobalSetShared(st: State, thread: ThreadId, other: ThreadId, locale: Option<Locale>, processDefault: Locale)
    requires !st.perThread
    ensures Set(st, thread, locale).slots == st.slots
    ensures Get(Set(st, thread, locale), other, processDefault).locale == locale
  {
  }

  /** In the same mode and thread, get returns what set stored. */
  lemma SetThenGet(st: State, thread: ThreadId, locale: Option<Locale>, processDefault: Locale)
    ensures Get(Set(st, thread, locale), thread, processDefault).locale == locale
  {
  }

  /** Switching to global mode and back exposes the per-thread values stored
      before, whatever was set globally in between. */
  lemma SwitchBackRestores(st: State, thread: ThreadId, caller: ThreadId, locale: Option<Locale>, processDefault: Locale)
    requires st.perThread
    ensures var away := Set(SetThread(st, false), caller, locale);
      Get(SetThread(away, true), thread, processDefault).locale == Get(st, thread, processDefault).locale
  {
  }
}

=== FILE: verifiers.dfy ===
/** The two text checks the bundle generator runs on every message it writes
    in verify mode: unescaped line breaks and placeholders hidden inside a
    single-quoted span. Each is given as a functional mirror of the Java
    loop, a characterisation in terms of the text alone, and a method with
    the loop itself. */
module Verifiers {
  import opened Strings

  // ---------------------------------------------------------------------
  // checkNewlines
  // ---------------------------------------------------------------------

  /** A line break at p is escaped when a backslash precedes it; a break at
      index 0 never is. For a CR-LF the character before the CR counts. */
  predicate Unescaped(s: string, p: int) {
    0 <= p < |s| && (p == 0 || s[p - 1] != '\\')
  }

  /** The positions the do-while loop examines when its search starts at
      `from`: the next CR-LF anywhere ahead, else the next line feed, then on
      past the break. */
  function Examined(s: string, from: nat): (r: seq<nat>)
    requires from <= |s|
    ensures forall i :: 0 <= i < |r| ==> from <= r[i] < |s| && (s[r[i]] == '\n' || CrLfAt(s, r[i]))
    ensures forall i, j :: 0 <= i < j < |r| ==> r[i] < r[j]
    decreases |s| - from
  {
    var crlf := IndexOfCrLf(s, from);
    if crlf != -1 then [crlf] + Examined(s, crlf + 2)
    else
      var lf := IndexOf(s, '\n', from);
      if lf != -1 then [lf] + Examined(s, lf + 1)
      else []
  }

  /** The examined positions that are reported, in order. */
  function UnescapedAmong(s: string, ps: seq<nat>): seq<nat> {
    if |ps| == 0 then []
    else (if Unescaped(s, ps[0]) then [ps[0]] else []) + UnescapedAmong(s, ps[1..])
  }

  /** The filter keeps exactly the unescaped positions. */
  lemma {:induction false} UnescapedAmongMembers(s: string, ps: seq<nat>, p: int)
    ensures p in UnescapedAmong(s, ps) <==> p in ps && Unescaped(s, p)
  {
    if |ps| > 0 {
      UnescapedAmongMembers(s, ps[1..], p);
      assert ps == [ps[0]] + ps[1..];
    }
  }

  /** No CR-LF starts after p. */
  predicate NoCrLfAfter(s: string, p: int) {
    forall j :: p < j < |s| ==> !CrLfAt(s, j)
  }

  /** The positions the check reaches, stated without the loop: every CR-LF,
      and every bare line feed that no CR-LF follows. A bare line feed with
      a CR-LF somewhere after it is jumped over. */
  predicate Reached(s: string, p: int) {
    0 <= p < |s| && (CrLfAt(s, p) || (s[p] == '\n' && !CrLfAt(s, p - 1) && NoCrLfAfter(s, p)))
  }

  /** Past a CR-LF found from `from`, the reached positions are that CR-LF
      and those after its line feed: a bare line feed before it has a CR-LF
      after it, and its own line feed follows a CR. */
  lemma ReachedPastCrLf(s: string, from: nat, crlf: nat, p: int)
    requires from <= |s| && crlf == IndexOfCrLf(s, from)
    ensures from <= p && Reached(s, p) <==> p == crlf || (crlf + 2 <= p && Reached(s, p))
  {
    if from <= p < crlf && s[p] == '\n' {
      assert !NoCrLfAfter(s, p) by { assert CrLfAt(s, crlf); }
    }
    if p == crlf + 1 {
      assert CrLfAt(s, p - 1);
    }
  }

  /** With no CR-LF ahead, the reached positions are the next line feed and
      those after it. */
  lemma ReachedPastLineFeed(s: string, from: nat, lf: nat, p: int)
    requires from <= |s| && (from == 0 || s[from - 1] == '\n')
    requires IndexOfCrLf(s, from) == -1 && lf == IndexOf(s, '\n', from)
    ensures from <= p && Reached(s, p) <==> p == lf || (lf + 1 <= p && Reached(s, p))
  {
    if p == lf {
      assert !CrLfAt(s, p - 1);
    }
  }

  /** The loop examines exactly the reached positions at or after its start,
      provided the start follows a line feed (or is 0), as every start the
      loop produces does. */
  lemma {:induction false} ExaminedIsReached(s: string, from: nat, p: int)
    requires from <= |s|
    requires from == 0 || s[from - 1] == '\n'
    ensures p in Examined(s, from) <==> from <= p && Reached(s, p)
    decreases |s| - from
  {
    var crlf := IndexOfCrLf(s, from);
    if crlf != -1 {
      ExaminedIsReached(s, crlf + 2, p);
      ReachedPastCrLf(s, from, crlf, p);
    } else {
      var lf := IndexOf(s, '\n', from);
      if lf != -1 {
        ExaminedIsReached(s, lf + 1, p);
        ReachedPastLineFeed(s, from, lf, p);
      }
    }
  }

  /** Reporting distributes over a leading position. */
  lemma UnescapedAmongCons(s: string, p: nat, rest: seq<nat>)
    ensures UnescapedAmong(s, [p] + rest) == (if Unescaped(s, p) then [p] else []) + UnescapedAmong(s, rest)
  {
    assert ([p] + rest)[1..] == rest;
  }

  /** The search start a loop index denotes: Java's indexOf reads a negative
      start as 0. */
  function Start(i: int): nat {
    if i < 0 then 0 else i
  }

  /** One turn of the do-while in checkNewlines as written: the break it finds
      (the next CR-LF, else the next line feed) heads the remaining reports
      when unescaped, and the search goes on past it. */
  lemma {:induction false} NewlineTurn(s: string, start: int, found: int, step: nat)
    requires -1 <= start <= |s|
    requires IndexOfCrLf(s, start) != -1 ==> found == IndexOfCrLf(s, start) && step == 2
    requires IndexOfCrLf(s, start) == -1 ==> found == IndexOf(s, '\n', start) && step == 1
    ensures found == -1 ==> Examined(s, Start(start)) == []
    ensures found != -1 ==>
      && 0 <= found && found + step <= |s|
      && UnescapedAmong(s, Examined(s, Start(start)))
         == (if Unescaped(s, found) then [found] else []) + UnescapedAmong(s, Examined(s, found + step))
  {
    var from := Start(start);
    assert IndexOfCrLf(s, start) == IndexOfCrLf(s, from);
    assert IndexOf(s, '\n', start) == IndexOf(s, '\n', from);
    if found != -1 {
      var rest := Examined(s, found + step);
      assert Examined(s, from) == [found] + rest;
      UnescapedAmongCons(s, found, rest);
    }
  }

  /** The search at the head of each turn: the next CR-LF anywhere ahead,
      else the next line feed, with how far to step past it. */
  method NextBreak(text: string, startSearchIndex: int) returns (newlineIndex: int, nextIndexIncrement: nat)
    ensures IndexOfCrLf(text, startSearchIndex) != -1 ==>
      newlineIndex == IndexOfCrLf(text, startSearchIndex) && nextIndexIncrement == 2
    ensures IndexOfCrLf(text, startSearchIndex) == -1 ==>
      newlineIndex == IndexOf(text, '\n', startSearchIndex) && nextIndexIncrement == 1
  {
    nextIndexIncrement := 1;
    newlineIndex := IndexOfCrLf(text, startSearchIndex);
    if newlineIndex == -1 {
      newlineIndex := IndexOf(text, '\n', startSearchIndex);
    } else {
      nextIndexIncrement := 2;
    }
  }

  /** The reports are the unescaped reached breaks. */
  lemma ReportsAreReached(s: string, p: int)
    ensures p in UnescapedAmong(s, Examined(s, 0)) <==> Reached(s, p) && Unescaped(s, p)
  {
    ExaminedIsReached(s, 0, p);
    UnescapedAmongMembers(s, Examined(s, 0), p);
  }

  /** One turn of the do-while on the running report list, when it finds
      no break: the reports so far are all the text's reports. */
  lemma ReportTurnNone(s: string, reported: seq<nat>, start: int, found: int, step: nat)
    requires -1 <= start <= |s|
    requires reported + UnescapedAmong(s, Examined(s, Start(start))) == UnescapedAmong(s, Examined(s, 0))
    requires IndexOfCrLf(s, start) != -1 ==> found == IndexOfCrLf(s, start) && step == 2
    requires IndexOfCrLf(s, start) == -1 ==> found == IndexOf(s, '\n', start) && step == 1
    requires found == -1
    ensures reported == UnescapedAmong(s, Examined(s, 0))
  {
    NewlineTurn(s, start, found, step);
  }

  lemma ReportJoin(reported: seq<nat>, mid: seq<nat>, whole: seq<nat>, head: seq<nat>, later: seq<nat>)
    requires reported + mid == whole && mid == head + later
    ensures (reported + head) + later == whole
    ensures head == [] ==> reported + later == whole
  {
    assert head == [] ==> reported + head == reported;
  }

  /** When it finds a break: the reports so far, then the break if it is
      unescaped, then those past it are the text's reports. */
  lemma {:induction false} ReportTurnFound(s: string, reported: seq<nat>, start: int, found: int, step: nat)
    requires -1 <= start <= |s|
    requires reported + UnescapedAmong(s, Examined(s, Start(start))) == UnescapedAmong(s, Examined(s, 0))
    requires IndexOfCrLf(s, start) != -1 ==> found == IndexOfCrLf(s, start) && step == 2
    requires IndexOfCrLf(s, start) == -1 ==> found == IndexOf(s, '\n', start) && step == 1
    requires found != -1
    ensures 0 <= found && start < found + step <= |s|
    ensures found == 0 || s[found - 1] != '\\' ==>
      (reported + [found]) + UnescapedAmong(s, Examined(s, found + step)) == UnescapedAmong(s, Examined(s, 0))
    ensures found != 0 && s[found - 1] == '\\' ==>
      reported + UnescapedAmong(s, Examined(s, found + step)) == UnescapedAmong(s, Examined(s, 0))
  {
    NewlineTurn(s, start, found, step);
    var later := UnescapedAmong(s, Examined(s, found + step));
    var mid, whole := UnescapedAmong(s, Examined(s, Start(start))), UnescapedAmong(s, Examined(s, 0));
    UnescapedAt(s, found);
    if Unescaped(s, found) {
      ReportJoin(reported, mid, whole, [found], later);
    } else {
      ReportJoin(reported, mid, whole, [], later);
    }
  }

  lemma UnescapedAt(s: string, p: int)
    requires 0 <= p < |s|
    ensures Unescaped(s, p) <==> p == 0 || s[p - 1] != '\\'
  {
  }

  /** One turn of the do-while: the break found from the current index is
      reported when unescaped, and the next turn starts past it; -1 when no
      break was found. */
  method NewlinesTurn(text: string, reported: seq<nat>, newlineIndex: int) returns (reports: seq<nat>, next: int)
    requires -1 <= newlineIndex <= |text|
    requires reported + UnescapedAmong(text, Examined(text, Start(newlineIndex))) == UnescapedAmong(text, Examined(text, 0))
    ensures next == -1 ==> reports == UnescapedAmong(text, Examined(text, 0))
    ensures next != -1 ==> newlineIndex < next <= |text|
    ensures next != -1 ==>
      reports + UnescapedAmong(text, Examined(text, Start(next))) == UnescapedAmong(text, Examined(text, 0))
  {
    reports := reported;
    var found, nextIndexIncrement := NextBreak(text, newlineIndex);
    next := found;
    if found > -1 {
      ReportTurnFound(text, reported, newlineIndex, found, nextIndexIncrement);
      if found == 0 || text[found - 1] != '\\' {
        reports := reports + [found];
      }
      next := found + nextIndexIncrement;
      assert Start(next) == next;
    } else {
      ReportTurnNone(text, reported, newlineIndex, found, nextIndexIncrement);
    }
  }

  /** checkNewlines, with the lenient mode's behaviour made visible: it
      returns every position it reports, in order (pedantic mode stops at
      the first). */
  method CheckNewlines(text: string) returns (reported: seq<nat>)
    ensures reported == UnescapedAmong(text, Examined(text, 0))
    ensures forall p :: p in reported <==> Reached(text, p) && Unescaped(text, p)
  {
    reported := [];
    var newlineIndex: int := -1;
    while true
      invariant -1 <= newlineIndex <= |text|
      invariant reported + UnescapedAmong(text, Examined(text, Start(newlineIndex)))
             == UnescapedAmong(text, Examined(text, 0))
      decreases |text| + 1 - newlineIndex
    {
      reported, newlineIndex := NewlinesTurn(text, reported, newlineIndex);
      if newlineIndex <= -1 {
        break;
      }
    }
    forall p ensures p in reported <==> Reached(text, p) && Unescaped(text, p) {
      ReportsAreReached(text, p);
    }
  }

  /** The pedantic check aborts exactly when some reached break is unescaped. */
  predicate UnescapedNewline(text: string) {
    |UnescapedAmong(text, Examined(text, 0))| > 0
  }

  /** A text with no CR-LF has every line feed examined. */
  lemma NoCrLfExaminesEveryLineFeed(s: string, p: int)
    requires forall j :: !CrLfAt(s, j)
    ensures p in Examined(s, 0) <==> 0 <= p < |s| && s[p] == '\n'
  {
    ExaminedIsReached(s, 0, p);
  }

  /** The jump: an unescaped bare line feed before an escaped CR-LF goes
      unreported, so the check passes a text the pedantic reading rejects. */
  lemma BareLineFeedBeforeCrLfMissed()
    ensures var s := "a\nb\\\r\n";
      s[1] == '\n' && Unescaped(s, 1) && !UnescapedNewline(s)
  {
    var s := "a\nb\\\r\n";
    assert CrLfAt(s, 4);
    forall p ensures p in Examined(s, 0) <==> p == 4 {
      ExaminedIsReached(s, 0, p);
    }
    assert !Unescaped(s, 4);
  }

  // ---------------------------------------------------------------------
  // checkSingleQuotes
  // ---------------------------------------------------------------------

  predicate IsDigit(c: char) {
    '0' <= c <= '9'
  }

  /** The regular expression "(?s).*\{[0-9].*": an opening brace directly
      followed by a decimal digit somewhere in the text. */
  predicate HasPlaceholder(t: string) {
    exists i :: 0 <= i < |t| - 1 && t[i] == '{' && IsDigit(t[i + 1])
  }

  /** The single-quote loop from the quote at `first` on (-1: no quote left),
      with quotedPlaceholder still false. Quotes are taken in pairs; a pair
      of adjacent quotes is skipped, any other pair has the text from the
      first quote up to the second searched, and an unpaired last quote has
      the rest of the text searched. */
  function QuotedFrom(s: string, first: int): (r: bool)
    requires -1 <= first < |s|
    ensures r ==> 0 <= first && PlaceholderIn(s, first, |s|)
    decreases if first < 0 then 0 else |s| + 1 - first
  {
    if first < 0 then false
    else
      var second := IndexOf(s, '\'', first + 1);
      if first + 1 == second then QuotedFrom(s, IndexOf(s, '\'', second + 1))
      else if second > -1 then
        if HasPlaceholder(s[first..second]) then true
        else QuotedFrom(s, IndexOf(s, '\'', second + 1))
      else HasPlaceholder(s[first..])
  }

  /** The number of single quotes among the first i characters. */
  function QuotesBefore(s: string, i: nat): (r: nat)
    requires i <= |s|
    ensures r <= i
  {
    if i == 0 then 0 else QuotesBefore(s, i - 1) + (if s[i - 1] == '\'' then 1 else 0)
  }

  /** A stretch free of quotes leaves the count unchanged. */
  lemma {:induction false} QuotesBeforeFlat(s: string, a: nat, b: nat)
    requires a <= b <= |s|
    requires forall j :: a <= j < b ==> s[j] != '\''
    ensures QuotesBefore(s, b) == QuotesBefore(s, a)
    decreases b - a
  {
    if a < b {
      QuotesBeforeFlat(s, a, b - 1);
    }
  }

  /** A placeholder that sits inside quotes: its brace is preceded by an odd
      number of quotes. */
  predicate QuotedPlaceholderAt(s: string, i: int) {
    0 <= i < |s| - 1 && s[i] == '{' && IsDigit(s[i + 1]) && QuotesBefore(s, i) % 2 == 1
  }

  /** A "{digit}" lying wholly within positions [a, b). */
  predicate PlaceholderIn(s: string, a: int, b: int) {
    exists i :: a <= i && i + 1 < b && 0 <= i && i + 1 < |s| && s[i] == '{' && IsDigit(s[i + 1])
  }

  /** Matching the substring is looking inside the span. */
  lemma SlicePlaceholder(s: string, a: nat, b: nat)
    requires a <= b <= |s|
    ensures HasPlaceholder(s[a..b]) <==> PlaceholderIn(s, a, b)
  {
    var t := s[a..b];
    if HasPlaceholder(t) {
      var j :| 0 <= j < |t| - 1 && t[j] == '{' && IsDigit(t[j + 1]);
      assert s[a + j] == '{' && IsDigit(s[a + j + 1]);
    }
    if PlaceholderIn(s, a, b) {
      var i :| a <= i && i + 1 < b && 0 <= i && i + 1 < |s| && s[i] == '{' && IsDigit(s[i + 1]);
      assert t[i - a] == '{' && IsDigit(t[i - a + 1]);
    }
  }

  /** The last turn of the loop: an unpaired quote has the rest of the
      text searched. */
  lemma QuotedFromUnpaired(s: string, first: nat)
    requires first < |s| && IndexOf(s, '\'', first + 1) == -1
    ensures QuotedFrom(s, first) == PlaceholderIn(s, first, |s|)
  {
    SlicePlaceholder(s, first, |s|);
    assert s[first..] == s[first..|s|];
  }

  /** Any other turn: the span up to the closing quote is searched, then the
      loop goes on from the quote after it. An adjacent pair has an empty
      span, so skipping it is the same as searching it. */
  lemma QuotedFromSpan(s: string, first: nat, second: nat, next: int)
    requires first < |s| && second == IndexOf(s, '\'', first + 1) && next == IndexOf(s, '\'', second + 1)
    ensures QuotedFrom(s, first) == (PlaceholderIn(s, first, second) || QuotedFrom(s, next))
  {
    SlicePlaceholder(s, first, second);
  }

  /** Between an even-numbered quote and the next quote (or the end) every
      brace is quoted. */
  lemma {:induction false} InsideSpan(s: string, first: nat, stop: nat)
    requires first < stop <= |s| && s[first] == '\'' && QuotesBefore(s, first) % 2 == 0
    requires forall j :: first < j < stop ==> s[j] != '\''
    requires stop < |s| ==> s[stop] == '\''
    ensures QuotesBefore(s, stop) == QuotesBefore(s, first) + 1
    ensures PlaceholderIn(s, first, stop) <==> exists i :: first <= i < stop && QuotedPlaceholderAt(s, i)
  {
    forall i | first < i <= stop
      ensures QuotesBefore(s, i) == QuotesBefore(s, first) + 1
    {
      QuotesBeforeFlat(s, first + 1, i);
    }
    if PlaceholderIn(s, first, stop) {
      var i :| first <= i && i + 1 < stop && 0 <= i && i + 1 < |s| && s[i] == '{' && IsDigit(s[i + 1]);
      assert QuotedPlaceholderAt(s, i);
    }
    if exists i :: first <= i < stop && QuotedPlaceholderAt(s, i) {
      var i :| first <= i < stop && QuotedPlaceholderAt(s, i);
      assert i + 1 < stop;
    }
  }

  /** From the quote closing a span up to the next quote (or the end) no
      brace is quoted. */
  lemma {:induction false} OutsideSpan(s: string, second: nat, far: nat)
    requires second < far <= |s| && s[second] == '\'' && QuotesBefore(s, second + 1) % 2 == 0
    requires forall j :: second < j < far ==> s[j] != '\''
    ensures forall i :: second <= i < far ==> !QuotedPlaceholderAt(s, i)
  {
    forall i | second < i < far
      ensures QuotesBefore(s, i) == QuotesBefore(s, second + 1)
    {
      QuotesBeforeFlat(s, second + 1, i);
    }
  }

  /** A quoted placeholder at or after an even-numbered quote. */
  predicate QuotedAfter(s: string, first: int) {
    exists i :: first <= i < |s| && QuotedPlaceholderAt(s, i)
  }

  /** The unpaired last quote: everything after it is quoted. */
  lemma OddQuotesUnpaired(s: string, first: nat)
    requires first < |s| && s[first] == '\'' && QuotesBefore(s, first) % 2 == 0
    requires IndexOf(s, '\'', first + 1) == -1
    ensures QuotedFrom(s, first) == QuotedAfter(s, first)
  {
    InsideSpan(s, first, |s|);
    QuotedFromUnpaired(s, first);
  }

  /** A closed span followed by no further quote. */
  lemma OddQuotesLastSpan(s: string, first: nat, second: nat)
    requires first < |s| && s[first] == '\'' && QuotesBefore(s, first) % 2 == 0
    requires second == IndexOf(s, '\'', first + 1) && IndexOf(s, '\'', second + 1) == -1
    ensures QuotedFrom(s, first) == QuotedAfter(s, first)
  {
    InsideSpan(s, first, second);
    QuotedFromSpan(s, first, second, -1);
    OutsideSpan(s, second, |s|);
  }

  /** A closed span followed by another even-numbered quote, given the claim
      for that quote. */
  lemma OddQuotesNextSpan(s: string, first: nat, second: nat, next: nat)
    requires first < |s| && s[first] == '\'' && QuotesBefore(s, first) % 2 == 0
    requires second == IndexOf(s, '\'', first + 1) && next == IndexOf(s, '\'', second + 1)
    requires QuotedFrom(s, next) == QuotedAfter(s, next)
    ensures QuotesBefore(s, next) % 2 == 0
    ensures QuotedFrom(s, first) == QuotedAfter(s, first)
  {
    var inside := exists i :: first <= i < second && QuotedPlaceholderAt(s, i);
    assert PlaceholderIn(s, first, second) == inside && QuotesBefore(s, second) == QuotesBefore(s, first) + 1 by {
      InsideSpan(s, first, second);
    }
    assert QuotesBefore(s, next) == QuotesBefore(s, second + 1) by {
      QuotesBeforeFlat(s, second + 1, next);
    }
    assert QuotedFrom(s, first) == (PlaceholderIn(s, first, second) || QuotedFrom(s, next)) by {
      QuotedFromSpan(s, first, second, next);
    }
    assert QuotedAfter(s, first) == (inside || QuotedAfter(s, next)) by {
      OutsideSpan(s, second, next);
      if QuotedAfter(s, first) {
        var i :| first <= i < |s| && QuotedPlaceholderAt(s, i);
        assert i < second || next <= i;
      }
    }
  }

  /** From an even-numbered quote on, the loop flags the text exactly when a
      quoted placeholder lies at or after that quote. */
  lemma {:induction false} QuotedFromIsOddQuotes(s: string, first: nat)
    requires first < |s| && s[first] == '\'' && QuotesBefore(s, first) % 2 == 0
    ensures QuotedFrom(s, first) == QuotedAfter(s, first)
    decreases |s| - first
  {
    var second := IndexOf(s, '\'', first + 1);
    if second == -1 {
      OddQuotesUnpaired(s, first);
    } else {
      var next := IndexOf(s, '\'', second + 1);
      if next == -1 {
        OddQuotesLastSpan(s, first, second);
      } else {
        InsideSpan(s, first, second);
        QuotesBeforeFlat(s, second + 1, next);
        QuotedFromIsOddQuotes(s, next);
        OddQuotesNextSpan(s, first, second, next);
      }
    }
  }

  /** checkSingleQuotes flags a text exactly when some "{digit}" follows an
      odd number of single quotes. */
  lemma QuotedIffOddQuotes(s: string)
    ensures QuotedFrom(s, IndexOf(s, '\'', 0)) <==> exists i :: QuotedPlaceholderAt(s, i)
  {
    var first := IndexOf(s, '\'', 0);
    var stop := if first == -1 then |s| else first;
    forall i | 0 <= i <= stop ensures QuotesBefore(s, i) == 0 {
      QuotesBeforeFlat(s, 0, i);
    }
    if first != -1 {
      QuotedFromIsOddQuotes(s, first);
    }
  }

  /** The turns of the loop, each as checkSingleQuotes is written: an adjacent pair
      of quotes is skipped, ... */
  lemma QuotedFromAdjacent(s: string, first: nat, second: int)
    requires first < |s| && second == IndexOf(s, '\'', first + 1) && first + 1 == second
    ensures QuotedFrom(s, first) == QuotedFrom(s, IndexOf(s, '\'', second + 1))
  {
  }

  /** ... any other pair has its span searched before the loop goes on, ... */
  lemma QuotedFromPaired(s: string, first: nat, second: int)
    requires first < |s| && second == IndexOf(s, '\'', first + 1) && first + 1 != second && second > -1
    ensures QuotedFrom(s, first) == (HasPlaceholder(s[first..second]) || QuotedFrom(s, IndexOf(s, '\'', second + 1)))
  {
  }

  /** ... and an unpaired quote has the rest of the text searched. */
  lemma QuotedFromLast(s: string, first: nat)
    requires first < |s| && IndexOf(s, '\'', first + 1) == -1
    ensures QuotedFrom(s, first) == HasPlaceholder(s[first..])
  {
  }

  /** One turn of the quote loop: the verdict on the quote at firstQuote
      and the next quote to look at (-1 when none is left). */
  method QuotesTurn(text: string, firstQuote: nat) returns (quoted: bool, next: int)
    requires firstQuote < |text|
    ensures -1 <= next < |text|
    ensures next != -1 ==> firstQuote < next
    ensures QuotedFrom(text, firstQuote) == (quoted || QuotedFrom(text, next))
  {
    var secondQuote := IndexOf(text, '\'', firstQuote + 1);
    if firstQuote + 1 == secondQuote {
      quoted := false;
      next := IndexOf(text, '\'', secondQuote + 1);
      QuotedFromAdjacent(text, firstQuote, secondQuote);
    } else if secondQuote > -1 {
      quoted := HasPlaceholder(text[firstQuote..secondQuote]);
      next := IndexOf(text, '\'', secondQuote + 1);
      QuotedFromPaired(text, firstQuote, secondQuote);
    } else {
      quoted := HasPlaceholder(text[firstQuote..]);
      next := -1;
      QuotedFromLast(text, firstQuote);
    }
  }

  /** checkSingleQuotes as a loop: true when the text would be reported. */
  method CheckSingleQuotes(text: string) returns (quotedPlaceholder: bool)
    ensures quotedPlaceholder == QuotedFrom(text, IndexOf(text, '\'', 0))
    ensures quotedPlaceholder <==> exists i :: QuotedPlaceholderAt(text, i)
  {
    var firstQuote := IndexOf(text, '\'', 0);
    quotedPlaceholder := false;
    while firstQuote > -1 && !quotedPlaceholder
      invariant -1 <= firstQuote < |text|
      invariant !quotedPlaceholder ==> QuotedFrom(text, firstQuote) == QuotedFrom(text, IndexOf(text, '\'', 0))
      invariant quotedPlaceholder ==> QuotedFrom(text, IndexOf(text, '\'', 0))
      decreases if firstQuote < 0 then 0 else |text| + 1 - firstQuote
    {
      quotedPlaceholder, firstQuote := QuotesTurn(text, firstQuote);
    }
    QuotedIffOddQuotes(text);
  }

  /** Two examples: an apostrophe before a placeholder is flagged, a
      doubled quote is not. */
  lemma QuoteExamples()
    ensures exists i :: QuotedPlaceholderAt("don't use {0} here", i)
    ensures !QuotedFrom("it''s fine {0}", IndexOf("it''s fine {0}", '\'', 0))
  {
    var a := "don't use {0} here";
    assert a[10] == '{' && IsDigit(a[11]);
    assert QuotesBefore(a, 4) == 1;
    QuotesBeforeFlat(a, 4, 10);
    assert QuotedPlaceholderAt(a, 10);
    var b := "it''s fine {0}";
    assert IndexOf(b, '\'', 0) == 2;
    assert IndexOf(b, '\'', 3) == 3;
    assert IndexOf(b, '\'', 4) == -1;
  }
}
